=== FILE: README.md ===
# engi core, modelled in Dafny

This project models the core of **engi**, a Go 2-D game engine built as an
entity-component-system (ECS):

- **Entities** (`entity.go`) carry an id, the names of the systems they ask
  to be scheduled by, and components stored under the string their `Type()`
  returns.
- **The World** (`world.go`) holds the entity map and the systems in
  registration order. It wires each entity into the systems it requires, and
  its `Update` runs one frame. A system with few entities is updated serially.
  Otherwise the updates go to worker goroutines, which are filtered by the
  pause flag and `Exists`, and a barrier sits before `Post`.
- **Systems** (`system.go`):
  - the embedded base system;
  - the collision system, which probes one entity against the others;
  - the render system, which rebuilds per-tier lists and draws them
    between batch Begin/End calls.
- **Pause** (`pause.go`): the listener that sets the world's paused flag.
- **Animation** (`animation.go`): named frame lists and the frame index
  that cycles through them.
- **Assets** (`assets.go`): resources made from urls, and `Load`, which
  routes each resource into the map of its kind.
- **Engine globals** (`engi.go`): the FPS limit, the headless flag, and
  SetBg's colour split.
- **The headless Pong demo** (`demos/headless/headless.go`): the ball, score,
  speed and control systems, and the world that `Setup` builds.
- **The galaxian demo's ship controls and bullets**
  (`demos/galaxian/control.go`, `demos/galaxian/bullet.go`).

How the model is built:

- Everything is immutable data and pure functions. The Go heap of
  `*Entity` objects is a map from id to entity. A pointer write is a new
  entity stored under the same id.
- A frame of `World.Update` and a render `Post` are modelled as traces of
  calls. The part that runs on goroutines is a multiset, because only the
  set of calls is fixed, not their order.
- float32 arithmetic is modelled with reals.

Module per source file:

| Go source | Dafny module (file) |
|---|---|
| entity.go | `EntityStore` (entity.dfy), `Components` (components.dfy) |
| world.go | `Worlds` (world.dfy), `Scheduler` (scheduler.dfy) |
| system.go | `Systems` (system.dfy), `CollisionSystem` (collision.dfy), `RenderSystem` (render.dfy) |
| pause.go | `Pause` (pause.dfy), `Messages` (messages.dfy) |
| animation.go | `Animation` (animation.dfy) |
| assets.go | `Assets` (assets.dfy), `GoPath` (gopath.dfy: Go's `path.Base` / `path.Ext`) |
| engi.go | `Engine` (engine.dfy) |
| demos/headless/headless.go | `HeadlessDemo` (headless.dfy) |
| demos/galaxian/control.go, bullet.go | `Galaxian` (galaxian.dfy) |

Quirks of the code that the model keeps:

- `World.RemoveEntity` only deletes the id from the world map. Systems keep
  the entity in their lists and keep updating it (`Scheduler.RemovedStillDispatched`).
- `RenderSystem.Pre` has a value receiver. The fresh tier map it builds is
  dropped, so the tiers are never cleared and a rebuild appends entities
  again (`RenderSystem.RebuildDuplicates`).
- An entity without its render or space component does not make the
  render system's serial loop skip it. Instead `Post` returns at once: no
  End call, the mutex stays held, and `changed` stays set
  (`RenderSystem.PostBrackets`, `RenderSystem.PostCompletesIff`). Only the
  parallel loop skips such an entity.
- The demos call `ComponentFast` with a string such as `"*SpeedComponent"`.
  The method's parameter is a `Component`. These calls are modelled as a
  lookup of the component kind they name.
- `UnpauseComponent.Type()` returns an `int`. The pause filter finds the
  component through the reflection lookup, under the key
  `"UnpauseComponent"`, and that is the key the model stores it under.
- `Exists` is read by the scheduler and the collision system but is not
  declared in `entity.go`. It is the entity field `present`, and
  `NewEntity` leaves it false, Go's zero value.

## Model

| member | source | states |
|---|---|---|
| EntityStore.NewEntity | entity.go:15-29 | DoesRequire(n) holds exactly for the names in the list; the new entity has the given id, no components and Exists false |
| EntityStore.EditsKeepIdentity | entity.go:63-65 | no sequence of AddComponent/RemoveComponent calls changes ID() or the set of required system names |
| EntityStore.AddComponent | entity.go:31-33 | the component is stored under its kind's Type(), replacing any earlier one; every other key keeps its entry; id, requires and Exists are unchanged |
| EntityStore.RemoveComponent | entity.go:35-37 | only the kind's Type() key is deleted; the entity is unchanged when that key is absent |
| EntityStore.ComponentFast | entity.go:59-61 | the result is present exactly when the kind's Type() key is stored, and is then the stored component |
| EntityStore.LookupAfterAdd | entity.go:31-33 | after an add, a lookup of the added kind finds the added component and a lookup of any other kind finds what it found before |
| EntityStore.AddedComponentFound | entity.go:31-33 | round trip: after AddComponent(c), a lookup of c's kind returns c through any later edits that touch other kinds |
| EntityStore.LookupKey | entity.go:43-47 | the lookup key is the type name after its first '.', when that '.' is at an index above 0, and the whole name otherwise |
| EntityStore.GetComponent | entity.go:41-54 | a hit returns true and overwrites x with the stored component; a miss returns false and leaves x as it was |
| EntityStore.LookupKeyOfGoTypeName | entity.go:42-47 | stripping the package qualifier from `*engi.K` gives exactly K's Type() string |
| EntityStore.GetComponentMatchesFast | entity.go:56-61 | the reflection lookup and ComponentFast find the same component for every kind |
| Components.TypeNameInjective | entity.go:32 | distinct component kinds are stored under distinct keys |
| Systems.AddEntity | system.go:43-45 | the entity is appended at the end of the list; the headless-skip flag is kept |
| Systems.InsertionOrder | system.go:35-49 | after repeated AddEntity calls, Entities() is the old list followed by the added ids in call order, duplicates included; Priority is 0 and SkipOnHeadless is the field |
| Systems.Batch | world.go:152-158 | a tier uses the HUD batch if and only if its priority is at least HUDGround (40), and the default batch otherwise |
| Systems.BatchMonotone | world.go:152-158 | once a tier uses the HUD batch, every higher tier does too |
| Worlds.AddEntity | world.go:43-51 | the entity is stored under its id, and exactly the registered systems whose Type() it requires get it appended; system order, types and skip flags are kept |
| Worlds.Wire | world.go:46-50 | each system gets AddEntity(id) if and only if the entity requires its Type(); the others are untouched |
| Worlds.AddTwiceAppendsTwice | world.go:46-49 | adding the same entity twice appends it twice to each system that wants it; nothing is deduplicated |
| Worlds.AddEntityValid | world.go:43-51 | AddEntity keeps the world invariant: every id listed by the map or a system names a stored entity under its own id |
| Worlds.RemoveEntity | world.go:53-57 | only the world map loses the id; the entity store, the systems' lists and the paused flag are unchanged |
| Worlds.RemoveEntityValid | world.go:53-57 | RemoveEntity keeps the world invariant |
| Worlds.AddSystem | world.go:59-64 | the system, after New(), is appended after every system already registered; nothing else changes |
| Worlds.AddSystemValid | world.go:59-64 | AddSystem keeps the world invariant |
| Worlds.LateSystemMissesEntity | world.go:59-64 | a system added after an entity does not list that entity |
| Worlds.Entities | world.go:66-74 | the slice has 2n slots: n nil slots, then the n entities of the map in iteration order, each map entry appearing among them |
| Worlds.Empty | world.go:22-24 | a fresh world (empty map, no systems) satisfies the world invariant |
| Pause.Listener | pause.go:20-26 | a PauseMessage sets paused to its value; any other message leaves the world unchanged; nothing but paused ever changes |
| Pause.Update | pause.go:29 | PauseSystem.Update changes nothing |
| Pause.ListenerIdempotent | pause.go:25 | delivering the same message twice has the effect of delivering it once |
| Pause.ListenerIsAssignment | pause.go:25 | the listener assigns and does not toggle: the result does not depend on the earlier paused value |
| Pause.DeliverLastWins | pause.go:18-27 | after a run of messages, paused is the value of the last PauseMessage, or the old value when there was none; nothing else changes |
| Pause.PauseGatesDispatch | world.go:125-136 | after PauseMessage(true), an entity without UnpauseComponent is not dispatched to the workers; after PauseMessage(false), every listed entity with Exists is |
| Scheduler.Dispatched | world.go:125-136 | the multiset sent to the workers holds each listed entity as often as it is listed, if it has Exists and (when paused) an UnpauseComponent, and holds nothing else |
| Scheduler.DispatchedIff | world.go:125-136 | an entity is sent to the workers if and only if it is listed, has Exists, and the world is not paused or it has an UnpauseComponent |
| Scheduler.SerialUpdates | world.go:103-106 | one Update call per listed entity, in list order |
| Scheduler.VisitedFrom | world.go:93-97 | the visited systems are, in increasing registration order, exactly those not skipped for being headless-skippable in headless mode |
| Scheduler.FrameVisitsInOrder | world.go:88-150 | in one frame the Pre calls and the Post calls each follow the visited systems in registration order, once per system |
| Scheduler.SystemCallsBrackets | world.go:98-142 | one visited system contributes exactly one Pre and one Post call |
| Scheduler.FrameBracketed | world.go:93-143 | Pre, then that system's Update calls, then Post: no system's calls interleave with another's, and every Pre is closed by its Post |
| Scheduler.SerialIgnoresPause | world.go:103-108 | the serial path updates every listed entity in list order, duplicates included, whatever the paused flag and the Exists flags are |
| Scheduler.ParallelFilter | world.go:111-142 | the parallel path makes one batch of updates between Pre and Post, holding an entity if and only if it is listed, has Exists, and is not paused or has an UnpauseComponent |
| Scheduler.RemovedStillDispatched | world.go:53-57 | after RemoveEntity the next frame makes exactly the same calls as before |
| CollisionSystem.Update | system.go:59-68 | without both components, or without Main, nothing moves and no message is sent; otherwise only the probe's space changes, to the scan's result, and the scan's messages are sent |
| CollisionSystem.Scan | system.go:73-101 | the same entity and others without Exists are skipped; the first eligible other lacking a component ends the scan; every message is a CollisionMessage from the probe to an eligible other before that point; a non-solid probe never moves |
| CollisionSystem.ScanInListOrder | system.go:73-98 | the others the messages name form a subsequence of the list up to the abort point, so messages go out in list order |
| CollisionSystem.ScanAppend | system.go:73-98 | a list the scan gets through whole, followed by any list: the messages of the first, then those of the second scanned from the space the first leaves |
| CollisionSystem.ScanVisitsEach | system.go:73-98 | for every other the scan reaches, solid or not: the messages before it, then a message for it exactly when it is eligible and the boxes meet at the probe's current position, then the messages after it |
| CollisionSystem.Visit | system.go:74-98 | one other in the loop: an ineligible one changes nothing; an eligible one sends a message exactly when the inflated boxes intersect; the probe moves only on a hit between two solid boxes |
| CollisionSystem.Inflate | system.go:79-90 | each box grows by Extra/2 on every side, so its size grows by Extra |
| CollisionSystem.Move | system.go:93-95 | the probe's position moves by exactly the translation; its size is kept |
| CollisionSystem.NoSolidPairReportsHits | system.go:91-98 | when no solid pair can form, the probe stays put and a message is sent for each eligible intersecting other, regardless of solidity, in list order |
| CollisionSystem.SecondTestUsesMovedBox | system.go:79-96 | after a solid-solid hit, the next other is tested against the box moved by MinimumTranslation |
| RenderSystem.New | system.go:130-134 | every tier is empty, the entity list is empty, and the system is skipped when headless |
| RenderSystem.AddEntity | system.go:136-139 | sets changed and appends the entity; the tiers are unchanged |
| RenderSystem.Pre | system.go:141-149 | the tiers are never cleared (value receiver); it blocks only when changed is set and the mutex is held |
| RenderSystem.Update | system.go:236-249 | while changed is set, an entity with a RenderComponent is appended to its priority's tier and every other tier is unchanged; otherwise nothing changes |
| RenderSystem.RebuildDuplicates | system.go:141-149 | because Pre does not clear the tiers, a rebuild lists an already listed entity a second time |
| RenderSystem.DrawInOrder | system.go:177-187 | a serial tier draws its entities in list order and stops at the first entity lacking a component, reporting that it stopped |
| RenderSystem.Drawables | system.go:190-224 | a parallel tier draws each entity with both components as often as it is listed, and skips the others |
| RenderSystem.Post | system.go:155-234 | Post blocks exactly when the mutex is held; it never changes the tiers; it either completes, clearing changed and releasing the mutex, or returns early with changed as it was and the mutex held |
| RenderSystem.PostBrackets | system.go:159-229 | Begin and End alternate; a completed Post closes every batch it opened, and an early return leaves one batch open |
| RenderSystem.PostHudLast | system.go:159-172 | every default-batch event comes before every HUD-batch event |
| RenderSystem.PostDrawOrder | system.go:159-187 | when every tier is drawn serially and every entity has its components, Post completes and draws tiers 0..50 in ascending order, each in list order |
| RenderSystem.PostDrawsOnlyTiers | system.go:159-162 | an entity in no tier from 0 to 50 is never drawn |
| RenderSystem.PostCompletesIff | system.go:177-233 | Post completes if and only if no serially drawn tier holds an entity lacking its render or space component; completion clears changed |
| Animation.NewAnimationComponent | animation.go:26-32 | no animations and no current one; index and elapsed time are zero; rate and renderables are the arguments |
| Animation.SelectAnimationByName | animation.go:35-37 | the current list becomes the named frames, or nil when the name is unknown; the index is not reset |
| Animation.SelectAnimationByAction | animation.go:40-42 | selecting by an action is selecting by the action's name |
| Animation.AddAnimationAction | animation.go:45-47 | the action's name maps to its frames; nothing else changes |
| Animation.AddActionsLastWins | animation.go:50-54 | a name maps to the frames of the last action with that name; names no action uses keep their frames |
| Animation.Cell | animation.go:57-61 | Cell succeeds if and only if the index is inside the current list and the frame number inside the renderables, and then returns that renderable; otherwise it panics |
| Animation.NextFrame | animation.go:106-117 | an empty current list changes nothing; otherwise the new index is index + 1, or 0 when index + 1 reaches the list's length, and the timer resets to 0 |
| Animation.NextFrameInRange | animation.go:112-115 | from a non-negative index on a non-empty list, one step lands inside the list |
| Animation.NextFramesCycle | animation.go:112-115 | as many steps as the list has frames bring an in-range index back to its start, and no fewer do |
| Animation.Update | animation.go:84-103 | without both components nothing happens; otherwise change grows by dt, and once it reaches Rate the frame steps and the display becomes Cell(), which may panic |
| Animation.UpdateSafe | animation.go:98-102 | with a non-empty, valid current list and a non-negative index, Update never panics |
| Animation.EmptyAnimationPanics | animation.go:106-110 | an empty current list with enough elapsed time makes Update panic: NextFrame returns early and Cell indexes an empty slice |
| GoPath.Ext | assets.go:45 | the extension is empty or starts with its only '.', contains no '/', and is a suffix of the path |
| GoPath.ExtEmptyIff | assets.go:45-48 | the extension is empty if and only if the part after the last '/' has no '.' |
| GoPath.Base | assets.go:47 | the base name is never empty; it is "." for the empty path, and "/" or a slash-free element otherwise |
| GoPath.BaseSlashIff | assets.go:47 | a non-empty path has base "/" exactly when it consists of slashes only |
| GoPath.BaseIsLastElement | assets.go:47 | any other non-empty path is q + base + s, where q is empty or ends in '/' and s is slashes only: the base is the last element |
| Assets.NewLoader | assets.go:32-41 | the loader starts with exactly one zero resource (kind "") and empty maps |
| Assets.NewResource | assets.go:44-49 | name is path.Base(url), kind is path.Ext(url) without its dot, and the url is kept; it panics if and only if the extension is empty |
| Assets.NewResourceKind | assets.go:44-49 | a resource is made exactly when the last path element contains a '.', and its kind then holds neither '.' nor '/' |
| Assets.Add | assets.go:68-74 | one resource per url is appended in argument order; existing entries and the maps are unchanged; the first url without an extension panics |
| Assets.AddConcat | assets.go:68-74 | two Add calls give the same loader as one Add with both url lists |
| Assets.Dispatch | assets.go:103-128 | one resource goes to its kind's map only (png/jpg images, json jsons, tmx levels, wav sounds, ttf fonts) and only when decoding succeeds |
| Assets.KindRouting | assets.go:103-128 | each map is fed only by its own kinds; wav stores the url undecoded; any other kind touches no map |
| Assets.Load | assets.go:101-131 | every resource, in list order, updates the maps as Dispatch does; the resource list is unchanged; onFinish is called exactly once, after all of them |
| Assets.CollectLastWins | assets.go:107-127 | after Load a name maps to the value of the last resource of that name that decoded; a failed decode changes nothing |
| Assets.NewLoaderLoadsNothing | assets.go:34 | the loader's initial zero resource is ignored by Load |
| Assets.Image | assets.go:77-79 | a pure lookup: the stored texture, or nil when absent |
| Assets.JSON | assets.go:82-84 | a pure lookup: the stored text, or "" when absent |
| Assets.LevelOf | assets.go:87-89 | a pure lookup: the stored level, or nil when absent |
| Assets.ImageAfterLoad | assets.go:104-110 | round trip: after Load, Image(name) is the texture of the last png/jpg resource of that name that decoded, or nil |
| Assets.JsonAfterLoad | assets.go:111-115 | round trip: after Load, JSON(name) is the text of the last json resource of that name that decoded, or "" |
| Assets.WavStoredVerbatim | assets.go:121-122 | a wav resource, when dispatched, is stored in the sound map under its name with its url |
| Engine.SetFPSLimit | engi.go:60-67 | a negative limit returns an error and changes nothing; any other limit, 0 included, is stored and exactly one reset signal is sent |
| Engine.SetFPSLimitTwice | engi.go:60-67 | signals count accepted calls only, and the limit is the last accepted value |
| Engine.SetBg | engi.go:51-58 | headless, GL is not called; otherwise r, g, b are bytes 2, 1, 0 of the colour divided by 255, each in [0, 1], and alpha is 1 |
| Engine.ChannelsRecompose | engi.go:53-55 | the three channel bytes recompose to the colour without its top byte |
| Engine.TopByteIgnored | engi.go:53-55 | the top byte of the colour never reaches GL |
| Engine.OpenHeadlessNoRun | engi.go:44-49 | sets headless and creates a new loader; the FPS limit is kept |
| Engine.Open | engi.go:26-32 | creates a new loader and leaves the headless flag as it is |
| Engine.HeadlessSkipsGl | engi.go:21-22 | the default FPS limit is 120 and the default is windowed; once opened headless, SetBg never calls GL |
| HeadlessDemo.BallUpdate | demos/headless/headless.go:141-180 | without both Space and Speed nothing happens; otherwise the ball ends inside [0, 784] on both axes: a scored ball at (384, 384), any other at its X with Y set to exactly 0 below 0 and to exactly 784 above 784. ScoreMessage{1} is sent when X < 0, ScoreMessage{2} when X > 784, nothing otherwise |
| HeadlessDemo.BallSpeed | demos/headless/headless.go:153-179 | a scored ball restarts at (384, 384) with the random speed 800·rand on each axis; otherwise X and the horizontal speed are kept, Y is clamped to exactly 0 or 784, and only a clamp flips the vertical speed |
| HeadlessDemo.BallInsideUntouched | demos/headless/headless.go:153-179 | a ball inside the field is left exactly as it was and sends nothing |
| HeadlessDemo.ScoreListener | demos/headless/headless.go:249-264 | a ScoreMessage adds one to PlayerOneScore if its player is not 1 and to PlayerTwoScore otherwise, leaves the other counter as it was, and marks the label stale; other messages are ignored |
| HeadlessDemo.ScoresCountMessages | demos/headless/headless.go:256-260 | after a run of messages, each counter has grown by the number of ScoreMessages that credit it |
| HeadlessDemo.NatToStringRoundTrip | demos/headless/headless.go:290 | the decimal digits written for a score read back as that score |
| HeadlessDemo.ScoreUpdate | demos/headless/headless.go:269-299 | without Render or Space, or when up to date, nothing changes; otherwise the label becomes "<p1> vs <p2>", the score is up to date, and X = 400 - (len·20)/2 |
| HeadlessDemo.Relabel | demos/headless/headless.go:290-297 | the render component gets the new label and its rendering; X becomes 400 - 10·len, the integer (len·20)/2 taken from 400; id, requires and Exists are kept |
| HeadlessDemo.GoalReachesLabel | demos/headless/headless.go:249-298 | after a ScoreMessage the next update rebuilds the label from the new counters |
| HeadlessDemo.SingleDigitLabelPosition | demos/headless/headless.go:295-297 | with both scores below 10 the label has 6 characters and X is 340 |
| HeadlessDemo.SpeedListener | demos/headless/headless.go:85-96 | a CollisionMessage negates the probing entity's horizontal speed if it has a SpeedComponent; nothing else in the store changes |
| HeadlessDemo.Bounce | demos/headless/headless.go:89-94 | the entity's speed becomes its old speed with X negated and Y kept |
| HeadlessDemo.BounceTwice | demos/headless/headless.go:94 | negating the horizontal speed twice gives back the entity exactly |
| HeadlessDemo.SpeedListenerInvolution | demos/headless/headless.go:94 | hearing the same collision twice restores the store |
| HeadlessDemo.SpeedUpdate | demos/headless/headless.go:103-117 | with both components the position moves by speed·dt and the speed is kept; otherwise nothing changes |
| HeadlessDemo.ControlUpdate | demos/headless/headless.go:193-225 | the "WASD" scheme reads W/S and any other scheme the arrows; up moves the paddle by -800·dt and down by +800·dt |
| HeadlessDemo.SchemesIndependent | demos/headless/headless.go:207-215 | each scheme reacts to its own keys only |
| HeadlessDemo.SetupSystemsShape | demos/headless/headless.go:31-36 | Setup registers the six systems in its order: Render, Collision, Speed, Control, Ball, Score |
| HeadlessDemo.Requirements | demos/headless/headless.go:38-61 | the ball, score and paddle entities require exactly the systems Setup names for them |
| HeadlessDemo.SetupLists | demos/headless/headless.go:29-77 | each system lists exactly the entities that require it, in the order Setup adds them |
| HeadlessDemo.SetupProbes | demos/headless/headless.go:42-70 | in Setup's world only the ball is a Main probe, and every collidable entity is Solid |
| Galaxian.MoveLeft | demos/galaxian/control.go:42-53 | the ship moves to X - 800·dt only when that is at least 0; without a space nothing changes; other components are untouched |
| Galaxian.MoveRight | demos/galaxian/control.go:55-66 | the ship moves to X + 800·dt only when that is at most the screen width; without a space nothing changes |
| Galaxian.Steer | demos/galaxian/control.go:24-34 | without a space the ship is unchanged; with dt ≥ 0, a ship with 0 ≤ X ≤ Width is still in that range after the left and right moves |
| Galaxian.ShipStaysOnScreen | demos/galaxian/control.go:28-34 | a ship with 0 ≤ X ≤ Width stays in that range for any keys and any dt ≥ 0 |
| Galaxian.RuneString | demos/galaxian/control.go:84 | Go's string(n) is one character: the code point n when it is a valid scalar value, U+FFFD otherwise |
| Galaxian.Bullet | demos/galaxian/control.go:81-90 | a bullet requires Render-, Speed- and BulletSystem, spawns at (X+7·scale.X, Y−scale.Y) and has speed (0, −100·scale.Y) |
| Galaxian.Fire | demos/galaxian/control.go:70-93 | without a space nothing happens; otherwise counter grows by 1, bulletCount by 1 modulo 2^64, and the bullet is added to the world |
| Galaxian.FireAddsOneBullet | demos/galaxian/control.go:79-92 | fire adds exactly one entity, the bullet, and leaves the ship untouched |
| Galaxian.FireWiresBullet | demos/galaxian/control.go:92 | the bullet joins exactly the registered systems named RenderSystem, SpeedSystem or BulletSystem |
| Galaxian.NextCount | demos/galaxian/control.go:83 | `bulletCount += 1` on a uint64: one more below 2^64 - 1, and 0 after it |
| Galaxian.ControlUpdate | demos/galaxian/control.go:23-40 | without a space the game is unchanged; otherwise the ship ends as the moved ship (when the bullet takes another id). Without Space held or just released, only the ship's entry changes: counters, entity set, systems, paused flag, ids and every other entity are kept. Firing raises counter by one and bulletCount by one modulo 2^64, and adds exactly the id newId, holding the bullet built from the moved ship's position |
| Galaxian.FireFrom | demos/galaxian/control.go:79-92 | from a ship with a space, fire raises both counters, adds newId to the ids and the entity set, and stores there the bullet from the ship's position |
| Galaxian.Replace | demos/galaxian/control.go:28-34 | writing the moved ship back changes only its own entry: counters, ids, systems and the other entities are kept |
| Galaxian.BulletUpdate | demos/galaxian/bullet.go:20-31 | without a space nothing happens; Y < 0 calls RemoveEntity once on the bullet, Y ≥ 0 calls it never; the bullet's components are never changed |
| Galaxian.RemovedBulletStillScheduled | demos/galaxian/bullet.go:28-30 | a removed bullet stays in every system's list, and the next frame makes the same calls as without the removal |

## Left out

- Goroutines, channels, `sync.WaitGroup` and the mutexes are not modelled
  as such. The worker fan-out is a multiset of update calls before a
  barrier. The render mutex is a `locked` flag, and taking it while it is
  held is `Blocked`. The world's `entitiesMu` and ScoreSystem's
  `scoreLock` only guard data the model already keeps consistent.
- The Mailbox (`MessageManager`) is not part of this model. Each listener
  is a function from a message to the new state, and dispatch is treated
  as delivery in call order.
- `World.New` creates the GL batches, fills `WorldBounds` and registers the
  camera system. None of these are modelled; `Worlds.Empty` is the world
  after the entity map is made.
- GL calls (clear, batch Begin/Draw/End, ClearColor) become trace events or
  return values. `LoadShader`, `Region`, `Texture`, `Sprite` and the shader
  sources are left out, because they are rendering back-end code.
- Box geometry (`AABB`, `IsIntersecting`, `MinimumTranslation`) is a
  parameter; every collision property holds for any geometry.
- File decoding (`loadImage`, `loadJson`, `createLevelFromTmx`, `loadFont`)
  is a parameter that may fail. `AddFromDir` and `Sound` do file-system
  I/O and are left out.
- Key states, `engi.Width()`, `rand.Float32`, `runtime.NumCPU()` and
  `generateUUID` are parameters. Ids are assumed unique. `numCPU` is any
  `nat`, although `runtime.NumCPU()` is at least 1; with 0 every list takes
  the parallel path, a case Go never reaches. The properties hold for every
  value.
- float32 arithmetic is real arithmetic, so rounding is not modelled.
- Scheduler.Frame: every system's calls are computed from the world as the
  frame starts. Go reads each system's `Entities()`, the paused flag and
  `Exists` only when the loop reaches that system, so an Update that adds an
  entity (the galaxian ship's fire) or sends a PauseMessage changes what
  later systems in the same frame do. The model does not follow those
  mid-frame changes: `Frame` is the frame's trace only when no Update
  changes the lists, the store or the paused flag.
- Engine.SetFPSLimit: the reset signal is a counter. The real channel has
  capacity 1, so a second signal blocks until the loop reads the first,
  and that blocking is not modelled.
- `Open` and `OpenHeadless` go on to run the game loop, set up `keyStates`
  and create the clock. Only their effect on the loader and the headless
  flag is modelled.
- Engine.OpenHeadlessNoRun: also sets `Time = NewClock()`; the clock is not
  modelled, so neither is that assignment.
- Engine.Open: engi.go assigns `Files = NewLoader()` with the type `*Loader`,
  but assets.go declares `loader` and `newLoader()`. The model takes the two
  to be the same and uses `Assets.NewLoader` for both.
- Galaxian.Fire: `counter` is a Go `int`, modelled as an unbounded integer,
  so its 64-bit wrap-around is not modelled. `bulletCount` is a `uint64`
  and does wrap.
- `NewRenderComponent` and `NewSystem` are not part of this model.
  `NewRenderComponent` takes the tier it assigns as an argument, and
  `NewSystem` is taken to build the same empty system as `&System{}`.
- The `log.Println` in `NextFrame` and `Add`, and the FPS printout in
  ScoreSystem.Update (the `sum` variable), only write to the log and are
  left out.
- `Entity.Pattern` is never read by the core and is left out.
- The headless demo's `Preload` (asset and font loading) and `main`
  (profiling and signal handling) are left out: they are I/O.
- The galaxian demo's `speed.go` and the entity tests are not part of the
  engine core and are not modelled.

=== FILE: animation.dfy ===
/**
 * AnimationComponent and AnimationSystem (animation.go): named frame lists,
 * the frame index that cycles through the current one, and the per-entity
 * Update that advances it once enough time has passed.
 */
module Animation {
  import opened Basics
  import opened Components
  import opened EntityStore

  /** engi.AnimationAction: a named list of frame numbers. */
  datatype AnimationAction = AnimationAction(name: string, frames: seq<int>)

  /** NewAnimationComponent: no animations yet, no current one, index and elapsed time zero. */
  function NewAnimationComponent(renderables: seq<Drawable>, rate: real): (ac: AnimationComponent)
    ensures ac.index == 0 && ac.change == 0.0 && ac.rate == rate && ac.renderables == renderables
    ensures ac.animations == map[] && ac.currentAnimation == []
  {
    AnimationComponent(0, rate, 0.0, renderables, map[], [])
  }

  /** A missing name reads as Go's nil slice. */
  function Frames(ac: AnimationComponent, name: string): seq<int>
  {
    if name in ac.animations then ac.animations[name] else []
  }

  /** SelectAnimationByName: switches the current frame list; the index is kept. */
  function SelectAnimationByName(ac: AnimationComponent, name: string): (r: AnimationComponent)
    ensures r.currentAnimation == (if name in ac.animations then ac.animations[name] else [])
    ensures r == ac.(currentAnimation := r.currentAnimation)
  {
    ac.(currentAnimation := Frames(ac, name))
  }

  /** SelectAnimationByAction: the same lookup by the action's name. */
  function SelectAnimationByAction(ac: AnimationComponent, action: AnimationAction): (r: AnimationComponent)
    ensures r == SelectAnimationByName(ac, action.name)
  {
    ac.(currentAnimation := Frames(ac, action.name))
  }

  function AddAnimationAction(ac: AnimationComponent, action: AnimationAction): (r: AnimationComponent)
    ensures r.animations == ac.animations[action.name := action.frames]
    ensures r == ac.(animations := r.animations)
  {
    ac.(animations := ac.animations[action.name := action.frames])
  }

  /** AddAnimationActions: the actions in order, so a later equal name overwrites. */
  function AddAnimationActions(ac: AnimationComponent, actions: seq<AnimationAction>): AnimationComponent
    decreases |actions|
  {
    if actions == [] then ac
    else AddAnimationActions(AddAnimationAction(ac, actions[0]), actions[1..])
  }

  /** The frames of the last action named `name`, if any action has that name. */
  function LastFrames(actions: seq<AnimationAction>, name: string): (r: Option<seq<int>>)
    ensures r.None? <==> forall k :: 0 <= k < |actions| ==> actions[k].name != name
    decreases |actions|
  {
    if actions == [] then None
    else if actions[|actions| - 1].name == name then Some(actions[|actions| - 1].frames)
    else LastFrames(actions[..|actions| - 1], name)
  }

  lemma {:induction false} AddActionsAppend(ac: AnimationComponent, actions: seq<AnimationAction>, last: AnimationAction)
    ensures AddAnimationActions(ac, actions + [last]) == AddAnimationAction(AddAnimationActions(ac, actions), last)
    decreases |actions|
  {
    if actions == [] {
      assert actions + [last] == [last];
    } else {
      assert (actions + [last])[1..] == actions[1..] + [last];
      AddActionsAppend(AddAnimationAction(ac, actions[0]), actions[1..], last);
    }
  }

  /**
   * After AddAnimationActions a name maps to the frames of the LAST action
   * of that name, and names no action uses keep their old frames; nothing
   * but the animation map changes.
   */
  lemma {:induction false} AddActionsLastWins(ac: AnimationComponent, actions: seq<AnimationAction>, name: string)
    ensures var r := AddAnimationActions(ac, actions);
            r == ac.(animations := r.animations) &&
            (name in r.animations <==> LastFrames(actions, name).Some? || name in ac.animations) &&
            (LastFrames(actions, name).Some? ==> r.animations[name] == LastFrames(actions, name).value) &&
            (LastFrames(actions, name).None? && name in ac.animations ==> r.animations[name] == ac.animations[name])
    decreases |actions|
  {
    if actions != [] {
      var init := actions[..|actions| - 1];
      var last := actions[|actions| - 1];
      assert actions == init + [last];
      AddActionsLastWins(ac, init, name);
      AddActionsAppend(ac, init, last);
    }
  }

  /**
   * Cell: the renderable of the current frame. Go panics when the index is
   * outside the current list or the frame number outside the renderables.
   */
  function Cell(ac: AnimationComponent): (r: Outcome<Drawable>)
    ensures r.Ok? <==> 0 <= ac.index < |ac.currentAnimation| &&
                       0 <= ac.currentAnimation[ac.index] < |ac.renderables|
    ensures r.Ok? ==> r.value == ac.renderables[ac.currentAnimation[ac.index]]
  {
    if !(0 <= ac.index < |ac.currentAnimation|) then Panic("index out of range")
    else
      var idx := ac.currentAnimation[ac.index];
      if !(0 <= idx < |ac.renderables|) then Panic("index out of range")
      else Ok(ac.renderables[idx])
  }

  /** NextFrame: with no frames nothing changes; otherwise the index steps, wrapping to 0, and the timer resets. */
  function NextFrame(ac: AnimationComponent): (r: AnimationComponent)
    ensures |ac.currentAnimation| == 0 ==> r == ac
    ensures |ac.currentAnimation| > 0 ==> r.change == 0.0
    ensures |ac.currentAnimation| > 0 ==> r.index == (if ac.index + 1 >= |ac.currentAnimation| then 0 else ac.index + 1)
    ensures r == ac.(index := r.index, change := r.change)
  {
    if |ac.currentAnimation| == 0 then ac
    else
      var i := ac.index + 1;
      ac.(index := if i >= |ac.currentAnimation| then 0 else i, change := 0.0)
  }

  /** Bound: from a non-negative index, a step lands inside the current list. */
  lemma NextFrameInRange(ac: AnimationComponent)
    requires ac.index >= 0 && |ac.currentAnimation| > 0
    ensures 0 <= NextFrame(ac).index < |ac.currentAnimation|
    ensures ac.index + 1 < |ac.currentAnimation| ==> NextFrame(ac).index == ac.index + 1
  {
  }

  /** k steps in a row. */
  function NextFrames(ac: AnimationComponent, k: nat): AnimationComponent
  {
    if k == 0 then ac else NextFrame(NextFrames(ac, k - 1))
  }

  lemma {:induction false} NextFramesKeepsList(ac: AnimationComponent, k: nat)
    ensures NextFrames(ac, k).currentAnimation == ac.currentAnimation
    ensures NextFrames(ac, k).renderables == ac.renderables
  {
    if k > 0 {
      NextFramesKeepsList(ac, k - 1);
    }
  }

  /**
   * Up to a full cycle, j steps from an in-range index add j and wrap past
   * the end once.
   */
  lemma {:induction false} NextFramesIndex(ac: AnimationComponent, j: nat)
    requires 0 <= ac.index < |ac.currentAnimation| && j <= |ac.currentAnimation|
    ensures NextFrames(ac, j).index ==
              if ac.index + j < |ac.currentAnimation| then ac.index + j else ac.index + j - |ac.currentAnimation|
  {
    if j > 0 {
      NextFramesIndex(ac, j - 1);
      NextFramesKeepsList(ac, j - 1);
    }
  }

  /** Cycle: as many steps as the list has frames bring the index back to where it started. */
  lemma NextFramesCycle(ac: AnimationComponent)
    requires 0 <= ac.index < |ac.currentAnimation|
    ensures NextFrames(ac, |ac.currentAnimation|).index == ac.index
    ensures forall j :: 0 < j < |ac.currentAnimation| ==> NextFrames(ac, j).index != ac.index
  {
    NextFramesIndex(ac, |ac.currentAnimation|);
    forall j | 0 < j < |ac.currentAnimation|
      ensures NextFrames(ac, j).index != ac.index
    {
      NextFramesIndex(ac, j);
    }
  }

  /** The component after `change += dt`. */
  function Elapsed(ac: AnimationComponent, dt: real): AnimationComponent
  {
    ac.(change := ac.change + dt)
  }

  /**
   * AnimationSystem.Update: with both components, the elapsed time grows by
   * dt; once it reaches the rate the frame steps and the render component
   * displays the new cell (which panics when the cell is out of range).
   * The components are pointers, so the changes land in the entity.
   */
  function Update(e: Entity, dt: real): (r: Outcome<Entity>)
    ensures (AnimationOf(e).None? || RenderOf(e).None?) ==> r == Ok(e)
    ensures AnimationOf(e).Some? && RenderOf(e).Some? ==>
              var ac := Elapsed(AnimationOf(e).value, dt);
              (r.Panic? <==> ac.change >= ac.rate && Cell(NextFrame(ac)).Panic?)
    ensures AnimationOf(e).Some? && RenderOf(e).Some? && r.Ok? ==>
              var ac := Elapsed(AnimationOf(e).value, dt);
              AnimationOf(r.value) == Some(if ac.change >= ac.rate then NextFrame(ac) else ac) &&
              RenderOf(r.value) == Some(if ac.change >= ac.rate
                                        then RenderOf(e).value.(display := Cell(NextFrame(ac)).value)
                                        else RenderOf(e).value)
    ensures r.Ok? ==> r.value.id == e.id && r.value.required == e.required && r.value.present == e.present
    ensures r.Ok? ==> forall k :: k != TypeName(AnimationKind) && k != TypeName(RenderKind) ==>
              (k in r.value.components <==> k in e.components) &&
              (k in e.components ==> r.value.components[k] == e.components[k])
  {
    match (AnimationOf(e), RenderOf(e))
    case (Some(ac0), Some(render)) =>
      var ac := Elapsed(ac0, dt);
      if ac.change >= ac.rate then
        var next := NextFrame(ac);
        match Cell(next)
        case Ok(cell) => Ok(AddComponent(AddComponent(e, Animation(next)), Render(render.(display := cell))))
        case Panic(reason) => Panic(reason)
      else Ok(AddComponent(e, Animation(ac)))
    case _ => Ok(e)
  }

  /** The frames of the current list all name renderables. */
  predicate FramesValid(ac: AnimationComponent)
  {
    forall k :: 0 <= k < |ac.currentAnimation| ==> 0 <= ac.currentAnimation[k] < |ac.renderables|
  }

  /** With a non-empty, valid current list and a non-negative index, Update never panics. */
  lemma UpdateSafe(e: Entity, dt: real)
    requires AnimationOf(e).Some? ==>
               var ac := AnimationOf(e).value;
               ac.index >= 0 && |ac.currentAnimation| > 0 && FramesValid(ac)
    ensures Update(e, dt).Ok?
  {
    if AnimationOf(e).Some? && RenderOf(e).Some? {
      NextFrameInRange(Elapsed(AnimationOf(e).value, dt));
    }
  }

  /** An empty current list with enough elapsed time makes Update panic: NextFrame returns early and Cell indexes an empty slice. */
  lemma EmptyAnimationPanics(e: Entity, dt: real)
    requires AnimationOf(e).Some? && RenderOf(e).Some?
    requires |AnimationOf(e).value.currentAnimation| == 0
    requires AnimationOf(e).value.change + dt >= AnimationOf(e).value.rate
    ensures Update(e, dt).Panic?
  {
  }
}

=== FILE: assets.dfy ===
/**
 * The asset loader's bookkeeping (assets.go): resources made from urls,
 * the resource list, and Load's dispatch of each resource into the map of
 * its kind. Decoding a file is a function parameter that may fail.
 */
module Assets {
  import opened Basics
  import GoPath

  /** engi.resource: the extension without its dot, the base name, and the url. */
  datatype Resource = Resource(kind: string, name: string, url: string)

  /** Go's zero resource. */
  const ZeroResource := Resource("", "", "")

  /** Stand-ins for the decoded objects (*Texture, *Level, *truetype.Font). */
  datatype Texture = Texture(handle: nat)
  datatype Level = Level(handle: nat)
  datatype Font = Font(handle: nat)

  datatype Loader = Loader(
    resources: seq<Resource>,
    images: map<string, Texture>,
    jsons: map<string, string>,
    levels: map<string, Level>,
    sounds: map<string, string>,
    fonts: map<string, Font>)

  /** loadImage + NewTexture, loadJson, createLevelFromTmx and loadFont; None is a returned error. */
  datatype Decoders = Decoders(
    image: Resource -> Option<Texture>,
    json: Resource -> Option<string>,
    level: Resource -> Option<Level>,
    font: Resource -> Option<Font>)

  /** newLoader: `make([]resource, 1)` holds one zero resource; every map is empty. */
  function NewLoader(): (l: Loader)
    ensures |l.resources| == 1 && l.resources[0].kind == ""
    ensures l.images == map[] && l.jsons == map[] && l.levels == map[] && l.sounds == map[] && l.fonts == map[]
  {
    Loader([ZeroResource], map[], map[], map[], map[], map[])
  }

  /**
   * newResource: the name is path.Base(url) and the kind is path.Ext(url)
   * without its leading dot. `kind[1:]` on an empty extension is a slice out
   * of range, so a url without an extension panics.
   */
  function NewResource(url: string): (r: Outcome<Resource>)
    ensures r.Panic? <==> GoPath.Ext(url) == []
    ensures r.Ok? ==> r.value.url == url && r.value.name == GoPath.Base(url)
    ensures r.Ok? ==> ['.'] + r.value.kind == GoPath.Ext(url)
  {
    var ext := GoPath.Ext(url);
    if ext == [] then Panic("slice bounds out of range [1:0]")
    else
      assert ext == ['.'] + ext[1..];
      Ok(Resource(ext[1..], GoPath.Base(url), url))
  }

  /**
   * A resource is made exactly when the last element of the url contains a
   * '.', and its kind then is the url's tail after the final '.': it holds
   * neither '.' nor '/'.
   */
  lemma NewResourceKind(url: string)
    ensures NewResource(url).Ok? <==> '.' in url[GoPath.LastIndexOf(url, '/') + 1..]
    ensures NewResource(url).Ok? ==>
              var kind := NewResource(url).value.kind;
              '.' !in kind && '/' !in kind && |kind| < |url| &&
              url[|url| - |kind| - 1] == '.' && url[|url| - |kind|..] == kind
  {
    NewResourceIffDot(url);
    NewResourceKindShape(url);
  }

  /** A resource is made exactly when the url's last element holds a '.'. */
  lemma NewResourceIffDot(url: string)
    ensures NewResource(url).Ok? <==> '.' in url[GoPath.LastIndexOf(url, '/') + 1..]
  {
    GoPath.ExtEmptyIff(url);
  }

  /** A made resource's kind is the url's tail after a '.', free of '.' and '/'. */
  lemma NewResourceKindShape(url: string)
    ensures NewResource(url).Ok? ==>
              var kind := NewResource(url).value.kind;
              '.' !in kind && '/' !in kind && |kind| < |url| &&
              url[|url| - |kind| - 1] == '.' && url[|url| - |kind|..] == kind
  {
    var r := NewResource(url);
    if r.Ok? {
      var ext := GoPath.Ext(url);
      assert r.value.kind == ext[1..] by { assert ext[1..] == (['.'] + r.value.kind)[1..]; }
      KindAfterDot(url, ext);
    }
  }

  /** A suffix of the url that starts with its only '.' and holds no '/': what follows the dot. */
  lemma KindAfterDot(url: string, ext: string)
    requires ext != [] && ext[0] == '.' && '.' !in ext[1..] && '/' !in ext
    requires |ext| <= |url| && ext == url[|url| - |ext|..]
    ensures var kind := ext[1..];
              '.' !in kind && '/' !in kind && |kind| < |url| &&
              url[|url| - |kind| - 1] == '.' && url[|url| - |kind|..] == kind
  {
    var kind := ext[1..];
    assert url[|url| - |kind| - 1] == ext[0];
    assert url[|url| - |kind|..] == ext[1..];
  }

  /** Every url has an extension, so newResource accepts each. */
  predicate AllHaveKind(urls: seq<string>)
  {
    forall k :: 0 <= k < |urls| ==> NewResource(urls[k]).Ok?
  }

  /** newResource applied to each url. */
  function Made(urls: seq<string>): (r: seq<Outcome<Resource>>)
    ensures |r| == |urls| && forall k :: 0 <= k < |urls| ==> r[k] == NewResource(urls[k])
  {
    seq(|urls|, k requires 0 <= k < |urls| => NewResource(urls[k]))
  }

  /** The append loop of loader.Add over resources already made; the first panic stops it. */
  function AppendAll(l: Loader, made: seq<Outcome<Resource>>): (r: Outcome<Loader>)
    ensures r.Ok? <==> forall k :: 0 <= k < |made| ==> made[k].Ok?
    ensures r.Ok? ==> |r.value.resources| == |l.resources| + |made|
    ensures r.Ok? ==> r.value == l.(resources := r.value.resources)
    ensures r.Ok? ==> forall k :: 0 <= k < |l.resources| ==> r.value.resources[k] == l.resources[k]
    ensures r.Ok? ==> forall k :: 0 <= k < |made| ==> r.value.resources[|l.resources| + k] == made[k].value
    decreases |made|
  {
    if made == [] then Ok(l)
    else
      var init := made[..|made| - 1];
      var last := made[|made| - 1];
      assert forall k :: 0 <= k < |init| ==> init[k] == made[k];
      match AppendAll(l, init)
      case Panic(reason) => Panic(reason)
      case Ok(m) =>
        match last
        case Panic(reason) => Panic(reason)
        case Ok(res) => Ok(m.(resources := m.resources + [res]))
  }

  /**
   * loader.Add: one resource per url, appended in argument order. The first
   * url without an extension panics (and the program stops there).
   */
  function Add(l: Loader, urls: seq<string>): (r: Outcome<Loader>)
    ensures r.Ok? <==> AllHaveKind(urls)
    ensures r.Ok? ==> |r.value.resources| == |l.resources| + |urls|
    ensures r.Ok? ==> r.value == l.(resources := r.value.resources)
    ensures r.Ok? ==> forall k :: 0 <= k < |l.resources| ==> r.value.resources[k] == l.resources[k]
    ensures r.Ok? ==> forall k :: 0 <= k < |urls| ==> r.value.resources[|l.resources| + k] == NewResource(urls[k]).value
  {
    AppendAll(l, Made(urls))
  }

  lemma MadeConcat(a: seq<string>, b: seq<string>)
    ensures Made(a + b) == Made(a) + Made(b)
  {
    var ab := a + b;
    forall k | 0 <= k < |ab|
      ensures Made(ab)[k] == (Made(a) + Made(b))[k]
    {
      if k < |a| {
        assert ab[k] == a[k];
      } else {
        assert ab[k] == b[k - |a|];
      }
    }
  }

  lemma {:induction false} AppendAllConcat(l: Loader, x: seq<Outcome<Resource>>, y: seq<Outcome<Resource>>)
    requires AppendAll(l, x).Ok?
    ensures AppendAll(l, x + y) == AppendAll(AppendAll(l, x).value, y)
    decreases |y|
  {
    if y == [] {
      assert x + y == x;
    } else {
      var init := y[..|y| - 1];
      assert (x + y)[..|x + y| - 1] == x + init;
      assert (x + y)[|x + y| - 1] == y[|y| - 1];
      AppendAllConcat(l, x, init);
    }
  }

  /** Two calls of Add append the same resources, with the same outcome, as one call with both url lists. */
  lemma AddConcat(l: Loader, a: seq<string>, b: seq<string>)
    requires Add(l, a).Ok?
    ensures Add(l, a + b) == Add(Add(l, a).value, b)
  {
    MadeConcat(a, b);
    AppendAllConcat(l, Made(a), Made(b));
  }

  /** The entry a decoded resource contributes to a map, or None. */
  function Images(d: Decoders): Resource -> Option<Texture>
  {
    (res: Resource) => if res.kind == "png" || res.kind == "jpg" then d.image(res) else None
  }

  function Jsons(d: Decoders): Resource -> Option<string>
  {
    (res: Resource) => if res.kind == "json" then d.json(res) else None
  }

  function Levels(d: Decoders): Resource -> Option<Level>
  {
    (res: Resource) => if res.kind == "tmx" then d.level(res) else None
  }

  /** A "wav" resource is not decoded: its url is stored. */
  function Sounds(): Resource -> Option<string>
  {
    (res: Resource) => if res.kind == "wav" then Some(res.url) else None
  }

  function Fonts(d: Decoders): Resource -> Option<Font>
  {
    (res: Resource) => if res.kind == "ttf" then d.font(res) else None
  }

  /** The kinds Load's switch has a case for. */
  predicate KnownKind(kind: string)
  {
    kind in {"png", "jpg", "json", "tmx", "wav", "ttf"}
  }

  /** One resource's effect on one map: stored under its name when it yields a value. */
  function Put<T>(m: map<string, T>, res: Resource, entry: Option<T>): map<string, T>
  {
    if entry.Some? then m[res.name := entry.value] else m
  }

  /** A map after the resources in order, each through `f`. */
  function Collect<T>(rs: seq<Resource>, f: Resource -> Option<T>, base: map<string, T>): map<string, T>
    decreases |rs|
  {
    if rs == [] then base
    else Put(Collect(rs[..|rs| - 1], f, base), rs[|rs| - 1], f(rs[|rs| - 1]))
  }

  /** The value of the last resource named `name` for which `f` yields one. */
  function LastHit<T>(rs: seq<Resource>, f: Resource -> Option<T>, name: string): (r: Option<T>)
    ensures r.None? <==> forall k :: 0 <= k < |rs| && rs[k].name == name ==> f(rs[k]).None?
    decreases |rs|
  {
    if rs == [] then None
    else
      var last := rs[|rs| - 1];
      if last.name == name && f(last).Some? then f(last)
      else
        var r := LastHit(rs[..|rs| - 1], f, name);
        assert r.None? ==> forall k :: 0 <= k < |rs| && rs[k].name == name ==> f(rs[k]).None? by {
          if r.None? {
            forall k | 0 <= k < |rs| && rs[k].name == name
              ensures f(rs[k]).None?
            {
              if k < |rs| - 1 {
                assert rs[..|rs| - 1][k] == rs[k];
              }
            }
          }
        }
        r
  }

  /**
   * Last write wins: after Load a name maps to the value of the last
   * resource of that name that decoded; names no such resource has keep
   * their earlier entry (a failed decode changes nothing).
   */
  lemma {:induction false} CollectLastWins<T>(rs: seq<Resource>, f: Resource -> Option<T>, base: map<string, T>, name: string)
    ensures name in Collect(rs, f, base) <==> LastHit(rs, f, name).Some? || name in base
    ensures LastHit(rs, f, name).Some? ==> Collect(rs, f, base)[name] == LastHit(rs, f, name).value
    ensures LastHit(rs, f, name).None? && name in base ==> Collect(rs, f, base)[name] == base[name]
    decreases |rs|
  {
    if rs != [] {
      CollectLastWins(rs[..|rs| - 1], f, base, name);
    }
  }

  /** Resources that yield nothing through `f` leave the map as it was. */
  lemma {:induction false} CollectIgnores<T>(rs: seq<Resource>, f: Resource -> Option<T>, base: map<string, T>)
    requires forall k :: 0 <= k < |rs| ==> f(rs[k]).None?
    ensures Collect(rs, f, base) == base
    decreases |rs|
  {
    if rs != [] {
      CollectIgnores(rs[..|rs| - 1], f, base);
    }
  }

  /** Each map is fed only by its own kinds; a resource of any other kind touches no map. */
  lemma KindRouting(d: Decoders, res: Resource)
    ensures Images(d)(res).Some? ==> res.kind == "png" || res.kind == "jpg"
    ensures Jsons(d)(res).Some? ==> res.kind == "json"
    ensures Levels(d)(res).Some? ==> res.kind == "tmx"
    ensures Sounds()(res) == if res.kind == "wav" then Some(res.url) else None
    ensures Fonts(d)(res).Some? ==> res.kind == "ttf"
    ensures !KnownKind(res.kind) ==>
              Images(d)(res).None? && Jsons(d)(res).None? && Levels(d)(res).None? &&
              Sounds()(res).None? && Fonts(d)(res).None?
  {
  }

  lemma CollectStep<T>(rs: seq<Resource>, i: int, f: Resource -> Option<T>, base: map<string, T>)
    requires 0 <= i < |rs|
    ensures Collect(rs[..i + 1], f, base) == Put(Collect(rs[..i], f, base), rs[i], f(rs[i]))
  {
    assert rs[..i + 1][..i] == rs[..i];
  }

  /**
   * One pass of Load's switch: png and jpg feed the images, json the jsons,
   * tmx the levels, wav the sounds (its url, undecoded), ttf the fonts; a
   * failed decode and any other kind change nothing.
   */
  method Dispatch(l: Loader, res: Resource, d: Decoders) returns (r: Loader)
    ensures r.resources == l.resources
    ensures r.images == Put(l.images, res, Images(d)(res))
    ensures r.jsons == Put(l.jsons, res, Jsons(d)(res))
    ensures r.levels == Put(l.levels, res, Levels(d)(res))
    ensures r.sounds == Put(l.sounds, res, Sounds()(res))
    ensures r.fonts == Put(l.fonts, res, Fonts(d)(res))
  {
    r := l;
    RoutedTo(d, res);
    if res.kind == "png" || res.kind == "jpg" {
      r := r.(images := Put(r.images, res, d.image(res)));
    } else if res.kind == "json" {
      r := r.(jsons := Put(r.jsons, res, d.json(res)));
    } else if res.kind == "tmx" {
      r := r.(levels := Put(r.levels, res, d.level(res)));
    } else if res.kind == "wav" {
      r := r.(sounds := r.sounds[res.name := res.url]);
    } else if res.kind == "ttf" {
      r := r.(fonts := Put(r.fonts, res, d.font(res)));
    }
  }

  /** Which map, if any, a resource's kind routes it to: at most one of them sees it. */
  lemma RoutedTo(d: Decoders, res: Resource)
    ensures Images(d)(res) == (if res.kind == "png" || res.kind == "jpg" then d.image(res) else None)
    ensures Jsons(d)(res) == (if res.kind == "json" then d.json(res) else None)
    ensures Levels(d)(res) == (if res.kind == "tmx" then d.level(res) else None)
    ensures Sounds()(res) == (if res.kind == "wav" then Some(res.url) else None)
    ensures Fonts(d)(res) == (if res.kind == "ttf" then d.font(res) else None)
  {
  }

  /** What Load reports: each resource in list order, then the onFinish callback. */
  datatype LoadEvent = Visited(res: Resource) | OnFinish

  /**
   * loader.Load: every resource in list order goes through the switch on
   * its kind; the loop ends with exactly one call of onFinish.
   */
  method Load(l: Loader, d: Decoders) returns (r: Loader, events: seq<LoadEvent>)
    ensures r.resources == l.resources
    ensures r.images == Collect(l.resources, Images(d), l.images)
    ensures r.jsons == Collect(l.resources, Jsons(d), l.jsons)
    ensures r.levels == Collect(l.resources, Levels(d), l.levels)
    ensures r.sounds == Collect(l.resources, Sounds(), l.sounds)
    ensures r.fonts == Collect(l.resources, Fonts(d), l.fonts)
    ensures |events| == |l.resources| + 1 && events[|l.resources|] == OnFinish
    ensures forall k :: 0 <= k < |l.resources| ==> events[k] == Visited(l.resources[k])
    ensures Count(events, OnFinish) == 1
  {
    r := l;
    events := [];
    var i := 0;
    while i < |l.resources|
      invariant 0 <= i <= |l.resources|
      invariant LoadedUpTo(r, l, i, d)
      invariant |events| == i && forall k :: 0 <= k < i ==> events[k] == Visited(l.resources[k])
    {
      var res := l.resources[i];
      var next := Dispatch(r, res, d);
      LoadStep(r, next, l, i, d);
      r := next;
      events := events + [Visited(res)];
      i := i + 1;
    }
    assert l.resources[..i] == l.resources;
    assert OnFinish !in events;
    events := events + [OnFinish];
  }

  /** Load's loop invariant: the maps hold what the first `n` resources put there. */
  predicate LoadedUpTo(r: Loader, l: Loader, n: int, d: Decoders)
    requires 0 <= n <= |l.resources|
  {
    && r.resources == l.resources
    && r.images == Collect(l.resources[..n], Images(d), l.images)
    && r.jsons == Collect(l.resources[..n], Jsons(d), l.jsons)
    && r.levels == Collect(l.resources[..n], Levels(d), l.levels)
    && r.sounds == Collect(l.resources[..n], Sounds(), l.sounds)
    && r.fonts == Collect(l.resources[..n], Fonts(d), l.fonts)
  }

  /** One pass of Load's loop keeps its invariant. */
  lemma LoadStep(r: Loader, next: Loader, l: Loader, i: int, d: Decoders)
    requires 0 <= i < |l.resources| && LoadedUpTo(r, l, i, d)
    requires var res := l.resources[i];
             && next.resources == r.resources
             && next.images == Put(r.images, res, Images(d)(res))
             && next.jsons == Put(r.jsons, res, Jsons(d)(res))
             && next.levels == Put(r.levels, res, Levels(d)(res))
             && next.sounds == Put(r.sounds, res, Sounds()(res))
             && next.fonts == Put(r.fonts, res, Fonts(d)(res))
    ensures LoadedUpTo(next, l, i + 1, d)
  {
    CollectStep(l.resources, i, Images(d), l.images);
    CollectStep(l.resources, i, Jsons(d), l.jsons);
    CollectStep(l.resources, i, Levels(d), l.levels);
    CollectStep(l.resources, i, Sounds(), l.sounds);
    CollectStep(l.resources, i, Fonts(d), l.fonts);
  }

  /** The loader's zero resource, whose kind is "", is ignored by Load. */
  lemma NewLoaderLoadsNothing(d: Decoders)
    ensures Collect(NewLoader().resources, Images(d), map[]) == map[]
    ensures Collect(NewLoader().resources, Jsons(d), map[]) == map[]
    ensures Collect(NewLoader().resources, Levels(d), map[]) == map[]
    ensures Collect(NewLoader().resources, Sounds(), map[]) == map[]
    ensures Collect(NewLoader().resources, Fonts(d), map[]) == map[]
  {
    KindRouting(d, ZeroResource);
    assert !KnownKind(ZeroResource.kind);
  }

  /** loader.Image: the stored texture, or nil. */
  function Image(l: Loader, name: string): (r: Option<Texture>)
    ensures r.Some? <==> name in l.images
    ensures r.Some? ==> r.value == l.images[name]
  {
    if name in l.images then Some(l.images[name]) else None
  }

  /** loader.JSON: the stored text, or "" (Go's zero string) when absent. */
  function JSON(l: Loader, name: string): (r: string)
    ensures name in l.jsons ==> r == l.jsons[name]
    ensures name !in l.jsons ==> r == ""
  {
    if name in l.jsons then l.jsons[name] else ""
  }

  /** loader.Level: the stored level, or nil. */
  function LevelOf(l: Loader, name: string): (r: Option<Level>)
    ensures r.Some? <==> name in l.levels
    ensures r.Some? ==> r.value == l.levels[name]
  {
    if name in l.levels then Some(l.levels[name]) else None
  }

  /**
   * Round trip: after Load from a fresh map, Image(name) finds the texture
   * of the last png/jpg resource called `name` that decoded, and nil when
   * there is none.
   */
  lemma ImageAfterLoad(l: Loader, d: Decoders, name: string)
    requires l.images == map[]
    ensures Image(l.(images := Collect(l.resources, Images(d), l.images)), name) == LastHit(l.resources, Images(d), name)
  {
    CollectLastWins(l.resources, Images(d), l.images, name);
  }

  /** The same for JSON, whose miss is the empty string. */
  lemma JsonAfterLoad(l: Loader, d: Decoders, name: string)
    requires l.jsons == map[]
    ensures JSON(l.(jsons := Collect(l.resources, Jsons(d), l.jsons)), name) ==
              if LastHit(l.resources, Jsons(d), name).Some? then LastHit(l.resources, Jsons(d), name).value else ""
  {
    CollectLastWins(l.resources, Jsons(d), l.jsons, name);
  }

  /** A "wav" resource always lands in the sound map under its name, with its url. */
  lemma WavStoredVerbatim(rs: seq<Resource>, base: map<string, string>)
    requires rs != [] && rs[|rs| - 1].kind == "wav"
    ensures var last := rs[|rs| - 1];
            last.name in Collect(rs, Sounds(), base) && Collect(rs, Sounds(), base)[last.name] == last.url
  {
  }
}

=== FILE: basics.dfy ===
/** Small shared vocabulary: optional values, Go panics, 2-D points. */
module Basics {

  /** A value that may be missing: Go's nil pointer or comma-ok miss. */
  datatype Option<+T> = None | Some(value: T)

  /** The result of a Go operation that can panic (index or slice out of range). */
  datatype Outcome<+T> = Ok(value: T) | Panic(reason: string)

  /** engi.Point; float32 coordinates are modelled as reals. */
  datatype Point = Point(x: real, y: real)

  /** Number of occurrences of `x` in `s`. */
  function Count<T(==)>(s: seq<T>, x: T): nat
  {
    multiset(s)[x]
  }
}

=== FILE: collision.dfy ===
/**
 * CollisionSystem.Update (system.go): one probe entity tested against every
 * entity of the system, in list order. The box geometry (`AABB`,
 * `IsIntersecting`, `MinimumTranslation`) is not part of this model; it is a
 * parameter, and every property below holds for any geometry.
 */
module CollisionSystem {
  import opened Basics
  import opened Components
  import opened EntityStore
  import opened Messages
  import opened Systems

  datatype AABB = AABB(min: Point, max: Point)

  /** The three geometry functions the probe loop calls. */
  datatype Geometry = Geometry(
    aabb: SpaceComponent -> AABB,
    intersecting: (AABB, AABB) -> bool,
    minimumTranslation: (AABB, AABB) -> Point)

  /** A box grown by half the margin on every side. */
  function Inflate(box: AABB, extra: Point): (r: AABB)
    ensures r.min.x == box.min.x - extra.x / 2.0 && r.min.y == box.min.y - extra.y / 2.0
    ensures r.max.x == box.max.x + extra.x / 2.0 && r.max.y == box.max.y + extra.y / 2.0
    ensures r.max.x - r.min.x == box.max.x - box.min.x + extra.x
    ensures r.max.y - r.min.y == box.max.y - box.min.y + extra.y
  {
    AABB(Point(box.min.x - extra.x / 2.0, box.min.y - extra.y / 2.0),
         Point(box.max.x + extra.x / 2.0, box.max.y + extra.y / 2.0))
  }

  /** A space moved by a translation; the size is kept. */
  function Move(space: SpaceComponent, d: Point): (r: SpaceComponent)
    ensures r.position == Point(space.position.x + d.x, space.position.y + d.y)
    ensures r.width == space.width && r.height == space.height
  {
    space.(position := Point(space.position.x + d.x, space.position.y + d.y))
  }

  /** The loop looks at `other` at all: a different entity whose `Exists` is set. */
  predicate Eligible(store: map<Id, Entity>, probe: Id, other: Id)
    requires other in store
  {
    other != probe && store[other].present
  }

  /** An eligible other lacking a component ends the whole scan. */
  predicate Aborts(store: map<Id, Entity>, probe: Id, other: Id)
    requires other in store
  {
    Eligible(store, probe, other) && (SpaceOf(store[other]).None? || CollisionOf(store[other]).None?)
  }

  /** Whether the probe's box, at `space`, meets the other's box. */
  predicate Hit(store: map<Id, Entity>, other: Id, space: SpaceComponent, coll: CollisionComponent, geom: Geometry)
    requires other in store
    requires SpaceOf(store[other]).Some? && CollisionOf(store[other]).Some?
  {
    geom.intersecting(
      Inflate(geom.aabb(space), coll.extra),
      Inflate(geom.aabb(SpaceOf(store[other]).value), CollisionOf(store[other]).value.extra))
  }

  /**
   * The probe's final space, the messages sent, and how many others were
   * looked at before the scan ended (all of them unless one aborted it).
   */
  datatype ScanResult = ScanResult(space: SpaceComponent, messages: seq<Message>, scanned: nat)

  /** The loop over the other entities, threading the probe's possibly moved space. */
  function Scan(others: seq<Id>, store: map<Id, Entity>, probe: Id, space: SpaceComponent, coll: CollisionComponent, geom: Geometry): (r: ScanResult)
    requires AllStored(store, others)
    ensures r.scanned <= |others|
    ensures forall k :: 0 <= k < r.scanned ==> !Aborts(store, probe, others[k])
    ensures r.scanned < |others| ==> Aborts(store, probe, others[r.scanned])
    ensures forall k :: 0 <= k < |r.messages| ==>
              r.messages[k].CollisionMessage? && r.messages[k].entity == probe &&
              r.messages[k].to in others[..r.scanned] && Eligible(store, probe, r.messages[k].to)
    ensures !coll.solid ==> r.space == space
    decreases |others|
  {
    if others == [] then ScanResult(space, [], 0)
    else if Aborts(store, probe, others[0]) then ScanResult(space, [], 0)
    else
      var v := Visit(store, probe, others[0], space, coll, geom);
      var rest := Scan(others[1..], store, probe, v.space, coll, geom);
      ShiftPrefix(others, rest.scanned);
      ScanResult(rest.space, v.messages + rest.messages, rest.scanned + 1)
  }

  /**
   * One pass of the loop body on an other that does not abort the scan: an
   * ineligible other is skipped; an eligible one whose box meets the
   * probe's is reported, and a solid pair moves the probe out of it.
   */
  function Visit(store: map<Id, Entity>, probe: Id, o: Id, space: SpaceComponent, coll: CollisionComponent, geom: Geometry): (r: ScanResult)
    requires o in store && !Aborts(store, probe, o)
    ensures r.scanned == 0
    ensures !Eligible(store, probe, o) ==> r.space == space && r.messages == []
    ensures Eligible(store, probe, o) ==>
              r.messages == (if Hit(store, o, space, coll, geom) then [CollisionMessage(probe, o)] else [])
    ensures !(coll.solid && Eligible(store, probe, o) && CollisionOf(store[o]).value.solid) ==> r.space == space
  {
    if !Eligible(store, probe, o) then ScanResult(space, [], 0)
    else
      var other := CollisionOf(store[o]).value;
      var a := Inflate(geom.aabb(space), coll.extra);
      var b := Inflate(geom.aabb(SpaceOf(store[o]).value), other.extra);
      if geom.intersecting(a, b) then
        var moved := if other.solid && coll.solid then Move(space, geom.minimumTranslation(a, b)) else space;
        ScanResult(moved, [CollisionMessage(probe, o)], 0)
      else ScanResult(space, [], 0)
  }

  /** The first n + 1 elements are the head and the tail's first n; index n + 1 is the tail's n. */
  lemma ShiftPrefix(others: seq<Id>, n: nat)
    requires 0 < |others| && n < |others|
    ensures others[..n + 1] == [others[0]] + others[1..][..n]
    ensures n + 1 < |others| ==> others[n + 1] == others[1..][n]
    ensures forall k :: 0 <= k < n ==> others[k + 1] == others[1..][k]
  {
  }

  /** The entities the collision messages of a list are sent about, in order. */
  function Tos(ms: seq<Message>): seq<Id>
  {
    if ms == [] then []
    else if ms[0].CollisionMessage? then [ms[0].to] + Tos(ms[1..])
    else Tos(ms[1..])
  }

  /** `xs` is a subsequence of `ys`: its elements occur in `ys` in the same order. */
  predicate Sub(xs: seq<Id>, ys: seq<Id>)
    decreases |ys|
  {
    if xs == [] then true
    else if ys == [] then false
    else (xs[0] == ys[0] && Sub(xs[1..], ys[1..])) || Sub(xs, ys[1..])
  }

  /** One turn of the loop: the head's visit, then the tail scanned from the space it leaves. */
  lemma ScanCons(others: seq<Id>, store: map<Id, Entity>, probe: Id, space: SpaceComponent, coll: CollisionComponent, geom: Geometry)
    requires AllStored(store, others) && others != [] && !Aborts(store, probe, others[0])
    ensures AllStored(store, others[1..])
    ensures var v := Visit(store, probe, others[0], space, coll, geom);
            var rest := Scan(others[1..], store, probe, v.space, coll, geom);
            Scan(others, store, probe, space, coll, geom) == ScanResult(rest.space, v.messages + rest.messages, rest.scanned + 1)
  {
    AllStoredSlices(store, others, 1);
  }

  /** Both parts of a stored list, cut anywhere, are stored. */
  lemma AllStoredSlices(store: map<Id, Entity>, ids: seq<Id>, k: nat)
    requires AllStored(store, ids) && k <= |ids|
    ensures AllStored(store, ids[..k]) && AllStored(store, ids[k..])
  {
    forall i | 0 <= i < |ids| - k
      ensures ids[k..][i] in store
    {
      assert ids[k..][i] == ids[k + i];
    }
  }

  /**
   * The messages follow the list: the others they name are a subsequence of
   * the part of the list looked at, so they are sent in list order.
   */
  lemma {:induction false} ScanInListOrder(others: seq<Id>, store: map<Id, Entity>, probe: Id, space: SpaceComponent, coll: CollisionComponent, geom: Geometry)
    requires AllStored(store, others)
    ensures var r := Scan(others, store, probe, space, coll, geom);
            Sub(Tos(r.messages), others[..r.scanned])
    decreases |others|
  {
    var r := Scan(others, store, probe, space, coll, geom);
    if others != [] && !Aborts(store, probe, others[0]) {
      var o := others[0];
      var tail := others[1..];
      ScanCons(others, store, probe, space, coll, geom);
      var v := Visit(store, probe, o, space, coll, geom);
      var rest := Scan(tail, store, probe, v.space, coll, geom);
      ScanInListOrder(tail, store, probe, v.space, coll, geom);
      ShiftPrefix(others, rest.scanned);
      ListOrderStep(o, v.messages, rest.messages, tail[..rest.scanned], probe);
    } else {
      assert r.messages == [];
    }
  }

  /** A head visit that reports at most its own other keeps the messages in list order. */
  lemma ListOrderStep(o: Id, head: seq<Message>, rest: seq<Message>, ys: seq<Id>, probe: Id)
    requires head == [] || head == [CollisionMessage(probe, o)]
    requires Sub(Tos(rest), ys)
    ensures Sub(Tos(head + rest), [o] + ys)
  {
    if head == [] {
      assert head + rest == rest;
      assert ([o] + ys)[1..] == ys;
    } else {
      assert (head + rest)[0] == CollisionMessage(probe, o) && (head + rest)[1..] == rest;
      assert Tos(head + rest) == [o] + Tos(rest);
      assert ([o] + Tos(rest))[1..] == Tos(rest) && ([o] + ys)[1..] == ys;
    }
  }

  /** Two scans run one after the other: the second starts from the space the first leaves. */
  function Then(a: ScanResult, b: ScanResult): (r: ScanResult)
    ensures r.space == b.space && r.messages == a.messages + b.messages && r.scanned == a.scanned + b.scanned
  {
    ScanResult(b.space, a.messages + b.messages, a.scanned + b.scanned)
  }

  /** Concatenating two stored lists gives a stored list. */
  lemma AllStoredAppend(store: map<Id, Entity>, xs: seq<Id>, ys: seq<Id>)
    requires AllStored(store, xs) && AllStored(store, ys)
    ensures AllStored(store, xs + ys)
  {
    forall k | 0 <= k < |xs + ys|
      ensures (xs + ys)[k] in store
    {
      if k >= |xs| { assert (xs + ys)[k] == ys[k - |xs|]; }
    }
  }

  /**
   * A list the scan gets through whole can be followed by any other: the scan
   * of the concatenation is the first scan, then the second run from the
   * space the first leaves the probe in.
   */
  lemma {:induction false} ScanAppend(xs: seq<Id>, ys: seq<Id>, store: map<Id, Entity>, probe: Id, space: SpaceComponent, coll: CollisionComponent, geom: Geometry)
    requires AllStored(store, xs) && AllStored(store, ys)
    requires Scan(xs, store, probe, space, coll, geom).scanned == |xs|
    ensures AllStored(store, xs + ys)
    ensures var a := Scan(xs, store, probe, space, coll, geom);
            Scan(xs + ys, store, probe, space, coll, geom) == Then(a, Scan(ys, store, probe, a.space, coll, geom))
    decreases |xs|
  {
    AllStoredAppend(store, xs, ys);
    if xs == [] {
      assert xs + ys == ys;
    } else {
      ScanCons(xs, store, probe, space, coll, geom);
      var v := Visit(store, probe, xs[0], space, coll, geom);
      ScanAppend(xs[1..], ys, store, probe, v.space, coll, geom);
      ConsAppend(xs, ys);
      ScanCons(xs + ys, store, probe, space, coll, geom);
      var a1 := Scan(xs[1..], store, probe, v.space, coll, geom);
      var b := Scan(ys, store, probe, a1.space, coll, geom);
      var rest := Scan(xs[1..] + ys, store, probe, v.space, coll, geom);
      assert rest == Then(a1, b);
      assert Scan(xs + ys, store, probe, space, coll, geom) == ScanResult(rest.space, v.messages + rest.messages, rest.scanned + 1);
      assert Scan(xs, store, probe, space, coll, geom) == ScanResult(a1.space, v.messages + a1.messages, a1.scanned + 1);
      ThenCons(v.messages, a1, b);
    }
  }

  /** The head and tail of a concatenation whose first part is not empty. */
  lemma ConsAppend(xs: seq<Id>, ys: seq<Id>)
    requires xs != []
    ensures (xs + ys)[0] == xs[0] && (xs + ys)[1..] == xs[1..] + ys
  {
  }

  /** A visit's messages put in front of two scans in a row: it does not matter which scan takes them. */
  lemma ThenCons(m: seq<Message>, a: ScanResult, b: ScanResult)
    ensures ScanResult(Then(a, b).space, m + Then(a, b).messages, Then(a, b).scanned + 1)
            == Then(ScanResult(a.space, m + a.messages, a.scanned + 1), b)
  {
    assert m + (a.messages + b.messages) == (m + a.messages) + b.messages;
  }

  /**
   * Every other the scan reaches is tested against the space the probe has
   * when the loop gets to it: the messages are those before it, its own
   * (a report exactly when it is eligible and the boxes meet), then those
   * after it, scanned from the space its visit leaves.
   */
  lemma ScanVisitsEach(others: seq<Id>, store: map<Id, Entity>, probe: Id, space: SpaceComponent, coll: CollisionComponent, geom: Geometry, i: nat)
    requires AllStored(store, others)
    requires i < Scan(others, store, probe, space, coll, geom).scanned
    ensures AllStored(store, others[..i]) && AllStored(store, others[i + 1..])
    ensures var pre := Scan(others[..i], store, probe, space, coll, geom);
            var v := Visit(store, probe, others[i], pre.space, coll, geom);
            var post := Scan(others[i + 1..], store, probe, v.space, coll, geom);
            Scan(others, store, probe, space, coll, geom).messages == pre.messages + v.messages + post.messages &&
            v.messages == (if Eligible(store, probe, others[i]) && Hit(store, others[i], pre.space, coll, geom)
                           then [CollisionMessage(probe, others[i])] else [])
  {
    var xs := others[..i];
    var ys := others[i..];
    AllStoredSlices(store, others, i + 1);
    SplitAt(others, i);
    PrefixScannedWhole(others, store, probe, space, coll, geom, i);
    var pre := Scan(xs, store, probe, space, coll, geom);
    ScanAppend(xs, ys, store, probe, space, coll, geom);
    ScanCons(ys, store, probe, pre.space, coll, geom);
  }

  /** A list cut before index i: the two parts, and the second part's head and tail. */
  lemma SplitAt(s: seq<Id>, i: nat)
    requires i < |s|
    ensures s == s[..i] + s[i..]
    ensures s[i..][0] == s[i] && s[i..][1..] == s[i + 1..]
  {
  }

  /** The scan gets through every prefix of the part of the list it reaches. */
  lemma PrefixScannedWhole(others: seq<Id>, store: map<Id, Entity>, probe: Id, space: SpaceComponent, coll: CollisionComponent, geom: Geometry, i: nat)
    requires AllStored(store, others)
    requires i <= Scan(others, store, probe, space, coll, geom).scanned
    ensures AllStored(store, others[..i]) && AllStored(store, others[i..])
    ensures Scan(others[..i], store, probe, space, coll, geom).scanned == i
  {
    AllStoredSlices(store, others, i);
    var xs := others[..i];
    assert forall k :: 0 <= k < |xs| ==> xs[k] == others[k];
  }

  /** The probe loop runs only for an entity with both components whose collision is Main. */
  predicate Probes(e: Entity)
  {
    SpaceOf(e).Some? && CollisionOf(e).Some? && CollisionOf(e).value.main
  }

  /**
   * CollisionSystem.Update on the system's entity list. The probe's space is
   * a pointer into its component map, so the moves are written back to it;
   * the messages are what `Mailbox.Dispatch` receives.
   */
  function Update(cs: BaseSystem, store: map<Id, Entity>, probe: Id, geom: Geometry): (r: (map<Id, Entity>, seq<Message>))
    requires probe in store && AllStored(store, cs.entities)
    ensures !Probes(store[probe]) ==> r == (store, [])
    ensures r.0.Keys == store.Keys
    ensures forall id :: id in store && id != probe ==> r.0[id] == store[id]
    ensures r.0[probe].id == store[probe].id && r.0[probe].required == store[probe].required
    ensures r.0[probe].present == store[probe].present
    ensures forall k :: k != TypeName(SpaceKind) ==>
              (k in r.0[probe].components <==> k in store[probe].components) &&
              (k in store[probe].components ==> r.0[probe].components[k] == store[probe].components[k])
    ensures Probes(store[probe]) ==>
              var scan := Scan(cs.entities, store, probe, SpaceOf(store[probe]).value, CollisionOf(store[probe]).value, geom);
              SpaceOf(r.0[probe]) == Some(scan.space) && r.1 == scan.messages
  {
    var e := store[probe];
    if !Probes(e) then (store, [])
    else
      var scan := Scan(cs.entities, store, probe, SpaceOf(e).value, CollisionOf(e).value, geom);
      (store[probe := AddComponent(e, Space(scan.space))], scan.messages)
  }

  /** The reference filter: a message for each eligible other whose box meets a fixed probe box. */
  function Hits(list: seq<Id>, store: map<Id, Entity>, probe: Id, space: SpaceComponent, coll: CollisionComponent, geom: Geometry): seq<Message>
    requires AllStored(store, list)
    decreases |list|
  {
    if list == [] then []
    else
      var o := list[0];
      var rest := Hits(list[1..], store, probe, space, coll, geom);
      if Eligible(store, probe, o) && !Aborts(store, probe, o) && Hit(store, o, space, coll, geom)
      then [CollisionMessage(probe, o)] + rest
      else rest
  }

  /** No solid pair can form: the probe is not solid, or no other it could meet is. */
  predicate NoSolidPair(others: seq<Id>, store: map<Id, Entity>, coll: CollisionComponent)
    requires AllStored(store, others)
  {
    !coll.solid || forall k :: 0 <= k < |others| && CollisionOf(store[others[k]]).Some? ==> !CollisionOf(store[others[k]]).value.solid
  }

  /**
   * Without a solid pair the probe never moves, and the messages are exactly
   * the eligible others, before the abort point, whose boxes meet the probe's,
   * in list order.
   */
  lemma {:induction false} NoSolidPairReportsHits(others: seq<Id>, store: map<Id, Entity>, probe: Id, space: SpaceComponent, coll: CollisionComponent, geom: Geometry)
    requires AllStored(store, others)
    requires NoSolidPair(others, store, coll)
    ensures Scan(others, store, probe, space, coll, geom).space == space
    ensures Scan(others, store, probe, space, coll, geom).messages ==
            Hits(others[..Scan(others, store, probe, space, coll, geom).scanned], store, probe, space, coll, geom)
    decreases |others|
  {
    if others != [] {
      var o := others[0];
      var tail := others[1..];
      assert AllStored(store, tail);
      assert NoSolidPair(tail, store, coll) by {
        if coll.solid {
          forall k | 0 <= k < |tail| && CollisionOf(store[tail[k]]).Some?
            ensures !CollisionOf(store[tail[k]]).value.solid
          {
            assert tail[k] == others[k + 1];
          }
        }
      }
      NoSolidPairReportsHits(tail, store, probe, space, coll, geom);
      var r := Scan(others, store, probe, space, coll, geom);
      if !Aborts(store, probe, o) {
        var v := Visit(store, probe, o, space, coll, geom);
        assert v.space == space;
        var rest := Scan(tail, store, probe, space, coll, geom);
        assert r.messages == v.messages + rest.messages && r.scanned == rest.scanned + 1;
        assert others[..r.scanned] == [o] + tail[..rest.scanned];
        HitsCons(o, tail[..rest.scanned], store, probe, space, coll, geom);
      } else {
        assert others[..r.scanned] == [];
      }
    }
  }

  /** Hits on a list with a head: the head's message, if any, then the tail's. */
  lemma HitsCons(o: Id, tail: seq<Id>, store: map<Id, Entity>, probe: Id, space: SpaceComponent, coll: CollisionComponent, geom: Geometry)
    requires o in store && AllStored(store, tail) && !Aborts(store, probe, o)
    ensures Hits([o] + tail, store, probe, space, coll, geom) ==
            Visit(store, probe, o, space, coll, geom).messages + Hits(tail, store, probe, space, coll, geom)
  {
    assert ([o] + tail)[0] == o && ([o] + tail)[1..] == tail;
  }

  /**
   * Later others are tested against the moved box: after a solid hit on the
   * first other, the second is tested at the translated position.
   */
  lemma SecondTestUsesMovedBox(o1: Id, o2: Id, store: map<Id, Entity>, probe: Id, space: SpaceComponent, coll: CollisionComponent, geom: Geometry)
    requires o1 in store && o2 in store
    requires Eligible(store, probe, o1) && !Aborts(store, probe, o1)
    requires Eligible(store, probe, o2) && !Aborts(store, probe, o2)
    requires coll.solid && CollisionOf(store[o1]).value.solid
    requires Hit(store, o1, space, coll, geom)
    ensures var moved := Move(space, geom.minimumTranslation(
                           Inflate(geom.aabb(space), coll.extra),
                           Inflate(geom.aabb(SpaceOf(store[o1]).value), CollisionOf(store[o1]).value.extra)));
            Scan([o1, o2], store, probe, space, coll, geom).messages ==
              [CollisionMessage(probe, o1)] + (if Hit(store, o2, moved, coll, geom) then [CollisionMessage(probe, o2)] else [])
  {
    var moved := Move(space, geom.minimumTranslation(
                   Inflate(geom.aabb(space), coll.extra),
                   Inflate(geom.aabb(SpaceOf(store[o1]).value), CollisionOf(store[o1]).value.extra)));
    var v1 := Visit(store, probe, o1, space, coll, geom);
    assert v1.space == moved && v1.messages == [CollisionMessage(probe, o1)];
    assert [o1, o2][1..] == [o2];
    assert [o2][1..] == [];
    var v2 := Visit(store, probe, o2, moved, coll, geom);
    assert Scan([o2], store, probe, moved, coll, geom).messages == v2.messages + [];
  }
}

=== FILE: components.dfy ===
/**
 * The component kinds the engine core and its two demos attach to entities.
 * In Go a component is any value with a `Type() string` method; here the
 * kinds the code uses form one closed sum type, and `TypeName` is the string
 * each kind's `Type()` returns (the key under which an entity stores it).
 */
module Components {
  import opened Basics

  /** An opaque drawable (texture, region, or text rendered by a font). */
  datatype Drawable = Sprite(handle: nat) | Text(text: string)

  /** engi.SpaceComponent: position and size. */
  datatype SpaceComponent = SpaceComponent(position: Point, width: real, height: real)

  /** engi.CollisionComponent: probe flag, solidity and the margin added around the box. */
  datatype CollisionComponent = CollisionComponent(main: bool, solid: bool, extra: Point)

  /** engi.RenderComponent, restricted to the fields the core reads and writes. */
  datatype RenderComponent = RenderComponent(display: Drawable, scale: Point, caption: string, priority: int)

  /** engi.AnimationComponent. */
  datatype AnimationComponent = AnimationComponent(
    index: int,
    rate: real,
    change: real,
    renderables: seq<Drawable>,
    animations: map<string, seq<int>>,
    currentAnimation: seq<int>)

  datatype Kind = SpaceKind | CollisionKind | RenderKind | AnimationKind | SpeedKind | ControlKind | UnpauseKind

  datatype Component =
    | Space(space: SpaceComponent)
    | Collision(collision: CollisionComponent)
    | Render(render: RenderComponent)
    | Animation(animation: AnimationComponent)
    | Speed(velocity: Point)        // the demos' SpeedComponent (embeds engi.Point)
    | Control(scheme: string)       // the headless demo's ControlComponent
    | Unpause                       // engi.UnpauseComponent, a zero-size marker
  {
    function Kind(): Kind
    {
      match this
      case Space(_) => SpaceKind
      case Collision(_) => CollisionKind
      case Render(_) => RenderKind
      case Animation(_) => AnimationKind
      case Speed(_) => SpeedKind
      case Control(_) => ControlKind
      case Unpause => UnpauseKind
    }
  }

  /** The string `Type()` returns for each kind. */
  function TypeName(k: Kind): string
  {
    match k
    case SpaceKind => "SpaceComponent"
    case CollisionKind => "CollisionComponent"
    case RenderKind => "RenderComponent"
    case AnimationKind => "AnimationComponent"
    case SpeedKind => "SpeedComponent"
    case ControlKind => "ControlComponent"
    case UnpauseKind => "UnpauseComponent"
  }

  /** The Go name of the pointer type `*engi.<Kind>`, as reflection prints it. */
  function GoTypeName(k: Kind): string
  {
    "*engi." + TypeName(k)
  }

  /** Distinct kinds are stored under distinct keys. */
  lemma TypeNameInjective(a: Kind, b: Kind)
    requires TypeName(a) == TypeName(b)
    ensures a == b
  {
  }

  /** NewRenderComponent (render.go, not part of this model) with the tier it assigns as an argument. */
  function NewRenderComponent(display: Drawable, scale: Point, caption: string, priority: int): RenderComponent
  {
    RenderComponent(display, scale, caption, priority)
  }
}

=== FILE: engine.dfy ===
/**
 * The package-level configuration of engi.go: the frame-rate limit and its
 * reset signal, the headless flag set by the Open functions, the loader they
 * create, and SetBg's split of a 0xRRGGBB colour into GL clear channels.
 */
module Engine {
  import opened Basics
  import Assets

  /** Go's uint32. */
  newtype U32 = x: int | 0 <= x < 0x1_0000_0000

  /** The package variables this part of the engine reads and writes. */
  datatype Config = Config(
    fpsLimit: int,
    headless: bool,
    resetSignals: nat,          // values sent on resetLoopTicker
    files: Option<Assets.Loader>)

  /** The variables' initial values: a limit of 120 frames, windowed, no loader yet. */
  const Default := Config(120, false, 0, None)

  /** The values handed to Gl.ClearColor. */
  datatype ClearColor = ClearColor(r: real, g: real, b: real, a: real)

  /**
   * SetFPSLimit: a negative limit is refused with an error and changes
   * nothing; any other limit, 0 included, is stored and one value is sent on
   * the reset channel.
   */
  function SetFPSLimit(c: Config, limit: int): (r: (Config, Option<string>))
    ensures r.1.Some? <==> limit < 0
    ensures limit < 0 ==> r.0 == c
    ensures limit >= 0 ==> r.0.fpsLimit == limit && r.0.resetSignals == c.resetSignals + 1
    ensures r.0.headless == c.headless && r.0.files == c.files
  {
    if limit < 0 then (c, Some("FPS Limit out of bounds. Requires >= 0"))
    else (c.(fpsLimit := limit, resetSignals := c.resetSignals + 1), None)
  }

  /** Signals count accepted calls only, and the limit is the last accepted value. */
  lemma SetFPSLimitTwice(c: Config, a: int, b: int)
    ensures var r := SetFPSLimit(SetFPSLimit(c, a).0, b).0;
            r.resetSignals == c.resetSignals + (if a >= 0 then 1 else 0) + (if b >= 0 then 1 else 0) &&
            r.fpsLimit == (if b >= 0 then b else if a >= 0 then a else c.fpsLimit)
  {
  }

  /** Byte k (0 = lowest) of a 32-bit value: `(v >> 8k) & 0xFF`. */
  function Byte(v: U32, k: nat): (r: int)
    requires k < 4
    ensures 0 <= r < 256
  {
    if k == 0 then v as int % 256
    else if k == 1 then (v as int / 0x100) % 256
    else if k == 2 then (v as int / 0x1_0000) % 256
    else (v as int / 0x100_0000) % 256
  }

  /**
   * SetBg: when not headless, GL's clear colour becomes bytes 2, 1 and 0 of
   * `color` scaled to [0, 1], with alpha 1. Headless, nothing is called.
   */
  function SetBg(c: Config, color: U32): (r: Option<ClearColor>)
    ensures c.headless <==> r.None?
    ensures r.Some? ==> r.value.a == 1.0 &&
                        0.0 <= r.value.r <= 1.0 && 0.0 <= r.value.g <= 1.0 && 0.0 <= r.value.b <= 1.0
    ensures r.Some? ==> r.value.r * 255.0 == Byte(color, 2) as real &&
                        r.value.g * 255.0 == Byte(color, 1) as real &&
                        r.value.b * 255.0 == Byte(color, 0) as real
  {
    if c.headless then None
    else Some(ClearColor(Byte(color, 2) as real / 255.0, Byte(color, 1) as real / 255.0, Byte(color, 0) as real / 255.0, 1.0))
  }

  /** The three channel bytes put back together give the colour without its top byte. */
  lemma ChannelsRecompose(v: U32)
    ensures Byte(v, 2) * 0x1_0000 + Byte(v, 1) * 0x100 + Byte(v, 0) == v as int % 0x100_0000
  {
    var x := v as int;
    var q0 := x / 0x100;
    var q1 := q0 / 0x100;
    assert x == q0 * 0x100 + x % 0x100;
    assert q0 == q1 * 0x100 + q0 % 0x100;
    assert x / 0x1_0000 == q1;
    assert x == q1 * 0x1_0000 + (q0 % 0x100) * 0x100 + x % 0x100;
    var top := q1 / 0x100;
    assert q1 == top * 0x100 + q1 % 0x100;
    assert x == top * 0x100_0000 + (q1 % 0x100) * 0x1_0000 + (q0 % 0x100) * 0x100 + x % 0x100;
  }

  /** The top byte of the colour never reaches GL. */
  lemma TopByteIgnored(c: Config, color: U32)
    ensures SetBg(c, color) == SetBg(c, (color as int % 0x100_0000) as U32)
  {
    ChannelBytesOfLow(color);
  }

  lemma ChannelBytesOfLow(v: U32)
    ensures var low := (v as int % 0x100_0000) as U32;
            Byte(low, 0) == Byte(v, 0) && Byte(low, 1) == Byte(v, 1) && Byte(low, 2) == Byte(v, 2)
  {
    var x := v as int;
    var low := x % 0x100_0000;
    var top := x / 0x100_0000;
    LowByteOfSplit(x, top, low);
    MiddleByteOfSplit(x, top, low);
    HighByteOfSplit(x, top, low);
  }

  lemma LowByteOfSplit(x: int, top: int, low: int)
    requires x == top * 0x100_0000 + low
    ensures x % 0x100 == low % 0x100
  {
    assert x == (top * 0x1_0000) * 0x100 + low;
  }

  lemma MiddleByteOfSplit(x: int, top: int, low: int)
    requires x == top * 0x100_0000 + low
    ensures (x / 0x100) % 0x100 == (low / 0x100) % 0x100
  {
    assert x == (top * 0x1_0000) * 0x100 + low;
    assert x / 0x100 == top * 0x1_0000 + low / 0x100;
    assert (top * 0x1_0000 + low / 0x100) == (top * 0x100) * 0x100 + low / 0x100;
  }

  lemma HighByteOfSplit(x: int, top: int, low: int)
    requires x == top * 0x100_0000 + low
    ensures (x / 0x1_0000) % 0x100 == (low / 0x1_0000) % 0x100
  {
    assert x == (top * 0x100) * 0x1_0000 + low;
    assert x / 0x1_0000 == top * 0x100 + low / 0x1_0000;
  }

  /** OpenHeadlessNoRun (and OpenHeadless before it runs the game): a new loader, headless mode. */
  function OpenHeadlessNoRun(c: Config): (r: Config)
    ensures r.headless && r.files == Some(Assets.NewLoader())
    ensures r.fpsLimit == c.fpsLimit && r.resetSignals == c.resetSignals
  {
    c.(headless := true, files := Some(Assets.NewLoader()))
  }

  /** Open, before it runs the game: a new loader; the headless flag is left as it is. */
  function Open(c: Config): (r: Config)
    ensures r.files == Some(Assets.NewLoader())
    ensures r.headless == c.headless && r.fpsLimit == c.fpsLimit && r.resetSignals == c.resetSignals
  {
    c.(files := Some(Assets.NewLoader()))
  }

  /** Once opened headless, SetBg never calls GL, whatever the colour; from the defaults Open keeps GL calls on. */
  lemma HeadlessSkipsGl(c: Config, color: U32)
    ensures SetBg(OpenHeadlessNoRun(c), color).None?
    ensures SetBg(Open(Default), color).Some?
    ensures Default.fpsLimit == 120 && !Default.headless
  {
  }
}

=== FILE: entity.dfy ===
/**
 * The entity store (entity.go): an id fixed at creation, the set of system
 * names the entity asks to be scheduled by, and its components keyed by the
 * string their `Type()` returns.
 */
module EntityStore {
  import opened Basics
  import opened Components

  /** Entity ids are the strings generateUUID returns; they are assumed unique. */
  type Id = string

  /**
   * An *Entity object. `required` is the Go `requires map[string]bool`, whose
   * values are always true. `present` stands for the `Exists` flag the scheduler
   * and the collision system read although entity.go does not declare it.
   */
  datatype Entity = Entity(id: Id, components: map<string, Component>, required: set<string>, present: bool)

  /** Every stored component sits under the key its own `Type()` names. */
  predicate WellKeyed(e: Entity)
  {
    forall k :: k in e.components ==> TypeName(e.components[k].Kind()) == k
  }

  /** The set the Go loop over `requires` builds, one name at a time. */
  function RequireSet(names: seq<string>): (s: set<string>)
    ensures forall n :: n in s <==> n in names
  {
    if names == [] then {} else RequireSet(names[..|names| - 1]) + {names[|names| - 1]}
  }

  /** NewEntity: `id` is the fresh UUID; `Exists` keeps Go's zero value. */
  function NewEntity(id: Id, names: seq<string>): (e: Entity)
    ensures e.id == id
    ensures forall n :: DoesRequire(e, n) <==> n in names
    ensures e.components == map[]
    ensures !e.present
    ensures WellKeyed(e)
  {
    Entity(id, map[], RequireSet(names), false)
  }

  /** The required set of a fresh entity, for the name lists the demos use. */
  lemma RequiresOfTwo(id: Id, a: string, b: string)
    ensures NewEntity(id, [a, b]).required == {a, b}
  {
    var e := NewEntity(id, [a, b]);
    assert forall n :: n in e.required <==> DoesRequire(e, n);
  }

  lemma RequiresOfThree(id: Id, a: string, b: string, c: string)
    ensures NewEntity(id, [a, b, c]).required == {a, b, c}
  {
    var e := NewEntity(id, [a, b, c]);
    assert forall n :: n in e.required <==> DoesRequire(e, n);
  }

  lemma RequiresOfFour(id: Id, a: string, b: string, c: string, d: string)
    ensures NewEntity(id, [a, b, c, d]).required == {a, b, c, d}
  {
    var e := NewEntity(id, [a, b, c, d]);
    assert forall n :: n in e.required <==> DoesRequire(e, n);
  }

  function DoesRequire(e: Entity, name: string): bool
  {
    name in e.required
  }

  function ID(e: Entity): Id
  {
    e.id
  }

  /** AddComponent: a later add of the same kind replaces the earlier one. */
  function AddComponent(e: Entity, c: Component): (r: Entity)
    ensures TypeName(c.Kind()) in r.components && r.components[TypeName(c.Kind())] == c
    ensures forall k :: k != TypeName(c.Kind()) ==>
      (k in r.components <==> k in e.components) &&
      (k in e.components ==> r.components[k] == e.components[k])
    ensures r.id == e.id && r.required == e.required && r.present == e.present
    ensures WellKeyed(e) ==> WellKeyed(r)
  {
    e.(components := e.components[TypeName(c.Kind()) := c])
  }

  /** RemoveComponent: deletes the kind's key; nothing happens when it is absent. */
  function RemoveComponent(e: Entity, k: Kind): (r: Entity)
    ensures TypeName(k) !in r.components
    ensures forall k' :: k' != TypeName(k) ==>
      (k' in r.components <==> k' in e.components) &&
      (k' in e.components ==> r.components[k'] == e.components[k'])
    ensures TypeName(k) !in e.components ==> r == e
    ensures r.id == e.id && r.required == e.required && r.present == e.present
    ensures WellKeyed(e) ==> WellKeyed(r)
  {
    e.(components := e.components - {TypeName(k)})
  }

  /** ComponentFast: the component stored under the kind's `Type()`, or nil. */
  function ComponentFast(e: Entity, k: Kind): (r: Option<Component>)
    ensures r.Some? <==> TypeName(k) in e.components
    ensures r.Some? ==> r.value == e.components[TypeName(k)]
    ensures WellKeyed(e) && r.Some? ==> r.value.Kind() == k
  {
    if TypeName(k) in e.components then Some(e.components[TypeName(k)]) else None
  }

  /** A lookup after an add sees the added component under its own kind and the old one under any other. */
  lemma LookupAfterAdd(e: Entity, c: Component, k: Kind)
    ensures ComponentFast(AddComponent(e, c), k) == if c.Kind() == k then Some(c) else ComponentFast(e, k)
  {
    if c.Kind() != k && TypeName(c.Kind()) == TypeName(k) {
      TypeNameInjective(c.Kind(), k);
    }
  }

  /** Three adds of different kinds onto a fresh entity: each kind finds its own component. */
  lemma LookupAfterThreeAdds(e: Entity, c1: Component, c2: Component, c3: Component)
    requires e.components == map[]
    requires c1.Kind() != c2.Kind() && c1.Kind() != c3.Kind() && c2.Kind() != c3.Kind()
    ensures var r := AddComponent(AddComponent(AddComponent(e, c1), c2), c3);
            && ComponentFast(r, c1.Kind()) == Some(c1)
            && ComponentFast(r, c2.Kind()) == Some(c2)
            && ComponentFast(r, c3.Kind()) == Some(c3)
            && r.id == e.id && r.required == e.required && r.present == e.present
  {
    var e1 := AddComponent(e, c1);
    var e2 := AddComponent(e1, c2);
    LookupAfterAdd(e, c1, c1.Kind());
    LookupAfterAdd(e1, c2, c1.Kind());
    LookupAfterAdd(e2, c3, c1.Kind());
    LookupAfterAdd(e1, c2, c2.Kind());
    LookupAfterAdd(e2, c3, c2.Kind());
    LookupAfterAdd(e2, c3, c3.Kind());
  }

  /** Putting back the component an entity had under a kind undoes an add of that kind. */
  lemma ReAddRestores(e: Entity, c: Component, c': Component)
    requires c.Kind() == c'.Kind() && ComponentFast(e, c.Kind()) == Some(c)
    ensures AddComponent(AddComponent(e, c'), c) == e
  {
    var k := TypeName(c.Kind());
    assert e.components[k := c'][k := c] == e.components;
  }

  /** strings.Index for one character: the first position of `c`, or -1. */
  function IndexOf(s: string, c: char): (i: int)
    ensures -1 <= i < |s|
    ensures i == -1 <==> c !in s
    ensures 0 <= i ==> s[i] == c && c !in s[..i]
  {
    if |s| == 0 then -1
    else if s[0] == c then 0
    else
      var j := IndexOf(s[1..], c);
      if j == -1 then -1 else j + 1
  }

  /**
   * The key the reflection lookup uses: the Go type name with everything up
   * to and including its first '.' removed, provided that '.' is not the
   * first character.
   */
  function LookupKey(typeName: string): (key: string)
    ensures forall i :: 0 < i < |typeName| && typeName[i] == '.' && '.' !in typeName[..i] ==>
      key == typeName[i + 1..]
    ensures ('.' !in typeName || typeName[0] == '.') ==> key == typeName
  {
    var dot := IndexOf(typeName, '.');
    if dot > 0 then typeName[dot + 1..] else typeName
  }

  /**
   * Component (called GetComponent by the systems): `x` is the current value
   * of the caller's pointer variable. On a hit it is overwritten with the
   * stored component; on a miss the result is false and `x` is left as it was.
   */
  function GetComponent(e: Entity, typeName: string, x: Option<Component>): (r: (bool, Option<Component>))
    ensures r.0 <==> LookupKey(typeName) in e.components
    ensures r.0 ==> r.1 == Some(e.components[LookupKey(typeName)])
    ensures !r.0 ==> r.1 == x
  {
    var key := LookupKey(typeName);
    if key in e.components then (true, Some(e.components[key])) else (false, x)
  }

  /** Stripping the package qualifier of `*engi.K` gives exactly K's `Type()`. */
  lemma LookupKeyOfGoTypeName(k: Kind)
    ensures LookupKey(GoTypeName(k)) == TypeName(k)
  {
    var t := GoTypeName(k);
    assert t[5] == '.' && '.' !in t[..5];
  }

  /** The reflection path and the fast path find the same component. */
  lemma GetComponentMatchesFast(e: Entity, k: Kind, x: Option<Component>)
    ensures GetComponent(e, GoTypeName(k), x) ==
      (ComponentFast(e, k).Some?, if ComponentFast(e, k).Some? then ComponentFast(e, k) else x)
  {
    LookupKeyOfGoTypeName(k);
  }

  /** Every id of the list names a stored entity: a Go pointer never dangles. */
  predicate AllStored(store: map<Id, Entity>, ids: seq<Id>)
  {
    forall k :: 0 <= k < |ids| ==> ids[k] in store
  }

  // Typed lookups: the lookup followed by the Go type assertion.

  function SpaceOf(e: Entity): Option<SpaceComponent>
  {
    match ComponentFast(e, SpaceKind)
    case Some(Space(s)) => Some(s)
    case _ => None
  }

  function CollisionOf(e: Entity): Option<CollisionComponent>
  {
    match ComponentFast(e, CollisionKind)
    case Some(Collision(c)) => Some(c)
    case _ => None
  }

  function RenderOf(e: Entity): Option<RenderComponent>
  {
    match ComponentFast(e, RenderKind)
    case Some(Render(r)) => Some(r)
    case _ => None
  }

  function AnimationOf(e: Entity): Option<AnimationComponent>
  {
    match ComponentFast(e, AnimationKind)
    case Some(Animation(a)) => Some(a)
    case _ => None
  }

  function SpeedOf(e: Entity): Option<Point>
  {
    match ComponentFast(e, SpeedKind)
    case Some(Speed(v)) => Some(v)
    case _ => None
  }

  function HasUnpause(e: Entity): bool
  {
    ComponentFast(e, UnpauseKind) == Some(Unpause)
  }

  /** A sequence of component edits, for stating what survives them. */
  datatype EntityOp = AddOp(c: Component) | RemoveOp(k: Kind)

  function Touches(op: EntityOp): Kind
  {
    match op
    case AddOp(c) => c.Kind()
    case RemoveOp(k) => k
  }

  function Apply(e: Entity, ops: seq<EntityOp>): Entity
    decreases |ops|
  {
    if ops == [] then e
    else
      var e' := match ops[0]
        case AddOp(c) => AddComponent(e, c)
        case RemoveOp(k) => RemoveComponent(e, k);
      Apply(e', ops[1..])
  }

  /** No component edit changes the id or the required system names. */
  lemma {:induction false} EditsKeepIdentity(e: Entity, ops: seq<EntityOp>)
    ensures ID(Apply(e, ops)) == ID(e)
    ensures forall n :: DoesRequire(Apply(e, ops), n) <==> DoesRequire(e, n)
    decreases |ops|
  {
    if ops != [] {
      var e' := match ops[0]
        case AddOp(c) => AddComponent(e, c)
        case RemoveOp(k) => RemoveComponent(e, k);
      EditsKeepIdentity(e', ops[1..]);
    }
  }

  /** Round trip: an added component is found under its kind until that kind is edited again. */
  lemma {:induction false} AddedComponentFound(e: Entity, c: Component, ops: seq<EntityOp>)
    requires forall i :: 0 <= i < |ops| ==> Touches(ops[i]) != c.Kind()
    ensures ComponentFast(Apply(AddComponent(e, c), ops), c.Kind()) == Some(c)
    decreases |ops|
  {
    AddedComponentSurvives(AddComponent(e, c), c, ops);
  }

  lemma {:induction false} AddedComponentSurvives(e: Entity, c: Component, ops: seq<EntityOp>)
    requires TypeName(c.Kind()) in e.components && e.components[TypeName(c.Kind())] == c
    requires forall i :: 0 <= i < |ops| ==> Touches(ops[i]) != c.Kind()
    ensures ComponentFast(Apply(e, ops), c.Kind()) == Some(c)
    decreases |ops|
  {
    if ops != [] {
      var k := TypeName(c.Kind());
      var e' := match ops[0]
        case AddOp(c') => AddComponent(e, c')
        case RemoveOp(k') => RemoveComponent(e, k');
      match ops[0] {
        case AddOp(c') =>
          if TypeName(c'.Kind()) == k {
            TypeNameInjective(c'.Kind(), c.Kind());
          }
        case RemoveOp(k') =>
          if TypeName(k') == k {
            TypeNameInjective(k', c.Kind());
          }
      }
      assert k in e'.components && e'.components[k] == c;
      AddedComponentSurvives(e', c, ops[1..]);
    }
  }
}

=== FILE: galaxian.dfy ===
/**
 * The galaxian demo's ship controls and bullets (demos/galaxian/control.go,
 * demos/galaxian/bullet.go). The key states, `engi.Width()`, the global
 * `scale`, the bullet sprite and the fresh UUID of a new bullet are
 * parameters.
 */
module Galaxian {
  import opened Basics
  import opened Components
  import opened EntityStore
  import Worlds
  import Scheduler

  /** How far the ship moves per second. */
  const ShipSpeed: real := 800.0

  /** The systems a bullet asks for. */
  const BulletSystems: set<string> := {"RenderSystem", "SpeedSystem", "BulletSystem"}

  /** Go's uint64 wraps at 2^64. */
  const U64Modulus: nat := 0x1_0000_0000_0000_0000

  /** `bulletCount++` on a Go uint64: one more, wrapping to 0 past 2^64 - 1. */
  function NextCount(c: nat): (r: nat)
    ensures r < U64Modulus
    ensures c + 1 < U64Modulus ==> r == c + 1
    ensures c + 1 == U64Modulus ==> r == 0
  {
    (c + 1) % U64Modulus
  }

  /** The package variables `game`, `counter` and `bulletCount`. */
  datatype Game = Game(world: Worlds.World, counter: int, bulletCount: nat)

  /** The key states ControlSystem.Update reads. */
  datatype Input = Input(left: bool, right: bool, spaceDown: bool, spaceJustReleased: bool)

  /** What a bullet is made of: the global `scale`, the bullet sprite and its size, and the tier NewRenderComponent assigns. */
  datatype Sprites = Sprites(scale: Point, bullet: Drawable, bulletWidth: real, bulletHeight: real, tier: int)

  /** The entity's space with a new horizontal position. */
  function WithX(e: Entity, space: SpaceComponent, x: real): (r: Entity)
    requires SpaceOf(e) == Some(space)
    ensures SpaceOf(r) == Some(space.(position := space.position.(x := x)))
    ensures forall k :: k != SpaceKind ==> ComponentFast(r, k) == ComponentFast(e, k)
    ensures r.id == e.id && r.required == e.required && r.present == e.present
  {
    var c := Space(space.(position := space.position.(x := x)));
    LookupAfterAdd(e, c, SpaceKind);
    assert forall k :: k != SpaceKind ==> ComponentFast(AddComponent(e, c), k) == ComponentFast(e, k) by {
      forall k | k != SpaceKind {
        LookupAfterAdd(e, c, k);
      }
    }
    AddComponent(e, c)
  }

  /** moveLeft: the ship moves 800·dt to the left unless that would take X below 0. */
  function MoveLeft(ship: Entity, dt: real): (r: Entity)
    ensures SpaceOf(ship).None? ==> r == ship
    ensures SpaceOf(ship).Some? ==>
              var s := SpaceOf(ship).value;
              var x := s.position.x - ShipSpeed * dt;
              SpaceOf(r) == Some(if x >= 0.0 then s.(position := s.position.(x := x)) else s)
    ensures forall k :: k != SpaceKind ==> ComponentFast(r, k) == ComponentFast(ship, k)
    ensures r.id == ship.id && r.required == ship.required && r.present == ship.present
  {
    match SpaceOf(ship)
    case None => ship
    case Some(space) =>
      var newX := space.position.x - ShipSpeed * dt;
      if newX >= 0.0 then WithX(ship, space, newX) else ship
  }

  /** moveRight: the ship moves 800·dt to the right unless that would take X past the screen width. */
  function MoveRight(ship: Entity, dt: real, width: real): (r: Entity)
    ensures SpaceOf(ship).None? ==> r == ship
    ensures SpaceOf(ship).Some? ==>
              var s := SpaceOf(ship).value;
              var x := s.position.x + ShipSpeed * dt;
              SpaceOf(r) == Some(if x <= width then s.(position := s.position.(x := x)) else s)
    ensures forall k :: k != SpaceKind ==> ComponentFast(r, k) == ComponentFast(ship, k)
    ensures r.id == ship.id && r.required == ship.required && r.present == ship.present
  {
    match SpaceOf(ship)
    case None => ship
    case Some(space) =>
      var newX := space.position.x + ShipSpeed * dt;
      if newX <= width then WithX(ship, space, newX) else ship
  }

  /** Go's `string(n)` for an integer: the character with that code point, or U+FFFD when there is none. */
  function RuneString(n: nat): (s: string)
    ensures |s| == 1
    ensures n < 0xD800 || 0xE000 <= n < 0x11_0000 ==> s[0] as int == n
    ensures !(n < 0xD800 || 0xE000 <= n < 0x11_0000) ==> s[0] as int == 0xFFFD
  {
    if n < 0xD800 || 0xE000 <= n < 0x11_0000 then [n as char] else "�"
  }

  /** A texture's width and height multiplied by a scale. */
  function Stretch(scale: Point, width: real, height: real): Point
  {
    Point(scale.x * width, scale.y * height)
  }

  /**
   * The entity fire builds: it requires the render, speed and bullet
   * systems, sits just above the ship and moves up at 100·scale.Y.
   */
  function Bullet(id: Id, from: Point, sp: Sprites, count: nat): (b: Entity)
    ensures b.id == id && b.required == BulletSystems
    ensures SpaceOf(b).Some? && SpaceOf(b).value.position == Point(from.x + 7.0 * sp.scale.x, from.y - sp.scale.y)
    ensures SpeedOf(b) == Some(Point(0.0, -100.0 * sp.scale.y))
    ensures RenderOf(b).Some?
  {
    var e := NewEntity(id, ["RenderSystem", "SpeedSystem", "BulletSystem"]);
    var render := NewRenderComponent(sp.bullet, sp.scale, "bullet" + RuneString(count), sp.tier);
    var at := Point(from.x + 7.0 * sp.scale.x, from.y - sp.scale.y);
    var size := Stretch(sp.scale, sp.bulletWidth, sp.bulletHeight);
    var space := SpaceComponent(at, size.x, size.y);
    var speed := Point(0.0, -100.0 * sp.scale.y);
    RequiresOfThree(id, "RenderSystem", "SpeedSystem", "BulletSystem");
    LookupAfterThreeAdds(e, Render(render), Space(space), Speed(speed));
    AddComponent(AddComponent(AddComponent(e, Render(render)), Space(space)), Speed(speed))
  }

  /**
   * fire: without a space nothing happens. Otherwise `counter` and
   * `bulletCount` (a wrapping uint64) go up by one and a bullet is added to
   * the game world under the new id `newId`, just above the ship.
   */
  function Fire(g: Game, ship: Id, newId: Id, sp: Sprites): (r: Game)
    requires ship in g.world.store
    ensures SpaceOf(g.world.store[ship]).None? ==> r == g
    ensures SpaceOf(g.world.store[ship]).Some? ==>
              && r.counter == g.counter + 1
              && r.bulletCount == NextCount(g.bulletCount)
              && r.world == Worlds.AddEntity(g.world, Bullet(newId, SpaceOf(g.world.store[ship]).value.position, sp, r.bulletCount))
  {
    if SpaceOf(g.world.store[ship]).None? then g else FireFrom(g, ship, newId, sp)
  }

  /** Fire leaves the ship itself alone, and the new bullet is the only entity it adds. */
  lemma FireAddsOneBullet(g: Game, ship: Id, newId: Id, sp: Sprites)
    requires ship in g.world.store && newId !in g.world.store
    requires SpaceOf(g.world.store[ship]).Some?
    ensures var r := Fire(g, ship, newId, sp);
            && r.world.store.Keys == g.world.store.Keys + {newId}
            && r.world.entities == g.world.entities + {newId}
            && r.world.store[ship] == g.world.store[ship]
            && r.world.store[newId].required == BulletSystems
            && SpaceOf(r.world.store[newId]).value.position ==
                 Point(SpaceOf(g.world.store[ship]).value.position.x + 7.0 * sp.scale.x,
                       SpaceOf(g.world.store[ship]).value.position.y - sp.scale.y)
            && SpeedOf(r.world.store[newId]) == Some(Point(0.0, -100.0 * sp.scale.y))
  {
    var r := Fire(g, ship, newId, sp);
    var b := Bullet(newId, SpaceOf(g.world.store[ship]).value.position, sp, r.bulletCount);
    assert r.world.store == g.world.store[newId := b];
  }

  /** The bullet joins exactly the registered systems named Render-, Speed- or BulletSystem. */
  lemma FireWiresBullet(g: Game, ship: Id, newId: Id, sp: Sprites, i: int)
    requires ship in g.world.store && SpaceOf(g.world.store[ship]).Some?
    requires 0 <= i < |g.world.systems|
    ensures var sys := g.world.systems[i];
            Fire(g, ship, newId, sp).world.systems[i].Entities() ==
              sys.Entities() + (if sys.Type() in BulletSystems then [newId] else [])
  {
    var count := NextCount(g.bulletCount);
    var b := Bullet(newId, SpaceOf(g.world.store[ship]).value.position, sp, count);
    Joins(g.world, b, BulletSystems, i);
  }

  /** Adding an entity appends it to exactly the systems whose Type() it requires. */
  lemma Joins(w: Worlds.World, b: Entity, names: set<string>, i: int)
    requires b.required == names
    requires 0 <= i < |w.systems|
    ensures Worlds.AddEntity(w, b).systems[i].Entities() ==
              w.systems[i].Entities() + (if w.systems[i].Type() in names then [b.id] else [])
  {
    assert Worlds.Wants(b, w.systems[i]) <==> w.systems[i].Type() in names;
  }

  /** Whether fire runs this frame: Space held down or just released. */
  predicate Fires(keys: Input)
  {
    keys.spaceDown || keys.spaceJustReleased
  }

  /**
   * ControlSystem.Update on the ship stored under `ship`: move left if Left
   * is down, then right if Right is down, then fire, which reads the
   * already moved position.
   */
  function ControlUpdate(g: Game, ship: Id, dt: real, keys: Input, width: real, newId: Id, sp: Sprites): (r: Game)
    requires ship in g.world.store
    ensures SpaceOf(g.world.store[ship]).None? ==> r == g
    ensures ship in r.world.store
    ensures SpaceOf(g.world.store[ship]).Some? && ship != newId ==> r.world.store[ship] == Steer(g.world.store[ship], dt, keys, width)
    ensures !Fires(keys) ==>
              && r.counter == g.counter && r.bulletCount == g.bulletCount
              && r.world.entities == g.world.entities && r.world.systems == g.world.systems && r.world.paused == g.world.paused
              && r.world.store.Keys == g.world.store.Keys
              && forall id :: id in g.world.store && id != ship ==> r.world.store[id] == g.world.store[id]
    ensures Fires(keys) && SpaceOf(g.world.store[ship]).Some? ==>
              && r.counter == g.counter + 1
              && r.bulletCount == NextCount(g.bulletCount)
              && r.world.store.Keys == g.world.store.Keys + {newId}
              && r.world.entities == g.world.entities + {newId}
              && r.world.store[newId] == Bullet(newId, SpaceOf(Steer(g.world.store[ship], dt, keys, width)).value.position, sp, r.bulletCount)
  {
    var e0 := g.world.store[ship];
    if SpaceOf(e0).None? then
      if Fires(keys) then Fire(g, ship, newId, sp) else g
    else
      var moved := Replace(g, ship, Steer(e0, dt, keys, width));
      if Fires(keys) then FireFrom(moved, ship, newId, sp) else moved
  }

  /** The game with the entity stored under `ship` replaced; nothing else changes. */
  function Replace(g: Game, ship: Id, e: Entity): (r: Game)
    requires ship in g.world.store
    ensures r.counter == g.counter && r.bulletCount == g.bulletCount
    ensures r.world.entities == g.world.entities && r.world.systems == g.world.systems && r.world.paused == g.world.paused
    ensures r.world.store.Keys == g.world.store.Keys && r.world.store[ship] == e
    ensures forall id :: id in g.world.store && id != ship ==> r.world.store[id] == g.world.store[id]
  {
    g.(world := g.world.(store := g.world.store[ship := e]))
  }

  /** Fire on a ship that has a space: the bullet, built from the ship's position, is the one entity added. */
  function FireFrom(g: Game, ship: Id, newId: Id, sp: Sprites): (r: Game)
    requires ship in g.world.store && SpaceOf(g.world.store[ship]).Some?
    ensures r.counter == g.counter + 1
    ensures r.bulletCount == NextCount(g.bulletCount)
    ensures r.world == Worlds.AddEntity(g.world, Bullet(newId, SpaceOf(g.world.store[ship]).value.position, sp, r.bulletCount))
    ensures r.world.store.Keys == g.world.store.Keys + {newId}
    ensures r.world.entities == g.world.entities + {newId}
    ensures r.world.store[newId] == Bullet(newId, SpaceOf(g.world.store[ship]).value.position, sp, r.bulletCount)
  {
    var count := NextCount(g.bulletCount);
    var bullet := Bullet(newId, SpaceOf(g.world.store[ship]).value.position, sp, count);
    Game(Worlds.AddEntity(g.world, bullet), g.counter + 1, count)
  }

  /** The moves of ControlSystem.Update: left if Left is down, then right if Right is down. */
  function Steer(ship: Entity, dt: real, keys: Input, width: real): (r: Entity)
    ensures SpaceOf(ship).None? ==> r == ship
    ensures SpaceOf(ship).Some? ==> SpaceOf(r).Some?
    ensures SpaceOf(ship).Some? && dt >= 0.0 && 0.0 <= SpaceOf(ship).value.position.x <= width ==>
              SpaceOf(r).Some? && 0.0 <= SpaceOf(r).value.position.x <= width
  {
    var e1 := if keys.left then MoveLeft(ship, dt) else ship;
    if keys.right then MoveRight(e1, dt, width) else e1
  }

  /**
   * Screen bound: a ship inside [0, Width] stays inside it, whatever keys
   * are held, for any non-negative frame time.
   */
  lemma ShipStaysOnScreen(g: Game, ship: Id, dt: real, keys: Input, width: real, newId: Id, sp: Sprites)
    requires ship in g.world.store && newId !in g.world.store
    requires SpaceOf(g.world.store[ship]).Some?
    requires 0.0 <= SpaceOf(g.world.store[ship]).value.position.x <= width
    requires dt >= 0.0
    ensures SpaceOf(ControlUpdate(g, ship, dt, keys, width, newId, sp).world.store[ship]).Some?
    ensures 0.0 <= SpaceOf(ControlUpdate(g, ship, dt, keys, width, newId, sp).world.store[ship]).value.position.x <= width
  {
    assert ship != newId;
  }

  /**
   * BulletSystem.Update: a bullet above the top edge (Y < 0) has
   * game.RemoveEntity called on it once, deferred to the end of the call;
   * otherwise, or without a space, nothing happens. The bullet's components
   * are never touched. The result lists the RemoveEntity calls.
   */
  function BulletUpdate(w: Worlds.World, bullet: Id): (r: (Worlds.World, seq<Id>))
    requires bullet in w.store && w.store[bullet].id == bullet
    ensures SpaceOf(w.store[bullet]).None? ==> r == (w, [])
    ensures SpaceOf(w.store[bullet]).Some? ==>
              r.1 == (if SpaceOf(w.store[bullet]).value.position.y < 0.0 then [bullet] else [])
    ensures r.0.store == w.store && r.0.systems == w.systems && r.0.paused == w.paused
    ensures r.0.entities == if r.1 == [] then w.entities else w.entities - {bullet}
  {
    match SpaceOf(w.store[bullet])
    case None => (w, [])
    case Some(space) =>
      if space.position.y < 0.0 then (Worlds.RemoveEntity(w, w.store[bullet]), [bullet])
      else (w, [])
  }

  /**
   * A removed bullet is not forgotten by the systems: it stays in every
   * system's list, and the next frame makes exactly the calls it would
   * have made without the removal.
   */
  lemma RemovedBulletStillScheduled(w: Worlds.World, bullet: Id, numCPU: nat, headless: bool, escape: bool)
    requires Worlds.Valid(w) && bullet in w.store
    ensures Worlds.Valid(BulletUpdate(w, bullet).0)
    ensures forall i :: 0 <= i < |w.systems| ==> BulletUpdate(w, bullet).0.systems[i].Entities() == w.systems[i].Entities()
    ensures Scheduler.Frame(BulletUpdate(w, bullet).0, numCPU, headless, escape) == Scheduler.Frame(w, numCPU, headless, escape)
  {
    if SpaceOf(w.store[bullet]).Some? && SpaceOf(w.store[bullet]).value.position.y < 0.0 {
      Scheduler.RemovedStillDispatched(w, w.store[bullet], numCPU, headless, escape);
    }
  }
}

=== FILE: gopath.dfy ===
/**
 * The two functions of Go's standard `path` package that the asset loader
 * uses, on slash-separated paths: `path.Base` and `path.Ext`.
 */
module GoPath {

  /** The path with every trailing '/' removed. */
  function TrimTrailingSlashes(p: string): (r: string)
    ensures |r| <= |p| && r == p[..|r|]
    ensures r == [] || r[|r| - 1] != '/'
    ensures forall k :: |r| <= k < |p| ==> p[k] == '/'
  {
    if p != [] && p[|p| - 1] == '/' then TrimTrailingSlashes(p[..|p| - 1]) else p
  }

  /** strings.LastIndex for one character: the last position of `c`, or -1. */
  function LastIndexOf(s: string, c: char): (i: int)
    ensures -1 <= i < |s|
    ensures i == -1 <==> c !in s
    ensures 0 <= i ==> s[i] == c && c !in s[i + 1..]
  {
    if s == [] then -1
    else if s[|s| - 1] == c then |s| - 1
    else
      var j := LastIndexOf(s[..|s| - 1], c);
      assert j == -1 ==> c !in s by {
        if j == -1 {
          assert s == s[..|s| - 1] + [s[|s| - 1]];
        }
      }
      assert 0 <= j ==> c !in s[j + 1..] by {
        if 0 <= j {
          assert s[j + 1..] == s[..|s| - 1][j + 1..] + [s[|s| - 1]];
        }
      }
      j
  }

  /** The part of `t` after its last '/': all of `t` when it has none. */
  function LastElement(t: string): (r: string)
    ensures '/' !in r
    ensures |r| <= |t| && r == t[|t| - |r|..]
    ensures |r| < |t| ==> t[|t| - |r| - 1] == '/'
  {
    var i := LastIndexOf(t, '/');
    if i >= 0 then t[i + 1..] else t
  }

  /**
   * path.Base: the last element of the path. Trailing slashes are ignored;
   * the empty path gives "." and a path of only slashes gives "/".
   */
  function Base(p: string): (r: string)
    ensures p == [] ==> r == "."
    ensures r != []
    ensures r == "/" || '/' !in r
  {
    if p == [] then "."
    else
      var last := LastElement(TrimTrailingSlashes(p));
      if last == [] then "/" else last
  }

  /** Whether every character of `s` is a '/'. */
  predicate AllSlashes(s: string)
  {
    forall k :: 0 <= k < |s| ==> s[k] == '/'
  }

  /** Base gives "/" for a non-empty path exactly when the path is all slashes. */
  lemma BaseSlashIff(p: string)
    ensures p != [] ==> (Base(p) == "/" <==> AllSlashes(p))
  {
    if p != [] {
      var t := TrimTrailingSlashes(p);
      if AllSlashes(p) {
        assert t == [];
      }
      if Base(p) == "/" {
        assert LastElement(t) == [] by {
          assert "/"[0] == '/';
        }
        assert t == [];
      }
    }
  }

  /**
   * Base is the last element: unless it is "/", it is a slash-free piece of
   * the path that starts the path or follows a '/', with only slashes after it.
   */
  lemma BaseIsLastElement(p: string)
    ensures p != [] && Base(p) != "/" ==>
              exists q, s :: p == q + Base(p) + s && (q == [] || q[|q| - 1] == '/') && AllSlashes(s)
  {
    if p != [] && Base(p) != "/" {
      var t := TrimTrailingSlashes(p);
      var last := LastElement(t);
      var q := t[..|t| - |last|];
      var s := p[|t|..];
      assert Base(p) == last;
      TrimSplit(p);
      SplitBeforeSuffix(t, last);
      assert p == q + Base(p) + s && (q == [] || q[|q| - 1] == '/') && AllSlashes(s);
    }
  }

  /** A path is its trimmed form followed by slashes. */
  lemma TrimSplit(p: string)
    ensures p == TrimTrailingSlashes(p) + p[|TrimTrailingSlashes(p)|..]
    ensures AllSlashes(p[|TrimTrailingSlashes(p)|..])
  {
    var t := TrimTrailingSlashes(p);
    assert p == p[..|t|] + p[|t|..];
  }

  /** A string is what precedes a suffix, ending in '/' when not empty, then that suffix. */
  lemma SplitBeforeSuffix(t: string, last: string)
    requires |last| <= |t| && last == t[|t| - |last|..]
    requires |last| < |t| ==> t[|t| - |last| - 1] == '/'
    ensures var q := t[..|t| - |last|];
            t == q + last && (q == [] || q[|q| - 1] == '/')
  {
    var n := |t| - |last|;
    var q := t[..n];
    assert t == q + t[n..];
    if n > 0 {
      assert q[n - 1] == t[n - 1];
    }
  }

  /**
   * path.Ext: the suffix from the final '.' of the last element, or "" when
   * that element has no '.'. The search runs on the whole path and stops at
   * the last '/'.
   */
  function Ext(p: string): (r: string)
    ensures r == [] || (r[0] == '.' && '.' !in r[1..] && '/' !in r)
    ensures |r| <= |p| && r == p[|p| - |r|..]
    decreases |p|
  {
    if p == [] || p[|p| - 1] == '/' then []
    else if p[|p| - 1] == '.' then ['.']
    else
      var e := Ext(p[..|p| - 1]);
      if e == [] then [] else e + [p[|p| - 1]]
  }

  /** Ext is empty exactly when the part after the last '/' has no '.'. */
  lemma {:induction false} ExtEmptyIff(p: string)
    ensures Ext(p) == [] <==> '.' !in p[LastIndexOf(p, '/') + 1..]
    decreases |p|
  {
    if p != [] {
      var init := p[..|p| - 1];
      var c := p[|p| - 1];
      if c == '/' {
        assert p[LastIndexOf(p, '/') + 1..] == [];
      } else {
        ExtEmptyIff(init);
        ExtEmptyStep(p);
      }
    }
  }

  /** The inductive step of ExtEmptyIff: a last character other than '/' extends both sides by one. */
  lemma ExtEmptyStep(p: string)
    requires p != [] && p[|p| - 1] != '/'
    requires Ext(p[..|p| - 1]) == [] <==> '.' !in p[..|p| - 1][LastIndexOf(p[..|p| - 1], '/') + 1..]
    ensures Ext(p) == [] <==> '.' !in p[LastIndexOf(p, '/') + 1..]
  {
    var init := p[..|p| - 1];
    var c := p[|p| - 1];
    var j := LastIndexOf(init, '/');
    assert Ext(p) == [] <==> c != '.' && Ext(init) == [];
    assert LastIndexOf(p, '/') == j;
    InAfterAppend(init[j + 1..], c, '.');
    SliceOfInit(p, j + 1);
  }

  /** Dropping a prefix commutes with dropping the last character. */
  lemma SliceOfInit(p: string, i: int)
    requires 0 <= i < |p|
    ensures p[i..] == p[..|p| - 1][i..] + [p[|p| - 1]]
  {
    var a := p[i..];
    var b := p[..|p| - 1][i..] + [p[|p| - 1]];
    assert |a| == |b|;
    forall k | 0 <= k < |a|
      ensures a[k] == b[k]
    {
      if k < |a| - 1 {
        assert b[k] == p[..|p| - 1][i + k];
      }
    }
  }

  lemma InAfterAppend(s: string, c: char, x: char)
    ensures x in s + [c] <==> x in s || x == c
  {
    assert (s + [c])[|s|] == c;
  }

  /** Fixed cases, as the Go documentation gives them. */
  lemma ExtOfFile()
    ensures Ext("d.png") == ".png"
  {
    assert "d.png"[..4] == "d.pn";
    assert "d.pn"[..3] == "d.p";
    assert "d.p"[..2] == "d.";
  }

  lemma ExtOfDirectoryDot()
    ensures Ext("c.d/e") == ""
  {
    assert "c.d/e"[..4] == "c.d/";
  }

  lemma BaseExamples()
    ensures Base("b/d.png") == "d.png"
    ensures Base("a/b/") == "b"
    ensures Base("//") == "/"
  {
    assert TrimTrailingSlashes("b/d.png") == "b/d.png";
    assert LastIndexOf("b/d.png", '/') == 1;
    assert TrimTrailingSlashes("a/b") == "a/b";
    assert TrimTrailingSlashes("a/b/") == "a/b";
    assert LastIndexOf("a/b", '/') == 1;
    assert TrimTrailingSlashes("/") == "";
    assert TrimTrailingSlashes("//") == "";
  }
}

=== FILE: headless.dfy ===
/**
 * The headless Pong demo (demos/headless/headless.go): the ball's wall and
 * goal rules, the score counter fed by ScoreMessages and the label it
 * shows, the paddle controls, the speed integration and its collision
 * listener, and the world Setup builds. Key states and the values of
 * rand.Float32 are parameters.
 */
module HeadlessDemo {
  import opened Basics
  import opened Components
  import opened EntityStore
  import opened Messages
  import opened Systems
  import Worlds
  import RenderSystem

  /** The right and bottom limit of the ball: 800 - 16. */
  const Edge: real := 784.0

  /** Where a scored ball restarts: 400 - 16 on both axes. */
  const Restart: real := 384.0

  /** The entity with its Space and Speed components replaced. */
  function Put(e: Entity, s: SpaceComponent, v: Point): Entity
  {
    AddComponent(AddComponent(e, Space(s)), Speed(v))
  }

  /**
   * BallSystem.Update. Off the left edge the ball scores for player 1's
   * message, off the right edge for player 2's; either way it restarts at
   * (384, 384) with a random speed `800 * rand` on each axis. Off the top or
   * bottom it is clamped and its vertical speed flips. `r1, r2` are the
   * values of rand.Float32 drawn for the left reset and `r3, r4` those for
   * the right reset, each in [0, 1).
   */
  function BallUpdate(e: Entity, r1: real, r2: real, r3: real, r4: real): (res: (Entity, seq<Message>))
    ensures SpaceOf(e).None? || SpeedOf(e).None? ==> res == (e, [])
    ensures SpaceOf(e).Some? && SpeedOf(e).Some? ==>
              var p := SpaceOf(e).value.position;
              SpaceOf(res.0).Some? && SpeedOf(res.0).Some? &&
              var q := SpaceOf(res.0).value.position;
              0.0 <= q.x <= Edge && 0.0 <= q.y <= Edge &&
              (p.x < 0.0 || p.x > Edge ==> q == Point(Restart, Restart)) &&
              (0.0 <= p.x <= Edge ==> q == Point(p.x, if p.y < 0.0 then 0.0 else if p.y > Edge then Edge else p.y)) &&
              res.1 == (if p.x < 0.0 then [ScoreMessage(1)] else if p.x > Edge then [ScoreMessage(2)] else [])
    ensures res.0.id == e.id && res.0.required == e.required && res.0.present == e.present
    ensures forall k :: k != TypeName(SpaceKind) && k != TypeName(SpeedKind) ==>
              (k in res.0.components <==> k in e.components) &&
              (k in e.components ==> res.0.components[k] == e.components[k])
  {
    match (SpaceOf(e), SpeedOf(e))
    case (Some(space), Some(speed)) =>
      var (s1, v1, m1) :=
        if space.position.x < 0.0 then (space.(position := Point(Restart, Restart)), Point(800.0 * r1, 800.0 * r2), [ScoreMessage(1)])
        else (space, speed, []);
      var (s2, v2) :=
        if s1.position.y < 0.0 then (s1.(position := s1.position.(y := 0.0)), v1.(y := -v1.y)) else (s1, v1);
      var (s3, v3, m3) :=
        if s2.position.x > Edge then (s2.(position := Point(Restart, Restart)), Point(800.0 * r3, 800.0 * r4), [ScoreMessage(2)])
        else (s2, v2, []);
      var (s4, v4) :=
        if s3.position.y > Edge then (s3.(position := s3.position.(y := Edge)), v3.(y := -v3.y)) else (s3, v3);
      (Put(e, s4, v4), m1 + m3)
    case _ => (e, [])
  }

  /**
   * The speed after BallUpdate: a scored ball gets the random speed of its
   * side and keeps it; otherwise only a clamp flips the vertical speed.
   */
  lemma BallSpeed(e: Entity, r1: real, r2: real, r3: real, r4: real)
    requires SpaceOf(e).Some? && SpeedOf(e).Some?
    ensures var p := SpaceOf(e).value.position;
            var v := SpeedOf(e).value;
            var w := SpeedOf(BallUpdate(e, r1, r2, r3, r4).0).value;
            var q := SpaceOf(BallUpdate(e, r1, r2, r3, r4).0).value.position;
            (p.x < 0.0 ==> w == Point(800.0 * r1, 800.0 * r2) && q == Point(Restart, Restart)) &&
            (p.x > Edge ==> w == Point(800.0 * r3, 800.0 * r4) && q == Point(Restart, Restart)) &&
            (0.0 <= p.x <= Edge ==> q.x == p.x && w.x == v.x &&
                                    q.y == (if p.y < 0.0 then 0.0 else if p.y > Edge then Edge else p.y) &&
                                    w.y == (if p.y < 0.0 || p.y > Edge then -v.y else v.y))
  {
  }

  /** A ball inside the field is left exactly as it was and sends nothing. */
  lemma BallInsideUntouched(e: Entity, r1: real, r2: real, r3: real, r4: real)
    requires SpaceOf(e).Some? && SpeedOf(e).Some?
    requires 0.0 <= SpaceOf(e).value.position.x <= Edge && 0.0 <= SpaceOf(e).value.position.y <= Edge
    ensures BallUpdate(e, r1, r2, r3, r4) == (e, [])
  {
    var space := SpaceOf(e).value;
    var speed := SpeedOf(e).value;
    assert e.components[TypeName(SpaceKind)] == Space(space);
    assert e.components[TypeName(SpeedKind)] == Speed(speed);
    assert Put(e, space, speed).components == e.components;
  }

  /** ScoreSystem's counters; `upToDate` says the label shows them. */
  datatype Score = Score(playerOne: int, playerTwo: int, upToDate: bool)

  /** ScoreSystem.New: up to date, both counters zero. */
  const NewScore := Score(0, 0, true)

  /**
   * The "ScoreMessage" listener: a message about player 1 (a ball lost on
   * the left) counts for player two, any other player number for player
   * one; either way the label is marked stale.
   */
  function ScoreListener(s: Score, m: Message): (r: Score)
    ensures !m.ScoreMessage? ==> r == s
    ensures m.ScoreMessage? ==>
              && !r.upToDate
              && r.playerOne + r.playerTwo == s.playerOne + s.playerTwo + 1
              && (r.playerOne == s.playerOne + 1 <==> m.player != 1)
    ensures m.ScoreMessage? && m.player != 1 ==>
              r.playerOne == s.playerOne + 1 && r.playerTwo == s.playerTwo
    ensures m.ScoreMessage? && m.player == 1 ==>
              r.playerTwo == s.playerTwo + 1 && r.playerOne == s.playerOne
  {
    match m
    case ScoreMessage(player) =>
      if player != 1 then s.(playerOne := s.playerOne + 1, upToDate := false)
      else s.(playerTwo := s.playerTwo + 1, upToDate := false)
    case _ => s
  }

  function DeliverScores(s: Score, msgs: seq<Message>): Score
    decreases |msgs|
  {
    if msgs == [] then s else ScoreListener(DeliverScores(s, msgs[..|msgs| - 1]), msgs[|msgs| - 1])
  }

  /** How many ScoreMessages credit player one (`one`) or player two. */
  function CountWhere(msgs: seq<Message>, one: bool): nat
    decreases |msgs|
  {
    if msgs == [] then 0
    else
      var m := msgs[|msgs| - 1];
      CountWhere(msgs[..|msgs| - 1], one) + (if m.ScoreMessage? && (m.player != 1) == one then 1 else 0)
  }

  /**
   * The counters count the messages: after a run of messages, player one has
   * gained one point per ScoreMessage whose player is not 1 and player two
   * one per ScoreMessage for player 1.
   */
  lemma {:induction false} ScoresCountMessages(s: Score, msgs: seq<Message>)
    ensures DeliverScores(s, msgs).playerOne == s.playerOne + CountWhere(msgs, true)
    ensures DeliverScores(s, msgs).playerTwo == s.playerTwo + CountWhere(msgs, false)
    decreases |msgs|
  {
    if msgs != [] {
      ScoresCountMessages(s, msgs[..|msgs| - 1]);
    }
  }

  /** The decimal digit for 0..9. */
  function Digit(d: int): (c: char)
    requires 0 <= d < 10
    ensures '0' <= c <= '9'
  {
    (('0' as int) + d) as char
  }

  /** fmt's %v of a non-negative int: its decimal digits. */
  function NatToString(n: nat): (s: string)
    ensures |s| >= 1
    decreases n
  {
    if n < 10 then [Digit(n)] else NatToString(n / 10) + [Digit(n % 10)]
  }

  /** fmt's %v of an int: a '-' before the digits of a negative value. */
  function IntToString(n: int): string
  {
    if n < 0 then "-" + NatToString(-n) else NatToString(n)
  }

  predicate AllDigits(s: string)
  {
    forall k :: 0 <= k < |s| ==> '0' <= s[k] <= '9'
  }

  /** The number a string of decimal digits denotes. */
  function DecimalValue(s: string): nat
    requires AllDigits(s)
    decreases |s|
  {
    if s == [] then 0 else DecimalValue(s[..|s| - 1]) * 10 + ((s[|s| - 1] as int) - ('0' as int))
  }

  /** Round trip: the digits NatToString writes read back as the number. */
  lemma {:induction false} NatToStringRoundTrip(n: nat)
    ensures AllDigits(NatToString(n))
    ensures DecimalValue(NatToString(n)) == n
    decreases n
  {
    if n >= 10 {
      NatToStringRoundTrip(n / 10);
      var s := NatToString(n);
      var init := NatToString(n / 10);
      assert s[..|s| - 1] == init;
    }
  }

  /** Distinct scores show distinct numbers. */
  lemma NatToStringInjective(a: nat, b: nat)
    requires NatToString(a) == NatToString(b)
    ensures a == b
  {
    NatToStringRoundTrip(a);
    NatToStringRoundTrip(b);
  }

  /** The text fmt.Sprintf("%v vs %v", …) builds. */
  function Label(s: Score): string
  {
    IntToString(s.playerOne) + " vs " + IntToString(s.playerTwo)
  }

  /**
   * ScoreSystem.Update. Without a Render or a Space component nothing
   * happens (and the label stays stale). Otherwise a stale label is rebuilt:
   * it becomes the render component's label and, rendered with the font,
   * its display; the entity is centred on x = 400 for 20 units per
   * character, using integer division; the score is up to date again.
   */
  function ScoreUpdate(s: Score, e: Entity): (r: (Score, Entity))
    ensures RenderOf(e).None? || SpaceOf(e).None? || s.upToDate ==> r == (s, e)
    ensures RenderOf(e).Some? && SpaceOf(e).Some? && !s.upToDate ==>
              r.0 == s.(upToDate := true) &&
              RenderOf(r.1) == Some(RenderOf(e).value.(caption := Label(s), display := Text(Label(s)))) &&
              SpaceOf(r.1) == Some(SpaceOf(e).value.(position := SpaceOf(e).value.position.(x := (400 - 10 * |Label(s)|) as real)))
    ensures r.1.id == e.id && r.1.required == e.required && r.1.present == e.present
  {
    match (RenderOf(e), SpaceOf(e))
    case (Some(rc), Some(space)) =>
      if s.upToDate then (s, e)
      else
        (s.(upToDate := true), Relabel(e, rc, space, Label(s)))
    case _ => (s, e)
  }

  /** The rebuild step of ScoreSystem.Update: the new label goes on the render component, and the space is centred on x = 400 for 20 units per character. */
  function Relabel(e: Entity, rc: RenderComponent, space: SpaceComponent, text: string): (r: Entity)
    ensures RenderOf(r) == Some(rc.(caption := text, display := Text(text)))
    ensures SpaceOf(r) == Some(space.(position := space.position.(x := (400 - 10 * |text|) as real)))
    ensures r.id == e.id && r.required == e.required && r.present == e.present
  {
    var width := |text| * 20;
    var x := (400 - width / 2) as real;
    var c1 := Render(rc.(caption := text, display := Text(text)));
    var c2 := Space(space.(position := space.position.(x := x)));
    assert width / 2 == 10 * |text|;
    LookupAfterAdd(AddComponent(e, c1), c2, RenderKind);
    LookupAfterAdd(e, c1, RenderKind);
    LookupAfterAdd(AddComponent(e, c1), c2, SpaceKind);
    AddComponent(AddComponent(e, c1), c2)
  }

  /**
   * A goal shows up on the next update: after a ScoreMessage the stale score
   * is rebuilt into a label whose numbers read back as the new counters.
   */
  lemma GoalReachesLabel(s: Score, m: Message, e: Entity)
    requires m.ScoreMessage? && s.playerOne >= 0 && s.playerTwo >= 0
    requires RenderOf(e).Some? && SpaceOf(e).Some?
    ensures var t := ScoreListener(s, m);
            var r := ScoreUpdate(t, e);
            r.0.upToDate && RenderOf(r.1).value.caption ==
              NatToString(t.playerOne) + " vs " + NatToString(t.playerTwo)
  {
  }

  /** While both scores are below 10 the label has six characters and starts at x = 340. */
  lemma SingleDigitLabelPosition(s: Score)
    requires 0 <= s.playerOne < 10 && 0 <= s.playerTwo < 10
    ensures |Label(s)| == 6 && 400 - 10 * |Label(s)| == 340
  {
  }

  /**
   * SpeedSystem's "CollisionMessage" listener: the probing entity, when it
   * has a SpeedComponent, has its horizontal speed negated; nothing else in
   * the store changes.
   */
  function SpeedListener(store: map<Id, Entity>, m: Message): (r: map<Id, Entity>)
    requires m.CollisionMessage? ==> m.entity in store
    ensures r.Keys == store.Keys
    ensures forall id :: id in store && (!m.CollisionMessage? || id != m.entity) ==> r[id] == store[id]
    ensures m.CollisionMessage? && SpeedOf(store[m.entity]).None? ==> r == store
    ensures m.CollisionMessage? && SpeedOf(store[m.entity]).Some? ==>
              var v := SpeedOf(store[m.entity]).value;
              SpeedOf(r[m.entity]) == Some(Point(-v.x, v.y))
  {
    if m.CollisionMessage? && SpeedOf(store[m.entity]).Some? then
      store[m.entity := Bounce(store[m.entity])]
    else store
  }

  /** The listener's edit of one entity: the SpeedComponent with its x negated. */
  function Bounce(e: Entity): (r: Entity)
    requires SpeedOf(e).Some?
    ensures SpeedOf(r) == Some(Flip(SpeedOf(e).value))
  {
    AddComponent(e, Speed(Flip(SpeedOf(e).value)))
  }

  /** `speed.X *= -1`. */
  function Flip(v: Point): (r: Point)
    ensures r.y == v.y && r.x == -v.x
  {
    Point(-v.x, v.y)
  }

  /** Bouncing twice gives the entity back. */
  lemma BounceTwice(e: Entity)
    requires SpeedOf(e).Some?
    ensures Bounce(Bounce(e)) == e
  {
    var v := SpeedOf(e).value;
    assert ComponentFast(e, SpeedKind) == Some(Speed(v));
    var e1 := Bounce(e);
    assert Flip(Flip(v)) == v;
    ReAddRestores(e, Speed(v), Speed(Flip(v)));
  }

  /** Two bounces cancel: hearing the same collision twice restores the store. */
  lemma SpeedListenerInvolution(store: map<Id, Entity>, m: Message)
    requires m.CollisionMessage? && m.entity in store
    ensures SpeedListener(SpeedListener(store, m), m) == store
  {
    var id := m.entity;
    var e := store[id];
    if SpeedOf(e).Some? {
      BounceTwice(e);
      assert store[id := Bounce(e)][id := e] == store;
    }
  }

  /** SpeedSystem.Update: with both components, the position moves by speed × dt. */
  function SpeedUpdate(e: Entity, dt: real): (r: Entity)
    ensures SpeedOf(e).None? || SpaceOf(e).None? ==> r == e
    ensures SpeedOf(e).Some? && SpaceOf(e).Some? ==>
              SpaceOf(r) == Some(Advance(SpaceOf(e).value, SpeedOf(e).value, dt)) && SpeedOf(r) == SpeedOf(e)
    ensures r.id == e.id && r.required == e.required && r.present == e.present
  {
    match (SpeedOf(e), SpaceOf(e))
    case (Some(v), Some(space)) =>
      var moved := Space(Advance(space, v, dt));
      LookupAfterAdd(e, moved, SpaceKind);
      LookupAfterAdd(e, moved, SpeedKind);
      AddComponent(e, moved)
    case _ => e
  }

  /** A space moved by speed × dt. */
  function Advance(space: SpaceComponent, v: Point, dt: real): (r: SpaceComponent)
    ensures r.position.x - space.position.x == v.x * dt && r.position.y - space.position.y == v.y * dt
    ensures r.width == space.width && r.height == space.height
  {
    space.(position := Point(space.position.x + v.x * dt, space.position.y + v.y * dt))
  }

  /** The keys ControlSystem reads. */
  datatype Keys = Keys(w: bool, s: bool, up: bool, down: bool)

  function ControlOf(e: Entity): Option<string>
  {
    match ComponentFast(e, ControlKind)
    case Some(Control(scheme)) => Some(scheme)
    case _ => None
  }

  /**
   * ControlSystem.Update: the "WASD" scheme reads W and S, any other scheme
   * the arrow keys; up moves the paddle by -800·dt and down by +800·dt.
   */
  function ControlUpdate(e: Entity, keys: Keys, dt: real): (r: Entity)
    ensures ControlOf(e).None? || SpaceOf(e).None? ==> r == e
    ensures ControlOf(e).Some? && SpaceOf(e).Some? ==>
              var wasd := ControlOf(e).value == "WASD";
              var up := if wasd then keys.w else keys.up;
              var down := if wasd then keys.s else keys.down;
              var p := SpaceOf(e).value.position;
              SpaceOf(r) == Some(SpaceOf(e).value.(position := p.(y := p.y + (if down then 800.0 * dt else 0.0) - (if up then 800.0 * dt else 0.0))))
    ensures r.id == e.id && r.required == e.required && r.present == e.present
  {
    match (ControlOf(e), SpaceOf(e))
    case (Some(scheme), Some(space)) =>
      var up := if scheme == "WASD" then keys.w else keys.up;
      var down := if scheme == "WASD" then keys.s else keys.down;
      var y1 := if up then space.position.y - 800.0 * dt else space.position.y;
      var y2 := if down then y1 + 800.0 * dt else y1;
      AddComponent(e, Space(space.(position := space.position.(y := y2))))
    case _ => e
  }

  /** Each scheme listens to its own keys only: the other pair has no effect. */
  lemma SchemesIndependent(e: Entity, a: Keys, b: Keys, dt: real)
    requires ControlOf(e).Some?
    requires ControlOf(e).value == "WASD" ==> a.w == b.w && a.s == b.s
    requires ControlOf(e).value != "WASD" ==> a.up == b.up && a.down == b.down
    ensures ControlUpdate(e, a, dt) == ControlUpdate(e, b, dt)
  {
  }

  // Setup: the systems and the four entities of the game.

  /** The parts of Setup that come from files, the window and render.go. */
  datatype Scene = Scene(
    width: real, height: real,
    ballTexture: Drawable, ballSize: Point,
    paddleTexture: Drawable, paddleSize: Point,
    scoreText: Drawable,
    tier: int)

  /** `&engi.RenderSystem{}`: the zero value. */
  const ZeroRender := RenderSystem.RenderState(map[], false, false, BaseSystem([], false))

  /** The systems in Setup's order. */
  function SetupSystems(w: Worlds.World): Worlds.World
  {
    var w1 := Worlds.AddSystem(w, Worlds.Render(ZeroRender));
    var w2 := Worlds.AddSystem(w1, Worlds.Collision(NewBase()));
    var w3 := Worlds.AddSystem(w2, Worlds.Other("SpeedSystem", NewBase()));
    var w4 := Worlds.AddSystem(w3, Worlds.Other("ControlSystem", NewBase()));
    var w5 := Worlds.AddSystem(w4, Worlds.Other("BallSystem", NewBase()));
    Worlds.AddSystem(w5, Worlds.Other("ScoreSystem", NewBase()))
  }

  function Ball(id: Id, sc: Scene): Entity
  {
    var e := NewEntity(id, ["RenderSystem", "CollisionSystem", "SpeedSystem", "BallSystem"]);
    var render := NewRenderComponent(sc.ballTexture, Point(2.0, 2.0), "ball", sc.tier);
    var size := Point(sc.ballSize.x * render.scale.x, sc.ballSize.y * render.scale.y);
    var space := SpaceComponent(Point((sc.width - sc.ballSize.x) / 2.0, (sc.height - sc.ballSize.y) / 2.0), size.x, size.y);
    var e1 := AddComponent(e, Render(render));
    var e2 := AddComponent(e1, Space(space));
    var e3 := AddComponent(e2, Collision(CollisionComponent(true, true, Point(0.0, 0.0))));
    AddComponent(e3, Speed(Point(300.0, 100.0)))
  }

  function ScoreEntity(id: Id, sc: Scene): Entity
  {
    var e := NewEntity(id, ["RenderSystem", "ScoreSystem"]);
    var e1 := AddComponent(e, Render(NewRenderComponent(sc.scoreText, Point(1.0, 1.0), "YOLO <3", sc.tier)));
    AddComponent(e1, Space(SpaceComponent(Point(100.0, 100.0), 100.0, 100.0)))
  }

  /** Paddle i: the left one (i = 0) on the "WASD" scheme at x = 0, the right one on the arrows at x = 784. */
  function Paddle(id: Id, i: nat, sc: Scene): Entity
    requires i < 2
  {
    var e := NewEntity(id, ["RenderSystem", "CollisionSystem", "ControlSystem"]);
    var render := NewRenderComponent(sc.paddleTexture, Point(2.0, 2.0), "paddle", sc.tier);
    var x := if i != 0 then 800.0 - 16.0 else 0.0;
    var space := SpaceComponent(Point(x, (sc.height - sc.paddleSize.y) / 2.0), render.scale.x * sc.paddleSize.x, render.scale.y * sc.paddleSize.y);
    var e1 := AddComponent(e, Render(render));
    var e2 := AddComponent(e1, Space(space));
    var e3 := AddComponent(e2, Control(if i == 0 then "WASD" else ""));
    AddComponent(e3, Collision(CollisionComponent(false, true, Point(0.0, 0.0))))
  }

  /** PongGame.Setup on the world it is handed (SetBg is the engine's, not part of this function). */
  function Setup(w: Worlds.World, ball: Id, score: Id, left: Id, right: Id, sc: Scene): Worlds.World
  {
    Populate(SetupSystems(w), Ball(ball, sc), ScoreEntity(score, sc), Paddle(left, 0, sc), Paddle(right, 1, sc))
  }

  /** Setup's four AddEntity calls, in its order. */
  function Populate(w: Worlds.World, ball: Entity, score: Entity, left: Entity, right: Entity): Worlds.World
  {
    Worlds.AddEntity(Worlds.AddEntity(Worlds.AddEntity(Worlds.AddEntity(w, ball), score), left), right)
  }

  /** The `Type()` of each system Setup registers, in registration order. */
  const SystemNames: seq<string> := ["RenderSystem", "CollisionSystem", "SpeedSystem", "ControlSystem", "BallSystem", "ScoreSystem"]

  lemma SetupSystemsShape()
    ensures var sys := SetupSystems(Worlds.Empty()).systems;
            |sys| == 6 && forall i :: 0 <= i < 6 ==> sys[i].Type() == SystemNames[i] && sys[i].Entities() == []
  {
  }

  /** The systems each entity asks for. */
  lemma Requirements(ball: Id, score: Id, left: Id, right: Id, sc: Scene)
    ensures Ball(ball, sc).required == {"RenderSystem", "CollisionSystem", "SpeedSystem", "BallSystem"}
    ensures ScoreEntity(score, sc).required == {"RenderSystem", "ScoreSystem"}
    ensures Paddle(left, 0, sc).required == {"RenderSystem", "CollisionSystem", "ControlSystem"}
    ensures Paddle(right, 1, sc).required == {"RenderSystem", "CollisionSystem", "ControlSystem"}
  {
    RequiresOfFour(ball, "RenderSystem", "CollisionSystem", "SpeedSystem", "BallSystem");
    RequiresOfTwo(score, "RenderSystem", "ScoreSystem");
    RequiresOfThree(left, "RenderSystem", "CollisionSystem", "ControlSystem");
    RequiresOfThree(right, "RenderSystem", "CollisionSystem", "ControlSystem");
  }

  /** The names each of Setup's entities asks for, as flags over `SystemNames`. */
  const BallWants: seq<bool> := [true, true, true, false, true, false]
  const ScoreWants: seq<bool> := [true, false, false, false, false, true]
  const PaddleWants: seq<bool> := [true, true, false, true, false, false]

  lemma BallNames()
    ensures forall i :: 0 <= i < 6 ==>
      (SystemNames[i] in {"RenderSystem", "CollisionSystem", "SpeedSystem", "BallSystem"} <==> BallWants[i])
  {
    assert SystemNames[3] != "SpeedSystem" && SystemNames[5] != "SpeedSystem";
  }

  lemma ScoreNames()
    ensures forall i :: 0 <= i < 6 ==> (SystemNames[i] in {"RenderSystem", "ScoreSystem"} <==> ScoreWants[i])
  {
    assert SystemNames[2] != "ScoreSystem";
  }

  lemma PaddleNames()
    ensures forall i :: 0 <= i < 6 ==>
      (SystemNames[i] in {"RenderSystem", "CollisionSystem", "ControlSystem"} <==> PaddleWants[i])
  {
  }

  /** A world whose six systems are Setup's, in Setup's order. */
  predicate SetupShaped(w: Worlds.World)
  {
    |w.systems| == 6 && forall i :: 0 <= i < 6 ==> w.systems[i].Type() == SystemNames[i]
  }

  /** The id when the flag is set, nothing otherwise. */
  function Pick(flag: bool, id: Id): (r: seq<Id>)
    ensures flag ==> r == [id]
    ensures !flag ==> r == []
  {
    if flag then [id] else []
  }

  /** One AddEntity of Setup: the systems flagged in `wants` get the entity appended. */
  lemma AddStep(w: Worlds.World, e: Entity, wanted: set<string>, wants: seq<bool>)
    requires SetupShaped(w) && e.required == wanted && |wants| == 6
    requires forall i :: 0 <= i < 6 ==> (SystemNames[i] in wanted <==> wants[i])
    ensures SetupShaped(Worlds.AddEntity(w, e))
    ensures forall i :: 0 <= i < 6 ==>
      Worlds.AddEntity(w, e).systems[i].Entities() == w.systems[i].Entities() + Pick(wants[i], e.id)
  {
  }

  /** What Setup's four AddEntity calls leave in system `i`'s list. */
  function Wired(i: nat, b: Id, s: Id, l: Id, r: Id): seq<Id>
    requires i < 6
  {
    Pick(BallWants[i], b) + Pick(ScoreWants[i], s) + Pick(PaddleWants[i], l) + Pick(PaddleWants[i], r)
  }

  /** Four appends onto empty lists, one per entity, in order. */
  lemma FourAppends(w: Worlds.World, w2: Worlds.World, w3: Worlds.World, w4: Worlds.World, w5: Worlds.World, b: Id, s: Id, l: Id, r: Id)
    requires |w.systems| == 6 && |w2.systems| == 6 && |w3.systems| == 6 && |w4.systems| == 6 && |w5.systems| == 6
    requires forall i :: 0 <= i < 6 ==> w.systems[i].Entities() == []
    requires forall i :: 0 <= i < 6 ==> w2.systems[i].Entities() == w.systems[i].Entities() + Pick(BallWants[i], b)
    requires forall i :: 0 <= i < 6 ==> w3.systems[i].Entities() == w2.systems[i].Entities() + Pick(ScoreWants[i], s)
    requires forall i :: 0 <= i < 6 ==> w4.systems[i].Entities() == w3.systems[i].Entities() + Pick(PaddleWants[i], l)
    requires forall i :: 0 <= i < 6 ==> w5.systems[i].Entities() == w4.systems[i].Entities() + Pick(PaddleWants[i], r)
    ensures forall i :: 0 <= i < 6 ==> w5.systems[i].Entities() == Wired(i, b, s, l, r)
  {
    forall i | 0 <= i < 6
      ensures w5.systems[i].Entities() == Wired(i, b, s, l, r)
    {
      assert w.systems[i].Entities() + Pick(BallWants[i], b) == Pick(BallWants[i], b);
    }
  }

  /**
   * Setup's wiring: the render system lists all four entities, the
   * collision system the ball and the two paddles, the speed and ball
   * systems the ball alone, the control system the paddles and the score
   * system the score entity, each in the order Setup adds them.
   */
  lemma SetupLists(ball: Id, score: Id, left: Id, right: Id, sc: Scene)
    ensures var w := Setup(Worlds.Empty(), ball, score, left, right, sc);
            |w.systems| == 6 &&
            w.systems[0].Entities() == [ball, score, left, right] &&
            w.systems[1].Entities() == [ball, left, right] &&
            w.systems[2].Entities() == [ball] &&
            w.systems[3].Entities() == [left, right] &&
            w.systems[4].Entities() == [ball] &&
            w.systems[5].Entities() == [score]
  {
    SetupSystemsShape();
    Requirements(ball, score, left, right, sc);
    PopulateLists(SetupSystems(Worlds.Empty()), Ball(ball, sc), ScoreEntity(score, sc), Paddle(left, 0, sc), Paddle(right, 1, sc));
  }

  lemma PopulateLists(w: Worlds.World, b: Entity, s: Entity, l: Entity, r: Entity)
    requires SetupShaped(w) && forall i :: 0 <= i < 6 ==> w.systems[i].Entities() == []
    requires b.required == {"RenderSystem", "CollisionSystem", "SpeedSystem", "BallSystem"}
    requires s.required == {"RenderSystem", "ScoreSystem"}
    requires l.required == {"RenderSystem", "CollisionSystem", "ControlSystem"}
    requires r.required == {"RenderSystem", "CollisionSystem", "ControlSystem"}
    ensures var p := Populate(w, b, s, l, r);
            |p.systems| == 6 &&
            p.systems[0].Entities() == [b.id, s.id, l.id, r.id] &&
            p.systems[1].Entities() == [b.id, l.id, r.id] &&
            p.systems[2].Entities() == [b.id] &&
            p.systems[3].Entities() == [l.id, r.id] &&
            p.systems[4].Entities() == [b.id] &&
            p.systems[5].Entities() == [s.id]
  {
    PopulateWired(w, b, s, l, r);
    SixLists(b.id, s.id, l.id, r.id);
  }

  /** Setup's four AddEntity calls leave `Wired` in every list. */
  lemma PopulateWired(w: Worlds.World, b: Entity, s: Entity, l: Entity, r: Entity)
    requires SetupShaped(w) && forall i :: 0 <= i < 6 ==> w.systems[i].Entities() == []
    requires b.required == {"RenderSystem", "CollisionSystem", "SpeedSystem", "BallSystem"}
    requires s.required == {"RenderSystem", "ScoreSystem"}
    requires l.required == {"RenderSystem", "CollisionSystem", "ControlSystem"}
    requires r.required == {"RenderSystem", "CollisionSystem", "ControlSystem"}
    ensures |Populate(w, b, s, l, r).systems| == 6
    ensures forall i :: 0 <= i < 6 ==> Populate(w, b, s, l, r).systems[i].Entities() == Wired(i, b.id, s.id, l.id, r.id)
  {
    BallNames();
    ScoreNames();
    PaddleNames();
    var w2 := Worlds.AddEntity(w, b);
    AddStep(w, b, {"RenderSystem", "CollisionSystem", "SpeedSystem", "BallSystem"}, BallWants);
    var w3 := Worlds.AddEntity(w2, s);
    AddStep(w2, s, {"RenderSystem", "ScoreSystem"}, ScoreWants);
    var w4 := Worlds.AddEntity(w3, l);
    AddStep(w3, l, {"RenderSystem", "CollisionSystem", "ControlSystem"}, PaddleWants);
    var w5 := Worlds.AddEntity(w4, r);
    AddStep(w4, r, {"RenderSystem", "CollisionSystem", "ControlSystem"}, PaddleWants);
    FourAppends(w, w2, w3, w4, w5, b.id, s.id, l.id, r.id);
  }

  /** The flags spelled out, system by system. */
  lemma SixLists(b: Id, s: Id, l: Id, r: Id)
    ensures Wired(0, b, s, l, r) == [b, s, l, r] && Wired(1, b, s, l, r) == [b, l, r]
    ensures Wired(2, b, s, l, r) == [b] && Wired(3, b, s, l, r) == [l, r]
    ensures Wired(4, b, s, l, r) == [b] && Wired(5, b, s, l, r) == [s]
  {
    assert Wired(0, b, s, l, r) == [b] + [s] + [l] + [r];
    assert Wired(1, b, s, l, r) == [b] + [] + [l] + [r];
    assert Wired(2, b, s, l, r) == [b] + [] + [] + [];
    assert Wired(3, b, s, l, r) == [] + [] + [l] + [r];
    assert Wired(4, b, s, l, r) == [b] + [] + [] + [];
    assert Wired(5, b, s, l, r) == [] + [s] + [] + [];
  }

  /** Ids that name four different entities. */
  predicate Distinct4(a: Id, b: Id, c: Id, d: Id)
  {
    a != b && a != c && a != d && b != c && b != d && c != d
  }

  /**
   * Populate on an empty store, stated over any four entities: only the
   * first is a Main probe and every collidable one is Solid when each
   * entity's own collision component says so.
   */
  lemma PopulateProbes(w: Worlds.World, b: Entity, s: Entity, l: Entity, r: Entity)
    requires w.store == map[] && Distinct4(b.id, s.id, l.id, r.id)
    requires CollisionOf(b) == Some(CollisionComponent(true, true, Point(0.0, 0.0)))
    requires CollisionOf(s) == None
    requires CollisionOf(l) == Some(CollisionComponent(false, true, Point(0.0, 0.0)))
    requires CollisionOf(r) == Some(CollisionComponent(false, true, Point(0.0, 0.0)))
    ensures var p := Populate(w, b, s, l, r);
            p.store.Keys == {b.id, s.id, l.id, r.id} &&
            (forall id :: id in p.store && CollisionOf(p.store[id]).Some? ==>
               CollisionOf(p.store[id]).value.solid &&
               (CollisionOf(p.store[id]).value.main <==> id == b.id))
  {
    var p := Populate(w, b, s, l, r);
    assert p.store == map[b.id := b][s.id := s][l.id := l][r.id := r];
  }

  lemma BallCollision(id: Id, sc: Scene)
    ensures CollisionOf(Ball(id, sc)) == Some(CollisionComponent(true, true, Point(0.0, 0.0)))
  {
  }

  lemma PaddleCollision(id: Id, i: nat, sc: Scene)
    requires i < 2
    ensures CollisionOf(Paddle(id, i, sc)) == Some(CollisionComponent(false, true, Point(0.0, 0.0)))
  {
  }

  lemma ScoreCollision(id: Id, sc: Scene)
    ensures CollisionOf(ScoreEntity(id, sc)) == None
  {
  }

  /** The ids Setup's entities get are the ones it is handed. */
  lemma SetupIds(ball: Id, score: Id, left: Id, right: Id, sc: Scene)
    ensures Ball(ball, sc).id == ball && ScoreEntity(score, sc).id == score
    ensures Paddle(left, 0, sc).id == left && Paddle(right, 1, sc).id == right
  {
  }

  /** In the world Setup builds, only the ball is a Main probe, and every collidable entity is Solid. */
  lemma SetupProbes(ball: Id, score: Id, left: Id, right: Id, sc: Scene)
    requires Distinct4(ball, score, left, right)
    ensures var w := Setup(Worlds.Empty(), ball, score, left, right, sc);
            w.store.Keys == {ball, score, left, right} &&
            (forall id :: id in w.store && CollisionOf(w.store[id]).Some? ==>
               CollisionOf(w.store[id]).value.solid &&
               (CollisionOf(w.store[id]).value.main <==> id == ball))
  {
    BallCollision(ball, sc);
    ScoreCollision(score, sc);
    PaddleCollision(left, 0, sc);
    PaddleCollision(right, 1, sc);
    SetupIds(ball, score, left, right, sc);
    PopulateProbes(SetupSystems(Worlds.Empty()), Ball(ball, sc), ScoreEntity(score, sc), Paddle(left, 0, sc), Paddle(right, 1, sc));
  }
}

=== FILE: messages.dfy ===
/** The messages the core and the demos publish on the mailbox. */
module Messages {
  import opened EntityStore

  datatype Message =
    | CollisionMessage(entity: Id, to: Id)   // engi.CollisionMessage{Entity, To}
    | PauseMessage(pause: bool)              // engi.PauseMessage
    | ScoreMessage(player: int)              // the headless demo's ScoreMessage
  {
    /** The topic a message is published under (its `Type()`). */
    function Type(): string
    {
      match this
      case CollisionMessage(_, _) => "CollisionMessage"
      case PauseMessage(_) => "PauseMessage"
      case ScoreMessage(_) => "ScoreMessage"
    }
  }
}

=== FILE: pause.dfy ===
/**
 * PauseSystem (pause.go): a system whose Update does nothing and whose New
 * registers a mailbox listener that sets the world's paused flag. The
 * listener's `ps.World` is the world the system is registered in.
 */
module Pause {
  import opened Basics
  import Components
  import opened EntityStore
  import opened Messages
  import opened Worlds
  import opened Scheduler

  /** The "PauseMessage" listener: an assignment of the message's value, never a toggle. */
  function Listener(w: World, m: Message): (r: World)
    ensures m.PauseMessage? ==> r.paused == m.pause
    ensures !m.PauseMessage? ==> r == w
    ensures r == w.(paused := r.paused)
  {
    match m
    case PauseMessage(p) => w.(paused := p)
    case _ => w
  }

  /** PauseSystem.Update ignores its entity and changes nothing. */
  function Update(w: World, e: Entity): (r: World)
    ensures r == w
  {
    w
  }

  /** Messages delivered one after another, in order. */
  function Deliver(w: World, msgs: seq<Message>): World
    decreases |msgs|
  {
    if msgs == [] then w else Deliver(Listener(w, msgs[0]), msgs[1..])
  }

  /** The value of the last PauseMessage in the list, if there is one. */
  function LastPause(msgs: seq<Message>): (r: Option<bool>)
    ensures r.None? <==> forall k :: 0 <= k < |msgs| ==> !msgs[k].PauseMessage?
    decreases |msgs|
  {
    if msgs == [] then None
    else if msgs[|msgs| - 1].PauseMessage? then Some(msgs[|msgs| - 1].pause)
    else LastPause(msgs[..|msgs| - 1])
  }

  /** Delivering the same message twice has the effect of delivering it once. */
  lemma ListenerIdempotent(w: World, m: Message)
    ensures Listener(Listener(w, m), m) == Listener(w, m)
  {
  }

  /** The outcome does not depend on whether the world was paused before. */
  lemma ListenerIsAssignment(w: World, b: bool, m: Message)
    requires m.PauseMessage?
    ensures Listener(w.(paused := b), m) == Listener(w, m)
  {
  }

  lemma {:induction false} DeliverAppend(w: World, a: seq<Message>, m: Message)
    ensures Deliver(w, a + [m]) == Listener(Deliver(w, a), m)
    decreases |a|
  {
    if a == [] {
      assert a + [m] == [m];
    } else {
      assert (a + [m])[1..] == a[1..] + [m];
      DeliverAppend(Listener(w, a[0]), a[1..], m);
    }
  }

  /**
   * After a run of messages the world is paused exactly as the last
   * PauseMessage said, or as before when there was none; nothing else in
   * the world changes.
   */
  lemma {:induction false} DeliverLastWins(w: World, msgs: seq<Message>)
    ensures Deliver(w, msgs).paused == if LastPause(msgs).Some? then LastPause(msgs).value else w.paused
    ensures Deliver(w, msgs) == w.(paused := Deliver(w, msgs).paused)
    decreases |msgs|
  {
    if msgs != [] {
      var init := msgs[..|msgs| - 1];
      var last := msgs[|msgs| - 1];
      assert msgs == init + [last];
      DeliverLastWins(w, init);
      DeliverAppend(w, init, last);
    }
  }

  /**
   * A paused world gates the parallel path: after a PauseMessage(true) an
   * entity without an UnpauseComponent is not dispatched, while after a
   * PauseMessage(false) every listed entity with `Exists` is.
   */
  lemma PauseGatesDispatch(w: World, ents: seq<Id>, id: Id)
    requires AllStored(w.store, ents) && id in w.store
    ensures !HasUnpauseKey(w.store[id]) ==>
              id !in Dispatched(ents, Listener(w, PauseMessage(true)).store, Listener(w, PauseMessage(true)).paused)
    ensures w.store[id].present && id in ents ==>
              id in Dispatched(ents, Listener(w, PauseMessage(false)).store, Listener(w, PauseMessage(false)).paused)
  {
    LookupKeyOfGoTypeName(Components.UnpauseKind);
  }
}

=== FILE: render.dfy ===
/**
 * RenderSystem (system.go): per-tier entity lists rebuilt while `changed`
 * is set, and the Begin/Draw/End event trace of `Post`.
 *
 * The mutex `rendersMu` is the flag `locked`. Operations that take it when
 * it is already held return `Blocked`, because a Go mutex is not reentrant.
 */
module RenderSystem {
  import opened Basics
  import opened Components
  import opened EntityStore
  import opened Systems

  datatype RenderState = RenderState(renders: map<int, seq<Id>>, changed: bool, locked: bool, base: BaseSystem)

  /** Taking a lock that is already held never returns. */
  datatype Locking<+T> = Done(value: T) | Blocked

  /** A tier's list; a missing key reads as Go's nil slice. */
  function Tier(renders: map<int, seq<Id>>, p: int): seq<Id>
  {
    if p in renders then renders[p] else []
  }

  /** RenderSystem.New: a fresh tier map and base system, marked headless-skippable. */
  function New(rs: RenderState): (r: RenderState)
    ensures forall p :: Tier(r.renders, p) == []
    ensures r.base.entities == [] && r.base.shouldSkipOnHeadless
    ensures r.changed == rs.changed && r.locked == rs.locked
  {
    rs.(renders := map[], base := BaseSystem([], true))
  }

  /** RenderSystem.AddEntity: marks the tiers stale, then appends like the base system. */
  function AddEntity(rs: RenderState, e: Id): (r: RenderState)
    ensures r.changed
    ensures r.base.entities == rs.base.entities + [e]
    ensures r.base.shouldSkipOnHeadless == rs.base.shouldSkipOnHeadless
    ensures r.renders == rs.renders && r.locked == rs.locked
  {
    rs.(changed := true, base := Systems.AddEntity(rs.base, e))
  }

  /**
   * RenderSystem.Pre has a value receiver: the fresh map it builds is stored
   * in a copy and dropped, so the real tiers survive. Locking the copied
   * mutex blocks when the original was held at the time of the copy.
   */
  function Pre(rs: RenderState): (r: Locking<RenderState>)
    ensures r == Blocked <==> rs.changed && rs.locked
    ensures r.Done? ==> r.value == rs
  {
    if !rs.changed then Done(rs)
    else if rs.locked then Blocked
    else Done(rs)
  }

  /** RenderSystem.Update: while `changed`, appends the entity to its declared tier. */
  function Update(rs: RenderState, e: Entity): (r: Locking<RenderState>)
    ensures r == Blocked <==> rs.changed && RenderOf(e).Some? && rs.locked
    ensures r.Done? ==> r.value.changed == rs.changed && r.value.locked == rs.locked && r.value.base == rs.base
    ensures r.Done? ==>
      forall p :: Tier(r.value.renders, p) ==
        Tier(rs.renders, p) + (if rs.changed && RenderOf(e).Some? && RenderOf(e).value.priority == p then [e.id] else [])
  {
    if !rs.changed then Done(rs)
    else match RenderOf(e)
      case None => Done(rs)
      case Some(render) =>
        if rs.locked then Blocked
        else
          var p := render.priority;
          Done(rs.(renders := rs.renders[p := Tier(rs.renders, p) + [e.id]]))
  }

  function Priority(rs: RenderState): int
  {
    1
  }

  /** Because Pre never clears the tiers, a second rebuild appends an entity again. */
  lemma RebuildDuplicates(rs: RenderState, e: Entity)
    requires rs.changed && !rs.locked
    requires RenderOf(e).Some? && e.id in Tier(rs.renders, RenderOf(e).value.priority)
    ensures Pre(rs).Done? && Update(Pre(rs).value, e).Done?
    ensures Count(Tier(Update(Pre(rs).value, e).value.renders, RenderOf(e).value.priority), e.id) >= 2
  {
    var p := RenderOf(e).value.priority;
    var t := Tier(rs.renders, p);
    assert Tier(Update(rs, e).value.renders, p) == t + [e.id];
    assert multiset(t + [e.id])[e.id] == multiset(t)[e.id] + 1;
  }

  // ---- Post ----

  datatype RenderEvent =
    | Begin(batch: BatchKind)
    | Draw(batch: BatchKind, entity: Id)                 // one Render call, serial tier
    | DrawAll(batch: BatchKind, entities: multiset<Id>)  // a parallel tier: these calls in any order
    | End(batch: BatchKind)

  /** Both lookups Post makes succeed (an id outside the store counts as a miss). */
  predicate CanDraw(store: map<Id, Entity>, id: Id)
  {
    id in store && RenderOf(store[id]).Some? && SpaceOf(store[id]).Some?
  }

  /**
   * The serial loop over one tier: one Draw per entity, stopping at the first
   * entity that lacks a component. The flag says whether the loop finished.
   */
  function DrawInOrder(list: seq<Id>, store: map<Id, Entity>, b: BatchKind): (r: (seq<RenderEvent>, bool))
    ensures |r.0| <= |list|
    ensures forall i :: 0 <= i < |r.0| ==> r.0[i] == Draw(b, list[i]) && CanDraw(store, list[i])
    ensures r.1 <==> |r.0| == |list|
    ensures !r.1 ==> !CanDraw(store, list[|r.0|])
  {
    if list == [] then ([], true)
    else if !CanDraw(store, list[0]) then ([], false)
    else
      var rest := DrawInOrder(list[1..], store, b);
      ([Draw(b, list[0])] + rest.0, rest.1)
  }

  /** The parallel loop over one tier: every entity with both components, each occurrence once. */
  function Drawables(list: seq<Id>, store: map<Id, Entity>): (m: multiset<Id>)
    ensures forall id :: m[id] == if CanDraw(store, id) then Count(list, id) else 0
  {
    if list == [] then multiset{}
    else
      var rest := Drawables(list[1..], store);
      assert list == [list[0]] + list[1..];
      if CanDraw(store, list[0]) then multiset{list[0]} + rest else rest
  }

  /** Events of tiers i..HighestGround; `current` is the batch begun last, if any. */
  datatype TierRun = TierRun(events: seq<RenderEvent>, completed: bool, current: Option<BatchKind>)

  function Switch(current: Option<BatchKind>, b: BatchKind): seq<RenderEvent>
  {
    if current == Some(b) then []
    else (if current.Some? then [End(current.value)] else []) + [Begin(b)]
  }

  /** One non-empty tier's draw events on batch b, and whether its loop finished. */
  function TierDraws(list: seq<Id>, store: map<Id, Entity>, numCPU: nat, b: BatchKind): (seq<RenderEvent>, bool)
  {
    if |list| < 2 * numCPU then DrawInOrder(list, store, b)
    else ([DrawAll(b, Drawables(list, store))], true)
  }

  function PostTiers(renders: map<int, seq<Id>>, store: map<Id, Entity>, numCPU: nat, i: int, current: Option<BatchKind>): TierRun
    requires 0 <= i <= HighestGround + 1
    decreases HighestGround + 1 - i
  {
    if i > HighestGround then TierRun([], true, current)
    else
      var list := Tier(renders, i);
      if |list| == 0 then PostTiers(renders, store, numCPU, i + 1, current)
      else
        var b := Batch(i);
        var tier := TierDraws(list, store, numCPU, b);
        var head := Switch(current, b) + tier.0;
        if !tier.1 then TierRun(head, false, Some(b))
        else
          var rest := PostTiers(renders, store, numCPU, i + 1, Some(b));
          TierRun(head + rest.events, rest.completed, rest.current)
  }

  datatype PostResult = PostResult(events: seq<RenderEvent>, state: RenderState)

  /**
   * RenderSystem.Post. A serial tier that meets an entity without its render
   * or space component returns at once: no End, the mutex stays held and
   * `changed` stays set.
   */
  function Post(rs: RenderState, store: map<Id, Entity>, numCPU: nat): (r: Locking<PostResult>)
    ensures r == Blocked <==> rs.locked
    ensures r.Done? ==> r.value.state.renders == rs.renders && r.value.state.base == rs.base
    ensures r.Done? ==> (!r.value.state.changed && !r.value.state.locked) || (r.value.state.changed == rs.changed && r.value.state.locked)
  {
    if rs.locked then Blocked
    else
      var run := PostTiers(rs.renders, store, numCPU, Background, None);
      if run.completed then
        Done(PostResult(run.events + (if run.current.Some? then [End(run.current.value)] else []), rs.(changed := false)))
      else
        Done(PostResult(run.events, rs.(locked := true)))
  }

  /** Post finished normally: it did not return early from a serial tier. */
  predicate Completed(r: Locking<PostResult>)
  {
    r.Done? && !r.value.state.locked
  }

  // ---- Begin/End bracketing ----

  function BatchOf(ev: RenderEvent): BatchKind
  {
    match ev
    case Begin(b) => b
    case Draw(b, _) => b
    case DrawAll(b, _) => b
    case End(b) => b
  }

  /** Whether an event is allowed while `open` is the open batch. */
  predicate Allowed(ev: RenderEvent, open: Option<BatchKind>)
  {
    match ev
    case Begin(_) => open.None?
    case End(b) => open == Some(b)
    case Draw(b, _) => open == Some(b)
    case DrawAll(b, _) => open == Some(b)
  }

  /** The batch left open after an allowed event. */
  function Step(ev: RenderEvent, open: Option<BatchKind>): Option<BatchKind>
  {
    match ev
    case Begin(x) => Some(x)
    case End(_) => None
    case Draw(_, _) => open
    case DrawAll(_, _) => open
  }

  /**
   * Replays a trace against the batch that is open: Begin only when none is
   * open, draws and End only on the open one. None marks a violation;
   * otherwise the batch left open at the end.
   */
  function Track(events: seq<RenderEvent>, open: Option<BatchKind>): Option<Option<BatchKind>>
    decreases |events|
  {
    if events == [] then Some(open)
    else if Allowed(events[0], open) then Track(events[1..], Step(events[0], open))
    else None
  }

  lemma {:induction false} TrackAppend(a: seq<RenderEvent>, b: seq<RenderEvent>, open: Option<BatchKind>)
    requires Track(a, open).Some?
    ensures Track(a + b, open) == Track(b, Track(a, open).value)
    decreases |a|
  {
    if a != [] {
      assert (a + b)[0] == a[0];
      assert (a + b)[1..] == a[1..] + b;
      assert Allowed(a[0], open);
      var next := Step(a[0], open);
      assert Track(a, open) == Track(a[1..], next);
      assert Track(a + b, open) == Track(a[1..] + b, next);
      TrackAppend(a[1..], b, next);
    } else {
      assert a + b == b;
    }
  }

  lemma DrawsTrack(list: seq<Id>, store: map<Id, Entity>, b: BatchKind)
    ensures Track(DrawInOrder(list, store, b).0, Some(b)) == Some(Some(b))
    decreases |list|
  {
    var d := DrawInOrder(list, store, b).0;
    if list != [] && CanDraw(store, list[0]) {
      DrawsTrack(list[1..], store, b);
      assert d == [Draw(b, list[0])] + DrawInOrder(list[1..], store, b).0;
      assert d[1..] == DrawInOrder(list[1..], store, b).0;
    }
  }

  lemma SwitchTrack(current: Option<BatchKind>, b: BatchKind)
    ensures Track(Switch(current, b), current) == Some(Some(b))
  {
    var sw := Switch(current, b);
    assert Track([Begin(b)], None) == Track([], Some(b));
    if current != Some(b) && current.Some? {
      assert sw == [End(current.value), Begin(b)];
      assert sw[1..] == [Begin(b)];
    }
  }

  /** A tier's draws keep its batch open. */
  lemma TierDrawsTrack(list: seq<Id>, store: map<Id, Entity>, numCPU: nat, b: BatchKind)
    ensures Track(TierDraws(list, store, numCPU, b).0, Some(b)) == Some(Some(b))
    ensures forall k :: 0 <= k < |TierDraws(list, store, numCPU, b).0| ==> BatchOf(TierDraws(list, store, numCPU, b).0[k]) == b
  {
    if |list| < 2 * numCPU {
      DrawsTrack(list, store, b);
    } else {
      assert Track([DrawAll(b, Drawables(list, store))], Some(b)) == Track([], Some(b));
    }
  }

  /** The run's events replay cleanly from `current` and leave its batch open; an early return leaves one open. */
  predicate Replays(run: TierRun, current: Option<BatchKind>)
  {
    Track(run.events, current) == Some(run.current) && (!run.completed ==> run.current.Some?)
  }

  lemma {:induction false} PostTiersTrack(renders: map<int, seq<Id>>, store: map<Id, Entity>, numCPU: nat, i: int, current: Option<BatchKind>)
    requires 0 <= i <= HighestGround + 1
    ensures Track(PostTiers(renders, store, numCPU, i, current).events, current) == Some(PostTiers(renders, store, numCPU, i, current).current)
    ensures !PostTiers(renders, store, numCPU, i, current).completed ==> PostTiers(renders, store, numCPU, i, current).current.Some?
  {
    PostTiersReplays(renders, store, numCPU, i, current);
  }

  lemma {:induction false} PostTiersReplays(renders: map<int, seq<Id>>, store: map<Id, Entity>, numCPU: nat, i: int, current: Option<BatchKind>)
    requires 0 <= i <= HighestGround + 1
    ensures Replays(PostTiers(renders, store, numCPU, i, current), current)
    decreases HighestGround + 1 - i
  {
    if i <= HighestGround {
      var next := if |Tier(renders, i)| == 0 then current else Some(Batch(i));
      PostTiersReplays(renders, store, numCPU, i + 1, next);
      PostTiersReplaysOne(renders, store, numCPU, i, current);
    } else {
      assert PostTiers(renders, store, numCPU, i, current) == TierRun([], true, current);
    }
  }

  /** One tier, empty or not, in front of higher tiers whose run replays. */
  lemma PostTiersReplaysOne(renders: map<int, seq<Id>>, store: map<Id, Entity>, numCPU: nat, i: int, current: Option<BatchKind>)
    requires 0 <= i <= HighestGround
    requires var next := if |Tier(renders, i)| == 0 then current else Some(Batch(i));
             Replays(PostTiers(renders, store, numCPU, i + 1, next), next)
    ensures Replays(PostTiers(renders, store, numCPU, i, current), current)
  {
    if |Tier(renders, i)| == 0 {
      PostTiersReplaysSkip(renders, store, numCPU, i, current);
    } else {
      PostTiersTrackStep(renders, store, numCPU, i, current);
    }
  }

  /** A non-empty tier: its switch and draws, then (if its loop finished) the higher tiers. */
  lemma PostTiersShape(renders: map<int, seq<Id>>, store: map<Id, Entity>, numCPU: nat, i: int, current: Option<BatchKind>)
    requires 0 <= i <= HighestGround && |Tier(renders, i)| != 0
    ensures var tier := TierDraws(Tier(renders, i), store, numCPU, Batch(i));
            var head := Switch(current, Batch(i)) + tier.0;
            var rest := PostTiers(renders, store, numCPU, i + 1, Some(Batch(i)));
            PostTiers(renders, store, numCPU, i, current) ==
              if tier.1 then TierRun(head + rest.events, rest.completed, rest.current) else TierRun(head, false, Some(Batch(i)))
  {
  }

  /** An empty tier in front of higher tiers whose replay is clean. */
  lemma PostTiersReplaysSkip(renders: map<int, seq<Id>>, store: map<Id, Entity>, numCPU: nat, i: int, current: Option<BatchKind>)
    requires 0 <= i <= HighestGround && |Tier(renders, i)| == 0
    requires Replays(PostTiers(renders, store, numCPU, i + 1, current), current)
    ensures Replays(PostTiers(renders, store, numCPU, i, current), current)
  {
    PostTiersSkip(renders, store, numCPU, i, current);
  }

  /** One non-empty tier in front of higher tiers whose replay is clean. */
  lemma PostTiersTrackStep(renders: map<int, seq<Id>>, store: map<Id, Entity>, numCPU: nat, i: int, current: Option<BatchKind>)
    requires 0 <= i <= HighestGround && |Tier(renders, i)| != 0
    requires Replays(PostTiers(renders, store, numCPU, i + 1, Some(Batch(i))), Some(Batch(i)))
    ensures Replays(PostTiers(renders, store, numCPU, i, current), current)
  {
    var b := Batch(i);
    var tier := TierDraws(Tier(renders, i), store, numCPU, b);
    var sw := Switch(current, b);
    var rest := PostTiers(renders, store, numCPU, i + 1, Some(b));
    PostTiersShape(renders, store, numCPU, i, current);
    SwitchTrack(current, b);
    TierDrawsTrack(Tier(renders, i), store, numCPU, b);
    TrackAppend(sw, tier.0, current);
    if tier.1 {
      TrackAppend(sw + tier.0, rest.events, current);
    }
  }

  /**
   * Begin and End alternate. A completed Post closes every batch it opened;
   * an early return leaves one batch open, because End is skipped.
   */
  lemma PostBrackets(rs: RenderState, store: map<Id, Entity>, numCPU: nat)
    requires !rs.locked
    ensures Completed(Post(rs, store, numCPU)) ==> Track(Post(rs, store, numCPU).value.events, None) == Some(None)
    ensures !Completed(Post(rs, store, numCPU)) ==>
      Post(rs, store, numCPU).value.state.changed == rs.changed &&
      exists b :: Track(Post(rs, store, numCPU).value.events, None) == Some(Some(b))
  {
    var run := PostTiers(rs.renders, store, numCPU, Background, None);
    PostTiersTrack(rs.renders, store, numCPU, Background, None);
    if run.completed {
      if run.current.Some? {
        TrackAppend(run.events, [End(run.current.value)], None);
        assert Track([End(run.current.value)], run.current) == Track([], None);
      } else {
        assert run.events + [] == run.events;
      }
    } else {
      var b := run.current.value;
      assert Track(Post(rs, store, numCPU).value.events, None) == Some(Some(b));
    }
  }

  /** When a replay ends with batch c open, c was already open or the last event is on c. */
  lemma {:induction false} LastEventBatch(events: seq<RenderEvent>, open: Option<BatchKind>, c: BatchKind)
    requires Track(events, open) == Some(Some(c))
    ensures |events| == 0 ==> open == Some(c)
    ensures |events| > 0 ==> BatchOf(events[|events| - 1]) == c
    decreases |events|
  {
    if |events| > 0 {
      var next := Step(events[0], open);
      LastEventBatch(events[1..], next, c);
      if |events| > 1 {
        assert events[1..][|events[1..]| - 1] == events[|events| - 1];
      }
    }
  }

  // ---- the HUD batch comes last ----

  predicate AllHud(events: seq<RenderEvent>)
  {
    forall k :: 0 <= k < |events| ==> BatchOf(events[k]) == HudBatch
  }

  predicate AnyHud(events: seq<RenderEvent>)
  {
    exists k :: 0 <= k < |events| && BatchOf(events[k]) == HudBatch
  }

  /** No event on the default batch follows an event on the HUD batch. */
  predicate HudLast(events: seq<RenderEvent>)
  {
    forall j, k :: 0 <= j < k < |events| && BatchOf(events[j]) == HudBatch ==> BatchOf(events[k]) == HudBatch
  }

  lemma HudLastAppend(a: seq<RenderEvent>, b: seq<RenderEvent>)
    requires HudLast(a) && HudLast(b)
    requires AnyHud(a) ==> AllHud(b)
    ensures HudLast(a + b)
  {
    var ab := a + b;
    forall j, k | 0 <= j < k < |ab| && BatchOf(ab[j]) == HudBatch
      ensures BatchOf(ab[k]) == HudBatch
    {
      if j < |a| && k >= |a| {
        assert BatchOf(a[j]) == HudBatch;
        assert ab[k] == b[k - |a|];
      } else if j >= |a| {
        assert ab[j] == b[j - |a|] && ab[k] == b[k - |a|];
      }
    }
  }

  /** The events one non-empty tier contributes: the batch switch, then draws on its batch. */
  lemma TierHeadHud(current: Option<BatchKind>, b: BatchKind, mid: seq<RenderEvent>)
    requires forall k :: 0 <= k < |mid| ==> BatchOf(mid[k]) == b
    requires current == Some(HudBatch) ==> b == HudBatch
    ensures HudLast(Switch(current, b) + mid)
    ensures b == HudBatch && current != Some(DefaultBatch) ==> AllHud(Switch(current, b) + mid)
    ensures AnyHud(Switch(current, b) + mid) ==> b == HudBatch
  {
    var sw := Switch(current, b);
    var head := sw + mid;
    assert forall k :: 0 <= k < |head| ==> BatchOf(head[k]) == b || (k == 0 && current.Some? && BatchOf(head[k]) == current.value) by {
      forall k | 0 <= k < |head|
        ensures BatchOf(head[k]) == b || (k == 0 && current.Some? && BatchOf(head[k]) == current.value)
      {
        if k >= |sw| {
          assert head[k] == mid[k - |sw|];
        }
      }
    }
  }

  /** The HUD batch comes last, and from the HUD tier on, with no default batch open, only HUD events follow. */
  predicate HudKept(events: seq<RenderEvent>, i: int, current: Option<BatchKind>)
  {
    HudLast(events) && (i >= HUDGround && current != Some(DefaultBatch) ==> AllHud(events))
  }

  lemma PostTiersHudLast(renders: map<int, seq<Id>>, store: map<Id, Entity>, numCPU: nat, i: int, current: Option<BatchKind>)
    requires 0 <= i <= HighestGround + 1
    requires current == Some(HudBatch) ==> i >= HUDGround
    ensures HudLast(PostTiers(renders, store, numCPU, i, current).events)
    ensures i >= HUDGround && current != Some(DefaultBatch) ==> AllHud(PostTiers(renders, store, numCPU, i, current).events)
  {
    PostTiersHudKept(renders, store, numCPU, i, current);
  }

  lemma {:induction false} PostTiersHudKept(renders: map<int, seq<Id>>, store: map<Id, Entity>, numCPU: nat, i: int, current: Option<BatchKind>)
    requires 0 <= i <= HighestGround + 1
    requires current == Some(HudBatch) ==> i >= HUDGround
    ensures HudKept(PostTiers(renders, store, numCPU, i, current).events, i, current)
    decreases HighestGround + 1 - i
  {
    if i <= HighestGround {
      var next := if |Tier(renders, i)| == 0 then current else Some(Batch(i));
      PostTiersHudKept(renders, store, numCPU, i + 1, next);
      PostTiersHudOne(renders, store, numCPU, i, current);
    } else {
      assert PostTiers(renders, store, numCPU, i, current).events == [];
    }
  }

  /** One tier, empty or not, in front of higher tiers that keep the HUD batch last. */
  lemma PostTiersHudOne(renders: map<int, seq<Id>>, store: map<Id, Entity>, numCPU: nat, i: int, current: Option<BatchKind>)
    requires 0 <= i <= HighestGround
    requires current == Some(HudBatch) ==> i >= HUDGround
    requires var next := if |Tier(renders, i)| == 0 then current else Some(Batch(i));
             HudKept(PostTiers(renders, store, numCPU, i + 1, next).events, i + 1, next)
    ensures HudKept(PostTiers(renders, store, numCPU, i, current).events, i, current)
  {
    if |Tier(renders, i)| == 0 {
      PostTiersHudSkip(renders, store, numCPU, i, current);
    } else {
      PostTiersHudStep(renders, store, numCPU, i, current);
    }
  }

  /** An empty tier in front of higher tiers that keep the HUD batch last. */
  lemma PostTiersHudSkip(renders: map<int, seq<Id>>, store: map<Id, Entity>, numCPU: nat, i: int, current: Option<BatchKind>)
    requires 0 <= i <= HighestGround && |Tier(renders, i)| == 0
    requires HudKept(PostTiers(renders, store, numCPU, i + 1, current).events, i + 1, current)
    ensures HudKept(PostTiers(renders, store, numCPU, i, current).events, i, current)
  {
    PostTiersSkip(renders, store, numCPU, i, current);
    if i >= HUDGround && current != Some(DefaultBatch) {
      assert i + 1 >= HUDGround;
    }
  }

  /** One non-empty tier in front of higher tiers that keep the HUD batch last. */
  lemma PostTiersHudStep(renders: map<int, seq<Id>>, store: map<Id, Entity>, numCPU: nat, i: int, current: Option<BatchKind>)
    requires 0 <= i <= HighestGround && |Tier(renders, i)| != 0
    requires current == Some(HudBatch) ==> i >= HUDGround
    requires HudKept(PostTiers(renders, store, numCPU, i + 1, Some(Batch(i))).events, i + 1, Some(Batch(i)))
    ensures HudKept(PostTiers(renders, store, numCPU, i, current).events, i, current)
  {
    var b := Batch(i);
    var tier := TierDraws(Tier(renders, i), store, numCPU, b);
    var head := Switch(current, b) + tier.0;
    PostTiersShape(renders, store, numCPU, i, current);
    TierDrawsTrack(Tier(renders, i), store, numCPU, b);
    TierHeadHud(current, b, tier.0);
    if tier.1 {
      HudLastAppend(head, PostTiers(renders, store, numCPU, i + 1, Some(b)).events);
    }
  }

  /** Every default-batch event precedes every HUD-batch event. */
  lemma PostHudLast(rs: RenderState, store: map<Id, Entity>, numCPU: nat)
    requires !rs.locked
    ensures HudLast(Post(rs, store, numCPU).value.events)
  {
    var run := PostTiers(rs.renders, store, numCPU, Background, None);
    PostTiersHudLast(rs.renders, store, numCPU, Background, None);
    PostTiersTrack(rs.renders, store, numCPU, Background, None);
    if run.completed && run.current.Some? {
      var c := run.current.value;
      LastEventBatch(run.events, None, c);
      var tail := [End(c)];
      if AnyHud(run.events) {
        var k :| 0 <= k < |run.events| && BatchOf(run.events[k]) == HudBatch;
        if k < |run.events| - 1 {
          assert BatchOf(run.events[|run.events| - 1]) == HudBatch;
        }
      }
      HudLastAppend(run.events, tail);
    } else if run.completed {
      assert run.events + [] == run.events;
    }
  }

  // ---- what is drawn, and in which order ----

  /** Tiers lo..HighestGround, ascending, each in list order. */
  function TierOrder(renders: map<int, seq<Id>>, lo: int): seq<Id>
    requires 0 <= lo <= HighestGround + 1
    decreases HighestGround + 1 - lo
  {
    if lo > HighestGround then [] else Tier(renders, lo) + TierOrder(renders, lo + 1)
  }

  /** The entities of the Draw events, in trace order. */
  function DrawnIds(events: seq<RenderEvent>): seq<Id>
  {
    if events == [] then []
    else (if events[0].Draw? then [events[0].entity] else []) + DrawnIds(events[1..])
  }

  lemma {:induction false} DrawnIdsAppend(a: seq<RenderEvent>, b: seq<RenderEvent>)
    ensures DrawnIds(a + b) == DrawnIds(a) + DrawnIds(b)
    decreases |a|
  {
    if a == [] {
      assert a + b == b;
    } else {
      var head := if a[0].Draw? then [a[0].entity] else [];
      assert (a + b)[0] == a[0] && (a + b)[1..] == a[1..] + b;
      DrawnIdsAppend(a[1..], b);
      assert DrawnIds(a + b) == head + (DrawnIds(a[1..]) + DrawnIds(b));
      assert DrawnIds(a) == head + DrawnIds(a[1..]);
    }
  }

  lemma {:induction false} DrawnIdsOfDraws(list: seq<Id>, store: map<Id, Entity>, b: BatchKind)
    requires AllDrawable(store, list)
    ensures DrawInOrder(list, store, b).1
    ensures DrawnIds(DrawInOrder(list, store, b).0) == list
    decreases |list|
  {
    if list != [] {
      DrawnIdsOfDraws(list[1..], store, b);
      var d := DrawInOrder(list, store, b).0;
      assert d == [Draw(b, list[0])] + DrawInOrder(list[1..], store, b).0;
      DrawnIdsAppend([Draw(b, list[0])], DrawInOrder(list[1..], store, b).0);
    }
  }

  lemma SwitchDrawsNothing(current: Option<BatchKind>, b: BatchKind)
    ensures DrawnIds(Switch(current, b)) == []
  {
    assert DrawnIds([Begin(b)]) == [];
    if current != Some(b) && current.Some? {
      DrawnIdsAppend([End(current.value)], [Begin(b)]);
    }
  }

  /** Every entity of the list has both components. */
  predicate AllDrawable(store: map<Id, Entity>, list: seq<Id>)
  {
    forall k :: 0 <= k < |list| ==> CanDraw(store, list[k])
  }

  /** Every tier 0..HighestGround is small enough for the serial loop and fully drawable. */
  predicate SerialAndDrawable(renders: map<int, seq<Id>>, store: map<Id, Entity>, numCPU: nat)
  {
    forall t :: Background <= t <= HighestGround ==>
      |Tier(renders, t)| < 2 * numCPU && AllDrawable(store, Tier(renders, t))
  }

  /** A tier with nothing in it emits nothing and leaves the open batch alone. */
  lemma PostTiersSkip(renders: map<int, seq<Id>>, store: map<Id, Entity>, numCPU: nat, i: int, current: Option<BatchKind>)
    requires 0 <= i <= HighestGround && |Tier(renders, i)| == 0
    ensures PostTiers(renders, store, numCPU, i, current) == PostTiers(renders, store, numCPU, i + 1, current)
  {
  }

  /** A non-empty tier whose loop finishes: its batch switch and draws, then the higher tiers. */
  lemma PostTiersUnfold(renders: map<int, seq<Id>>, store: map<Id, Entity>, numCPU: nat, i: int, current: Option<BatchKind>)
    requires 0 <= i <= HighestGround && |Tier(renders, i)| != 0
    requires TierDraws(Tier(renders, i), store, numCPU, Batch(i)).1
    ensures PostTiers(renders, store, numCPU, i, current).events ==
      Switch(current, Batch(i)) + TierDraws(Tier(renders, i), store, numCPU, Batch(i)).0 +
      PostTiers(renders, store, numCPU, i + 1, Some(Batch(i))).events
    ensures PostTiers(renders, store, numCPU, i, current).completed ==
      PostTiers(renders, store, numCPU, i + 1, Some(Batch(i))).completed
  {
  }

  /** A small, fully drawable tier is drawn whole, in list order. */
  lemma SerialTierDraws(list: seq<Id>, store: map<Id, Entity>, numCPU: nat, b: BatchKind)
    requires |list| < 2 * numCPU && AllDrawable(store, list)
    ensures TierDraws(list, store, numCPU, b).1
    ensures DrawnIds(TierDraws(list, store, numCPU, b).0) == list
  {
    DrawnIdsOfDraws(list, store, b);
  }

  /** A batch switch, a tier's draws and the higher tiers' events draw the tier, then the higher tiers. */
  lemma DrawnIdsOfThree(sw: seq<RenderEvent>, draws: seq<RenderEvent>, rest: seq<RenderEvent>, list: seq<Id>, tail: seq<Id>)
    requires DrawnIds(sw) == [] && DrawnIds(draws) == list && DrawnIds(rest) == tail
    ensures DrawnIds(sw + draws + rest) == list + tail
  {
    DrawnIdsAppend(sw, draws);
    DrawnIdsAppend(sw + draws, rest);
  }

  /** SerialAndDrawable for the tiers lo..HighestGround, one tier per unfolding. */
  predicate SerialFrom(renders: map<int, seq<Id>>, store: map<Id, Entity>, numCPU: nat, lo: int)
    requires 0 <= lo <= HighestGround + 1
    decreases HighestGround + 1 - lo
  {
    lo > HighestGround ||
    (|Tier(renders, lo)| < 2 * numCPU && AllDrawable(store, Tier(renders, lo)) && SerialFrom(renders, store, numCPU, lo + 1))
  }

  lemma {:induction false} SerialFromAll(renders: map<int, seq<Id>>, store: map<Id, Entity>, numCPU: nat, lo: int)
    requires 0 <= lo <= HighestGround + 1
    requires SerialAndDrawable(renders, store, numCPU)
    ensures SerialFrom(renders, store, numCPU, lo)
    decreases HighestGround + 1 - lo
  {
    if lo <= HighestGround {
      SerialFromAll(renders, store, numCPU, lo + 1);
    }
  }

  /** An empty tier in front of higher tiers that are drawn in order. */
  lemma PostTiersOrderSkip(renders: map<int, seq<Id>>, store: map<Id, Entity>, numCPU: nat, i: int, current: Option<BatchKind>)
    requires 0 <= i <= HighestGround && |Tier(renders, i)| == 0
    requires PostTiers(renders, store, numCPU, i + 1, current).completed
    requires DrawnIds(PostTiers(renders, store, numCPU, i + 1, current).events) == TierOrder(renders, i + 1)
    ensures PostTiers(renders, store, numCPU, i, current).completed
    ensures DrawnIds(PostTiers(renders, store, numCPU, i, current).events) == TierOrder(renders, i)
  {
    PostTiersSkip(renders, store, numCPU, i, current);
    assert TierOrder(renders, i) == Tier(renders, i) + TierOrder(renders, i + 1);
    assert Tier(renders, i) == [];
  }

  /** One non-empty, serial, fully drawable tier in front of higher tiers that are drawn in order. */
  lemma PostTiersOrderStep(renders: map<int, seq<Id>>, store: map<Id, Entity>, numCPU: nat, i: int, current: Option<BatchKind>)
    requires 0 <= i <= HighestGround && |Tier(renders, i)| != 0
    requires |Tier(renders, i)| < 2 * numCPU && AllDrawable(store, Tier(renders, i))
    requires PostTiers(renders, store, numCPU, i + 1, Some(Batch(i))).completed
    requires DrawnIds(PostTiers(renders, store, numCPU, i + 1, Some(Batch(i))).events) == TierOrder(renders, i + 1)
    ensures PostTiers(renders, store, numCPU, i, current).completed
    ensures DrawnIds(PostTiers(renders, store, numCPU, i, current).events) == TierOrder(renders, i)
  {
    var list := Tier(renders, i);
    var b := Batch(i);
    SerialTierDraws(list, store, numCPU, b);
    PostTiersUnfold(renders, store, numCPU, i, current);
    SwitchDrawsNothing(current, b);
    DrawnIdsOfThree(Switch(current, b), TierDraws(list, store, numCPU, b).0,
                    PostTiers(renders, store, numCPU, i + 1, Some(b)).events, list, TierOrder(renders, i + 1));
  }

  lemma {:induction false} PostTiersOrder(renders: map<int, seq<Id>>, store: map<Id, Entity>, numCPU: nat, i: int, current: Option<BatchKind>)
    requires 0 <= i <= HighestGround + 1
    requires SerialFrom(renders, store, numCPU, i)
    ensures PostTiers(renders, store, numCPU, i, current).completed
    ensures DrawnIds(PostTiers(renders, store, numCPU, i, current).events) == TierOrder(renders, i)
    decreases HighestGround + 1 - i
  {
    if i <= HighestGround {
      var list := Tier(renders, i);
      if |list| == 0 {
        PostTiersOrder(renders, store, numCPU, i + 1, current);
        PostTiersOrderSkip(renders, store, numCPU, i, current);
      } else {
        PostTiersOrder(renders, store, numCPU, i + 1, Some(Batch(i)));
        PostTiersOrderStep(renders, store, numCPU, i, current);
      }
    }
  }

  /**
   * Serial draw order: when every tier is drawn by the serial loop and every
   * entity has its components, Post completes and draws the tiers in
   * ascending order, each in its list order.
   */
  lemma PostDrawOrder(rs: RenderState, store: map<Id, Entity>, numCPU: nat)
    requires !rs.locked
    requires SerialAndDrawable(rs.renders, store, numCPU)
    ensures Completed(Post(rs, store, numCPU))
    ensures !Post(rs, store, numCPU).value.state.changed
    ensures DrawnIds(Post(rs, store, numCPU).value.events) == TierOrder(rs.renders, Background)
  {
    SerialFromAll(rs.renders, store, numCPU, Background);
    PostTiersOrder(rs.renders, store, numCPU, Background, None);
    PostCompletedDraws(rs, store, numCPU);
  }

  /** When the tiers complete, Post only appends the closing End, which draws nothing. */
  lemma PostCompletedDraws(rs: RenderState, store: map<Id, Entity>, numCPU: nat)
    requires !rs.locked
    requires PostTiers(rs.renders, store, numCPU, Background, None).completed
    ensures Completed(Post(rs, store, numCPU))
    ensures !Post(rs, store, numCPU).value.state.changed
    ensures DrawnIds(Post(rs, store, numCPU).value.events) == DrawnIds(PostTiers(rs.renders, store, numCPU, Background, None).events)
  {
    var run := PostTiers(rs.renders, store, numCPU, Background, None);
    var tail := if run.current.Some? then [End(run.current.value)] else [];
    assert Post(rs, store, numCPU) == Done(PostResult(run.events + tail, rs.(changed := false)));
    DrawnIdsAppend(run.events, tail);
    assert DrawnIds(tail) == [];
  }

  /** The ids an event draws. */
  function Mentions(ev: RenderEvent): set<Id>
  {
    match ev
    case Draw(_, id) => {id}
    case DrawAll(_, m) => set id | id in m
    case _ => {}
  }

  /** Every event draws only ids from `ids`. */
  predicate MentionsWithin(events: seq<RenderEvent>, ids: set<Id>)
  {
    forall k :: 0 <= k < |events| ==> Mentions(events[k]) <= ids
  }

  lemma MentionsWithinAppend(a: seq<RenderEvent>, b: seq<RenderEvent>, ids: set<Id>)
    requires MentionsWithin(a, ids) && MentionsWithin(b, ids)
    ensures MentionsWithin(a + b, ids)
  {
    forall k | 0 <= k < |a + b|
      ensures Mentions((a + b)[k]) <= ids
    {
      if k < |a| {
        assert (a + b)[k] == a[k];
      } else {
        assert (a + b)[k] == b[k - |a|];
      }
    }
  }

  /** The batch switch and one tier's draws mention only that tier's ids. */
  lemma TierHeadMentions(list: seq<Id>, store: map<Id, Entity>, numCPU: nat, b: BatchKind, current: Option<BatchKind>)
    ensures MentionsWithin(Switch(current, b) + TierDraws(list, store, numCPU, b).0, set id | id in list)
  {
    var ids := set id | id in list;
    assert MentionsWithin(Switch(current, b), ids);
    TierDrawsMentions(list, store, numCPU, b);
    MentionsWithinAppend(Switch(current, b), TierDraws(list, store, numCPU, b).0, ids);
  }

  /** One tier's draws, serial or parallel, mention only that tier's ids. */
  lemma TierDrawsMentions(list: seq<Id>, store: map<Id, Entity>, numCPU: nat, b: BatchKind)
    ensures MentionsWithin(TierDraws(list, store, numCPU, b).0, set id | id in list)
  {
    var ids := set id | id in list;
    if |list| < 2 * numCPU {
      var d := DrawInOrder(list, store, b).0;
      forall k | 0 <= k < |d|
        ensures Mentions(d[k]) <= ids
      {
        assert d[k] == Draw(b, list[k]);
      }
    } else {
      DrawAllMentions(list, store, b);
    }
  }

  /** The parallel draw of a tier names only entities of the tier. */
  lemma DrawAllMentions(list: seq<Id>, store: map<Id, Entity>, b: BatchKind)
    ensures Mentions(DrawAll(b, Drawables(list, store))) <= set id | id in list
  {
    forall id | id in Drawables(list, store)
      ensures id in list
    {
      assert multiset(list)[id] > 0;
    }
  }

  /** The general shape of a non-empty tier's contribution. */
  lemma PostTiersNonEmpty(renders: map<int, seq<Id>>, store: map<Id, Entity>, numCPU: nat, i: int, current: Option<BatchKind>)
    requires 0 <= i <= HighestGround && |Tier(renders, i)| != 0
    ensures PostTiers(renders, store, numCPU, i, current).events ==
      Switch(current, Batch(i)) + TierDraws(Tier(renders, i), store, numCPU, Batch(i)).0 +
      (if TierDraws(Tier(renders, i), store, numCPU, Batch(i)).1
       then PostTiers(renders, store, numCPU, i + 1, Some(Batch(i))).events else [])
  {
    if !TierDraws(Tier(renders, i), store, numCPU, Batch(i)).1 {
      var head := Switch(current, Batch(i)) + TierDraws(Tier(renders, i), store, numCPU, Batch(i)).0;
      assert head + [] == head;
    }
  }

  lemma {:induction false} PostTiersDrawOnlyTiers(renders: map<int, seq<Id>>, store: map<Id, Entity>, numCPU: nat, i: int, current: Option<BatchKind>, ids: set<Id>)
    requires 0 <= i <= HighestGround + 1
    requires forall id :: id in TierOrder(renders, i) ==> id in ids
    ensures MentionsWithin(PostTiers(renders, store, numCPU, i, current).events, ids)
    decreases HighestGround + 1 - i
  {
    if i <= HighestGround {
      TierOrderWithin(renders, i, ids);
      var next := if |Tier(renders, i)| == 0 then current else Some(Batch(i));
      PostTiersDrawOnlyTiers(renders, store, numCPU, i + 1, next, ids);
      PostTiersDrawOnlyStep(renders, store, numCPU, i, current, ids);
    }
  }

  /** One tier of PostTiersDrawOnlyTiers: its own events mention only its list, and the rest is within `ids` already. */
  lemma PostTiersDrawOnlyStep(renders: map<int, seq<Id>>, store: map<Id, Entity>, numCPU: nat, i: int, current: Option<BatchKind>, ids: set<Id>)
    requires Background <= i <= HighestGround
    requires forall id :: id in Tier(renders, i) ==> id in ids
    requires MentionsWithin(PostTiers(renders, store, numCPU, i + 1, if |Tier(renders, i)| == 0 then current else Some(Batch(i))).events, ids)
    ensures MentionsWithin(PostTiers(renders, store, numCPU, i, current).events, ids)
  {
    if |Tier(renders, i)| == 0 {
      PostTiersSkip(renders, store, numCPU, i, current);
    } else {
      PostTiersDrawOnlyNonEmpty(renders, store, numCPU, i, current, ids);
    }
  }

  /** A bound on every entity of the tiers from `i` on bounds tier `i` and the tiers above it. */
  lemma TierOrderWithin(renders: map<int, seq<Id>>, i: int, ids: set<Id>)
    requires 0 <= i <= HighestGround
    requires forall id :: id in TierOrder(renders, i) ==> id in ids
    ensures forall id :: id in Tier(renders, i) ==> id in ids
    ensures forall id :: id in TierOrder(renders, i + 1) ==> id in ids
  {
    assert TierOrder(renders, i) == Tier(renders, i) + TierOrder(renders, i + 1);
  }

  /** A non-empty tier: its batch switch and draws mention only its list. */
  lemma PostTiersDrawOnlyNonEmpty(renders: map<int, seq<Id>>, store: map<Id, Entity>, numCPU: nat, i: int, current: Option<BatchKind>, ids: set<Id>)
    requires Background <= i <= HighestGround && |Tier(renders, i)| > 0
    requires forall id :: id in Tier(renders, i) ==> id in ids
    requires MentionsWithin(PostTiers(renders, store, numCPU, i + 1, Some(Batch(i))).events, ids)
    ensures MentionsWithin(PostTiers(renders, store, numCPU, i, current).events, ids)
  {
    var list := Tier(renders, i);
    var b := Batch(i);
    var tier := TierDraws(list, store, numCPU, b);
    var head := Switch(current, b) + tier.0;
    PostTiersNonEmpty(renders, store, numCPU, i, current);
    TierHeadMentions(list, store, numCPU, b, current);
    assert (set id | id in list) <= ids;
    var rest := if tier.1 then PostTiers(renders, store, numCPU, i + 1, Some(b)).events else [];
    assert MentionsWithin(rest, ids);
    MentionsWithinAppend(head, rest, ids);
  }

  /**
   * Only tiers Background..HighestGround are drawn: an entity that appears in
   * no tier of that range (a hidden, negative tier, say) is never drawn.
   */
  lemma PostDrawsOnlyTiers(rs: RenderState, store: map<Id, Entity>, numCPU: nat, id: Id)
    requires !rs.locked
    requires forall t :: Background <= t <= HighestGround ==> id !in Tier(rs.renders, t)
    ensures forall k :: 0 <= k < |Post(rs, store, numCPU).value.events| ==> id !in Mentions(Post(rs, store, numCPU).value.events[k])
  {
    var ids := set x | x in TierOrder(rs.renders, Background);
    PostTiersDrawOnlyTiers(rs.renders, store, numCPU, Background, None, ids);
    PostMentionsWithin(rs, store, numCPU, ids);
    NotInTierOrder(rs.renders, Background, id);
    assert id !in ids;
  }

  /** Post adds at most a closing End to the tiers' events, and an End draws nothing. */
  lemma PostMentionsWithin(rs: RenderState, store: map<Id, Entity>, numCPU: nat, ids: set<Id>)
    requires !rs.locked
    requires MentionsWithin(PostTiers(rs.renders, store, numCPU, Background, None).events, ids)
    ensures MentionsWithin(Post(rs, store, numCPU).value.events, ids)
  {
    var run := PostTiers(rs.renders, store, numCPU, Background, None);
    if run.completed {
      var tail := if run.current.Some? then [End(run.current.value)] else [];
      assert Post(rs, store, numCPU).value.events == run.events + tail;
      ClosingEndMentions(run.events, run.current, ids);
    }
  }

  /** Appending the closing End, if any, draws nothing new. */
  lemma ClosingEndMentions(events: seq<RenderEvent>, current: Option<BatchKind>, ids: set<Id>)
    requires MentionsWithin(events, ids)
    ensures MentionsWithin(events + (if current.Some? then [End(current.value)] else []), ids)
  {
    var tail := if current.Some? then [End(current.value)] else [];
    assert MentionsWithin(tail, ids);
    MentionsWithinAppend(events, tail, ids);
  }

  lemma {:induction false} NotInTierOrder(renders: map<int, seq<Id>>, lo: int, id: Id)
    requires 0 <= lo <= HighestGround + 1
    requires forall t :: lo <= t <= HighestGround ==> id !in Tier(renders, t)
    ensures id !in TierOrder(renders, lo)
    decreases HighestGround + 1 - lo
  {
    if lo <= HighestGround {
      NotInTierOrder(renders, lo + 1, id);
    }
  }

  // ---- when Post completes ----

  /** Every tier lo..HighestGround that the serial loop handles has all its components, one tier per unfolding. */
  predicate SerialTiersDrawable(renders: map<int, seq<Id>>, store: map<Id, Entity>, numCPU: nat, lo: int)
    requires 0 <= lo <= HighestGround + 1
    decreases HighestGround + 1 - lo
  {
    lo > HighestGround ||
    ((|Tier(renders, lo)| < 2 * numCPU ==> AllDrawable(store, Tier(renders, lo))) &&
     SerialTiersDrawable(renders, store, numCPU, lo + 1))
  }

  /** SerialTiersDrawable says, tier by tier, what its quantified reading says. */
  lemma {:induction false} SerialTiersDrawableIff(renders: map<int, seq<Id>>, store: map<Id, Entity>, numCPU: nat, lo: int)
    requires 0 <= lo <= HighestGround + 1
    ensures SerialTiersDrawable(renders, store, numCPU, lo) <==>
            forall t :: lo <= t <= HighestGround && |Tier(renders, t)| < 2 * numCPU ==> AllDrawable(store, Tier(renders, t))
    decreases HighestGround + 1 - lo
  {
    if lo <= HighestGround {
      SerialTiersDrawableIff(renders, store, numCPU, lo + 1);
    }
  }

  lemma {:induction false} PostTiersCompletes(renders: map<int, seq<Id>>, store: map<Id, Entity>, numCPU: nat, i: int, current: Option<BatchKind>)
    requires 0 <= i <= HighestGround + 1
    ensures PostTiers(renders, store, numCPU, i, current).completed <==> SerialTiersDrawable(renders, store, numCPU, i)
    decreases HighestGround + 1 - i
  {
    if i <= HighestGround {
      var next := if |Tier(renders, i)| == 0 then current else Some(Batch(i));
      PostTiersCompletes(renders, store, numCPU, i + 1, next);
      PostTiersCompletesOne(renders, store, numCPU, i, current);
    }
  }

  /** One tier, empty or not: the run from it completes exactly when this tier's loop and the higher tiers' do. */
  lemma PostTiersCompletesOne(renders: map<int, seq<Id>>, store: map<Id, Entity>, numCPU: nat, i: int, current: Option<BatchKind>)
    requires 0 <= i <= HighestGround
    requires var next := if |Tier(renders, i)| == 0 then current else Some(Batch(i));
             PostTiers(renders, store, numCPU, i + 1, next).completed <==> SerialTiersDrawable(renders, store, numCPU, i + 1)
    ensures PostTiers(renders, store, numCPU, i, current).completed <==> SerialTiersDrawable(renders, store, numCPU, i)
  {
    if |Tier(renders, i)| == 0 {
      PostTiersSkip(renders, store, numCPU, i, current);
    } else {
      TierDrawsCompletes(Tier(renders, i), store, numCPU, Batch(i));
      PostTiersCompletedStep(renders, store, numCPU, i, current);
    }
  }

  /** A tier's loop finishes exactly when it is parallel or all its entities can be drawn. */
  lemma TierDrawsCompletes(list: seq<Id>, store: map<Id, Entity>, numCPU: nat, b: BatchKind)
    ensures TierDraws(list, store, numCPU, b).1 <==> (|list| < 2 * numCPU ==> AllDrawable(store, list))
  {
    if |list| < 2 * numCPU {
      var d := DrawInOrder(list, store, b);
      if !d.1 {
        assert !CanDraw(store, list[|d.0|]);
      }
    }
  }

  /** A non-empty tier completes the run exactly when its loop and the higher tiers finish. */
  lemma PostTiersCompletedStep(renders: map<int, seq<Id>>, store: map<Id, Entity>, numCPU: nat, i: int, current: Option<BatchKind>)
    requires 0 <= i <= HighestGround && |Tier(renders, i)| != 0
    ensures PostTiers(renders, store, numCPU, i, current).completed <==>
            TierDraws(Tier(renders, i), store, numCPU, Batch(i)).1 &&
            PostTiers(renders, store, numCPU, i + 1, Some(Batch(i))).completed
  {
  }

  /**
   * Post completes (closing its batch, clearing `changed`, releasing the
   * mutex) exactly when no serially drawn tier holds an entity that lacks
   * its render or space component.
   */
  lemma PostCompletesIff(rs: RenderState, store: map<Id, Entity>, numCPU: nat)
    requires !rs.locked
    ensures Completed(Post(rs, store, numCPU)) <==>
            forall t :: Background <= t <= HighestGround && |Tier(rs.renders, t)| < 2 * numCPU ==> AllDrawable(store, Tier(rs.renders, t))
    ensures Completed(Post(rs, store, numCPU)) ==> !Post(rs, store, numCPU).value.state.changed
    ensures !Completed(Post(rs, store, numCPU)) ==> Post(rs, store, numCPU).value.state.changed == rs.changed
  {
    PostTiersCompletes(rs.renders, store, numCPU, Background, None);
    SerialTiersDrawableIff(rs.renders, store, numCPU, Background);
  }
}

=== FILE: scheduler.dfy ===
/**
 * World.Update (world.go) as the trace of calls one frame makes. A system
 * with few entities gets its Update calls one after another; otherwise the
 * calls run on worker goroutines, so only their multiset is fixed, and the
 * WaitGroup barrier puts all of them before the system's Post.
 * `runtime.NumCPU()`, the headless flag and the Escape key state are
 * parameters.
 */
module Scheduler {
  import opened Basics
  import opened Components
  import opened EntityStore
  import opened Worlds

  datatype Call =
    | ClearScreen                                 // World.Pre when not headless
    | PreCall(system: nat)
    | UpdateCall(system: nat, entity: Id)
    | UpdateAll(system: nat, entities: multiset<Id>)
    | PostCall(system: nat)
    | ExitCall                                    // Escape pressed

  /**
   * The parallel filter: while paused an entity needs an UnpauseComponent
   * (the reflection lookup must succeed), and it must have `Exists` set.
   */
  predicate Passes(e: Entity, paused: bool)
  {
    (!paused || GetComponent(e, GoTypeName(UnpauseKind), None).0) && e.present
  }

  /** The entities sent to the workers, with their multiplicity in the list. */
  function Dispatched(ents: seq<Id>, store: map<Id, Entity>, paused: bool): (m: multiset<Id>)
    requires AllStored(store, ents)
    ensures forall id :: m[id] == if id in store && Passes(store[id], paused) then Count(ents, id) else 0
    decreases |ents|
  {
    if ents == [] then multiset{}
    else
      var rest := Dispatched(ents[1..], store, paused);
      assert ents == [ents[0]] + ents[1..];
      if Passes(store[ents[0]], paused) then multiset{ents[0]} + rest else rest
  }

  /** The serial loop: one Update per listed entity, in list order, without any filter. */
  function SerialUpdates(i: nat, ents: seq<Id>): (r: seq<Call>)
    ensures |r| == |ents|
    ensures forall k :: 0 <= k < |ents| ==> r[k] == UpdateCall(i, ents[k])
  {
    if ents == [] then [] else [UpdateCall(i, ents[0])] + SerialUpdates(i, ents[1..])
  }

  /** One visited system: Pre, its Update calls, Post. */
  function SystemCalls(i: nat, s: Sys, store: map<Id, Entity>, paused: bool, numCPU: nat): seq<Call>
    requires AllStored(store, s.Entities())
  {
    var ents := s.Entities();
    [PreCall(i)] +
    (if |ents| < 2 * numCPU then SerialUpdates(i, ents) else [UpdateAll(i, Dispatched(ents, store, paused))]) +
    [PostCall(i)]
  }

  predicate Visits(s: Sys, headless: bool)
  {
    !(headless && s.SkipOnHeadless())
  }

  /** The loop over the systems from index `from` on, in registration order. */
  function SystemsTrace(systems: seq<Sys>, store: map<Id, Entity>, paused: bool, numCPU: nat, headless: bool, from: nat): seq<Call>
    requires forall i :: 0 <= i < |systems| ==> AllStored(store, systems[i].Entities())
    decreases |systems| - from
  {
    if from >= |systems| then []
    else
      (if Visits(systems[from], headless) then SystemCalls(from, systems[from], store, paused, numCPU) else []) +
      SystemsTrace(systems, store, paused, numCPU, headless, from + 1)
  }

  /**
   * World.Update: clear the screen unless headless, run the systems, maybe
   * exit. Every system's calls are computed from the world as the frame
   * starts, so this is the frame's call trace when no Update call changes
   * the systems' lists, the entity store or the paused flag during the frame.
   */
  function Frame(w: World, numCPU: nat, headless: bool, escape: bool): seq<Call>
    requires Valid(w)
  {
    (if headless then [] else [ClearScreen]) +
    SystemsTrace(w.systems, w.store, w.paused, numCPU, headless, 0) +
    (if escape then [ExitCall] else [])
  }

  // ---- which systems run, and in which order ----

  /** The indices from..|systems|-1 of the systems the loop does not skip. */
  function VisitedFrom(systems: seq<Sys>, headless: bool, from: nat): (r: seq<nat>)
    ensures forall k :: 0 <= k < |r| ==> from <= r[k] < |systems| && Visits(systems[r[k]], headless)
    ensures forall k, l :: 0 <= k < l < |r| ==> r[k] < r[l]
    ensures forall i :: from <= i < |systems| && Visits(systems[i], headless) ==> i in r
    decreases |systems| - from
  {
    if from >= |systems| then []
    else (if Visits(systems[from], headless) then [from] else []) + VisitedFrom(systems, headless, from + 1)
  }

  /** The system indices of the PreCall events, in trace order. */
  function Pres(calls: seq<Call>): seq<nat>
  {
    if calls == [] then []
    else (if calls[0].PreCall? then [calls[0].system] else []) + Pres(calls[1..])
  }

  /** The system indices of the PostCall events, in trace order. */
  function Posts(calls: seq<Call>): seq<nat>
  {
    if calls == [] then []
    else (if calls[0].PostCall? then [calls[0].system] else []) + Posts(calls[1..])
  }

  lemma PresAppend(a: seq<Call>, b: seq<Call>)
    ensures Pres(a + b) == Pres(a) + Pres(b)
    ensures Posts(a + b) == Posts(a) + Posts(b)
  {
    PresConcat(a, b);
    PostsConcat(a, b);
  }

  lemma {:induction false} PresConcat(a: seq<Call>, b: seq<Call>)
    ensures Pres(a + b) == Pres(a) + Pres(b)
    decreases |a|
  {
    if a == [] {
      assert a + b == b;
    } else {
      var head := if a[0].PreCall? then [a[0].system] else [];
      assert (a + b)[0] == a[0] && (a + b)[1..] == a[1..] + b;
      PresConcat(a[1..], b);
      assert Pres(a + b) == head + Pres(a[1..] + b);
      assert Pres(a) == head + Pres(a[1..]);
    }
  }

  lemma {:induction false} PostsConcat(a: seq<Call>, b: seq<Call>)
    ensures Posts(a + b) == Posts(a) + Posts(b)
    decreases |a|
  {
    if a == [] {
      assert a + b == b;
    } else {
      var head := if a[0].PostCall? then [a[0].system] else [];
      assert (a + b)[0] == a[0] && (a + b)[1..] == a[1..] + b;
      PostsConcat(a[1..], b);
      assert Posts(a + b) == head + Posts(a[1..] + b);
      assert Posts(a) == head + Posts(a[1..]);
    }
  }

  lemma {:induction false} SerialHasNoBrackets(i: nat, ents: seq<Id>)
    ensures Pres(SerialUpdates(i, ents)) == [] && Posts(SerialUpdates(i, ents)) == []
    decreases |ents|
  {
    if ents != [] {
      SerialHasNoBrackets(i, ents[1..]);
      assert SerialUpdates(i, ents) == [UpdateCall(i, ents[0])] + SerialUpdates(i, ents[1..]);
      PresAppend([UpdateCall(i, ents[0])], SerialUpdates(i, ents[1..]));
    }
  }

  /** A visited system contributes exactly one Pre and one Post, both its own. */
  lemma SystemCallsBrackets(i: nat, s: Sys, store: map<Id, Entity>, paused: bool, numCPU: nat)
    requires AllStored(store, s.Entities())
    ensures Pres(SystemCalls(i, s, store, paused, numCPU)) == [i]
    ensures Posts(SystemCalls(i, s, store, paused, numCPU)) == [i]
  {
    var ents := s.Entities();
    var mid := if |ents| < 2 * numCPU then SerialUpdates(i, ents) else [UpdateAll(i, Dispatched(ents, store, paused))];
    if |ents| < 2 * numCPU {
      SerialHasNoBrackets(i, ents);
    } else {
      assert Pres(mid) == [] && Posts(mid) == [];
    }
    PresAppend([PreCall(i)], mid);
    PresAppend([PreCall(i)] + mid, [PostCall(i)]);
  }

  lemma {:induction false} SystemsTraceOrder(systems: seq<Sys>, store: map<Id, Entity>, paused: bool, numCPU: nat, headless: bool, from: nat)
    requires forall i :: 0 <= i < |systems| ==> AllStored(store, systems[i].Entities())
    ensures Pres(SystemsTrace(systems, store, paused, numCPU, headless, from)) == VisitedFrom(systems, headless, from)
    ensures Posts(SystemsTrace(systems, store, paused, numCPU, headless, from)) == VisitedFrom(systems, headless, from)
    decreases |systems| - from
  {
    if from < |systems| {
      SystemsTraceOrder(systems, store, paused, numCPU, headless, from + 1);
      var head := if Visits(systems[from], headless) then SystemCalls(from, systems[from], store, paused, numCPU) else [];
      if Visits(systems[from], headless) {
        SystemCallsBrackets(from, systems[from], store, paused, numCPU);
      }
      PresAppend(head, SystemsTrace(systems, store, paused, numCPU, headless, from + 1));
    }
  }

  /**
   * Systems run in registration order: the frame's Pre calls, and likewise
   * its Post calls, name exactly the systems not skipped as headless, each
   * once, in ascending index order.
   */
  lemma FrameVisitsInOrder(w: World, numCPU: nat, headless: bool, escape: bool)
    requires Valid(w)
    ensures Pres(Frame(w, numCPU, headless, escape)) == VisitedFrom(w.systems, headless, 0)
    ensures Posts(Frame(w, numCPU, headless, escape)) == VisitedFrom(w.systems, headless, 0)
  {
    SystemsTraceOrder(w.systems, w.store, w.paused, numCPU, headless, 0);
    WrapKeepsBrackets(if headless then [] else [ClearScreen],
                      SystemsTrace(w.systems, w.store, w.paused, numCPU, headless, 0),
                      if escape then [ExitCall] else []);
  }

  lemma WrapKeepsBrackets(front: seq<Call>, middle: seq<Call>, back: seq<Call>)
    requires front == [] || front == [ClearScreen]
    requires back == [] || back == [ExitCall]
    ensures Pres(front + middle + back) == Pres(middle)
    ensures Posts(front + middle + back) == Posts(middle)
  {
    PresAppend(front, middle);
    PresAppend(front + middle, back);
    assert Pres(middle) + [] == Pres(middle);
    assert Posts(middle) + [] == Posts(middle);
  }

  // ---- what one system's block calls ----

  /** The entity ids of the serial Update calls, in order. */
  function UpdatedIds(calls: seq<Call>): seq<Id>
  {
    if calls == [] then []
    else (if calls[0].UpdateCall? then [calls[0].entity] else []) + UpdatedIds(calls[1..])
  }

  lemma {:induction false} UpdatedIdsOfSerial(i: nat, ents: seq<Id>)
    ensures UpdatedIds(SerialUpdates(i, ents)) == ents
    decreases |ents|
  {
    if ents != [] {
      UpdatedIdsOfSerial(i, ents[1..]);
      assert SerialUpdates(i, ents)[1..] == SerialUpdates(i, ents[1..]);
    }
  }

  /**
   * The serial path: every listed entity is updated, in list order, duplicates
   * included, whatever the paused flag and the entities' `Exists` flags are.
   */
  lemma SerialIgnoresPause(i: nat, s: Sys, store: map<Id, Entity>, paused: bool, numCPU: nat)
    requires AllStored(store, s.Entities()) && |s.Entities()| < 2 * numCPU
    ensures SystemCalls(i, s, store, paused, numCPU) ==
            [PreCall(i)] + SerialUpdates(i, s.Entities()) + [PostCall(i)]
    ensures SystemCalls(i, s, store, paused, numCPU) == SystemCalls(i, s, store, !paused, numCPU)
    ensures UpdatedIds(SerialUpdates(i, s.Entities())) == s.Entities()
  {
    UpdatedIdsOfSerial(i, s.Entities());
  }

  /**
   * The parallel path: one UpdateAll between Pre and Post; an entity is in
   * it (as often as it is listed) exactly when it passes the filter, so an
   * entity without `Exists`, or without an UnpauseComponent while paused, is
   * never updated.
   */
  lemma ParallelFilter(i: nat, s: Sys, store: map<Id, Entity>, paused: bool, numCPU: nat, id: Id)
    requires AllStored(store, s.Entities()) && |s.Entities()| >= 2 * numCPU
    requires id in store
    ensures SystemCalls(i, s, store, paused, numCPU) ==
            [PreCall(i), UpdateAll(i, Dispatched(s.Entities(), store, paused)), PostCall(i)]
    ensures id in Dispatched(s.Entities(), store, paused) <==> id in s.Entities() && Passes(store[id], paused)
    ensures paused && !HasUnpauseKey(store[id]) ==> id !in Dispatched(s.Entities(), store, paused)
    ensures !store[id].present ==> id !in Dispatched(s.Entities(), store, paused)
  {
    DispatchedIff(s.Entities(), store, paused, id);
  }

  /** An entity is dispatched exactly when it is listed and passes the filter. */
  lemma DispatchedIff(ents: seq<Id>, store: map<Id, Entity>, paused: bool, id: Id)
    requires AllStored(store, ents) && id in store
    ensures id in Dispatched(ents, store, paused) <==> id in ents && (!paused || HasUnpauseKey(store[id])) && store[id].present
  {
    var m := Dispatched(ents, store, paused);
    PassesIff(store[id], paused);
    assert m[id] == if Passes(store[id], paused) then Count(ents, id) else 0;
    assert Count(ents, id) > 0 <==> id in ents;
  }

  /** The filter of the parallel path, without the reflection lookup. */
  lemma PassesIff(e: Entity, paused: bool)
    ensures Passes(e, paused) <==> (!paused || HasUnpauseKey(e)) && e.present
  {
    LookupKeyOfGoTypeName(UnpauseKind);
  }

  /** The UnpauseComponent key is present. */
  predicate HasUnpauseKey(e: Entity)
  {
    TypeName(UnpauseKind) in e.components
  }

  /**
   * RemoveEntity does not stop updates: it only edits the world map, so the
   * frame after it makes exactly the same calls.
   */
  lemma RemovedStillDispatched(w: World, e: Entity, numCPU: nat, headless: bool, escape: bool)
    requires Valid(w)
    ensures Valid(RemoveEntity(w, e))
    ensures Frame(RemoveEntity(w, e), numCPU, headless, escape) == Frame(w, numCPU, headless, escape)
  {
    RemoveEntityValid(w, e);
  }
  // ---- Pre, the updates and Post of one system are not interleaved with another's ----

  /** Whether a call may come while `open` is the system between its Pre and Post. */
  predicate Fits(c: Call, open: Option<nat>)
  {
    match c
    case PreCall(_) => open == None
    case UpdateCall(i, _) => open == Some(i)
    case UpdateAll(i, _) => open == Some(i)
    case PostCall(i) => open == Some(i)
    case ClearScreen => open == None
    case ExitCall => open == None
  }

  function Next(c: Call, open: Option<nat>): Option<nat>
  {
    match c
    case PreCall(i) => Some(i)
    case PostCall(_) => None
    case _ => open
  }

  /**
   * Replays calls against the system whose Pre ran last without its Post:
   * an Update only for that system, a Post only to close it, a Pre only when
   * none is open. None marks a violation.
   */
  function Replay(calls: seq<Call>, open: Option<nat>): Option<Option<nat>>
    decreases |calls|
  {
    if calls == [] then Some(open)
    else if Fits(calls[0], open) then Replay(calls[1..], Next(calls[0], open))
    else None
  }

  lemma {:induction false} ReplayAppend(a: seq<Call>, b: seq<Call>, open: Option<nat>)
    requires Replay(a, open).Some?
    ensures Replay(a + b, open) == Replay(b, Replay(a, open).value)
    decreases |a|
  {
    if a != [] {
      assert (a + b)[0] == a[0];
      assert (a + b)[1..] == a[1..] + b;
      ReplayAppend(a[1..], b, Next(a[0], open));
    } else {
      assert a + b == b;
    }
  }

  lemma {:induction false} SerialReplay(i: nat, ents: seq<Id>)
    ensures Replay(SerialUpdates(i, ents), Some(i)) == Some(Some(i))
    decreases |ents|
  {
    if ents != [] {
      SerialReplay(i, ents[1..]);
      assert SerialUpdates(i, ents)[1..] == SerialUpdates(i, ents[1..]);
    }
  }

  lemma SystemCallsReplay(i: nat, s: Sys, store: map<Id, Entity>, paused: bool, numCPU: nat)
    requires AllStored(store, s.Entities())
    ensures Replay(SystemCalls(i, s, store, paused, numCPU), None) == Some(None)
  {
    var ents := s.Entities();
    var mid := if |ents| < 2 * numCPU then SerialUpdates(i, ents) else [UpdateAll(i, Dispatched(ents, store, paused))];
    if |ents| < 2 * numCPU {
      SerialReplay(i, ents);
    } else {
      assert Replay(mid, Some(i)) == Replay([], Some(i));
    }
    assert Replay([PreCall(i)], None) == Some(Some(i));
    ReplayAppend([PreCall(i)], mid, None);
    ReplayAppend([PreCall(i)] + mid, [PostCall(i)], None);
  }

  lemma {:induction false} SystemsTraceReplay(systems: seq<Sys>, store: map<Id, Entity>, paused: bool, numCPU: nat, headless: bool, from: nat)
    requires forall i :: 0 <= i < |systems| ==> AllStored(store, systems[i].Entities())
    ensures Replay(SystemsTrace(systems, store, paused, numCPU, headless, from), None) == Some(None)
    decreases |systems| - from
  {
    if from < |systems| {
      SystemsTraceReplay(systems, store, paused, numCPU, headless, from + 1);
      var head := if Visits(systems[from], headless) then SystemCalls(from, systems[from], store, paused, numCPU) else [];
      if Visits(systems[from], headless) {
        SystemCallsReplay(from, systems[from], store, paused, numCPU);
      } else {
        assert Replay(head, None) == Some(None);
      }
      ReplayAppend(head, SystemsTrace(systems, store, paused, numCPU, headless, from + 1), None);
    }
  }

  /**
   * The barrier: in a frame every Update call of a system comes after that
   * system's Pre and before its Post, and no other system's calls come in
   * between.
   */
  lemma FrameBracketed(w: World, numCPU: nat, headless: bool, escape: bool)
    requires Valid(w)
    ensures Replay(Frame(w, numCPU, headless, escape), None) == Some(None)
  {
    var front := if headless then [] else [ClearScreen];
    var middle := SystemsTrace(w.systems, w.store, w.paused, numCPU, headless, 0);
    var back := if escape then [ExitCall] else [];
    SystemsTraceReplay(w.systems, w.store, w.paused, numCPU, headless, 0);
    assert Replay(front, None) == Some(None);
    assert Replay(back, None) == Some(None);
    ReplayAppend(front, middle, None);
    ReplayAppend(front + middle, back, None);
  }
}

=== FILE: system.dfy ===
/**
 * The embedded base `System` of system.go, the `PriorityLevel` tiers, and the
 * tier-to-batch choice `World.Batch` (world.go) that rendering depends on.
 */
module Systems {
  import opened EntityStore

  /** engi.System: the entity list and the headless-skip flag. */
  datatype BaseSystem = BaseSystem(entities: seq<Id>, shouldSkipOnHeadless: bool)

  /** `&System{}` (and NewSystem): no entities, not skipped when headless. */
  function NewBase(): BaseSystem
  {
    BaseSystem([], false)
  }

  function AddEntity(s: BaseSystem, e: Id): (r: BaseSystem)
    ensures r.entities == s.entities + [e]
    ensures r.shouldSkipOnHeadless == s.shouldSkipOnHeadless
  {
    s.(entities := s.entities + [e])
  }

  function Entities(s: BaseSystem): seq<Id>
  {
    s.entities
  }

  function Priority(s: BaseSystem): int
  {
    0
  }

  function SkipOnHeadless(s: BaseSystem): bool
  {
    s.shouldSkipOnHeadless
  }

  /** Repeated AddEntity calls, in argument order. */
  function AddAll(s: BaseSystem, es: seq<Id>): BaseSystem
    decreases |es|
  {
    if es == [] then s else AddAll(AddEntity(s, es[0]), es[1..])
  }

  /**
   * The base system's contract: entities come back in insertion order,
   * duplicates included; the priority is 0; the skip flag is the field.
   */
  lemma {:induction false} InsertionOrder(s: BaseSystem, es: seq<Id>)
    ensures Entities(AddAll(s, es)) == Entities(s) + es
    ensures Priority(AddAll(s, es)) == 0
    ensures SkipOnHeadless(AddAll(s, es)) == s.shouldSkipOnHeadless
    decreases |es|
  {
    if es != [] {
      InsertionOrder(AddEntity(s, es[0]), es[1..]);
      assert [es[0]] + es[1..] == es;
    }
  }

  // PriorityLevel constants.
  const HighestGround: int := 50
  const HUDGround: int := 40
  const Foreground: int := 30
  const MiddleGround: int := 20
  const ScenicGround: int := 10
  const Background: int := 0

  /** The two render batches a world owns. */
  datatype BatchKind = DefaultBatch | HudBatch

  /** World.Batch: tiers from HUDGround upwards are drawn unaffected by the camera. */
  function Batch(p: int): (b: BatchKind)
    ensures b == HudBatch <==> p >= HUDGround
    ensures b == DefaultBatch <==> p < HUDGround
  {
    if p >= HUDGround then HudBatch else DefaultBatch
  }

  /** Once a tier uses the HUD batch, every higher tier does too. */
  lemma BatchMonotone(p: int, q: int)
    requires p <= q && Batch(p) == HudBatch
    ensures Batch(q) == HudBatch
  {
  }
}

=== FILE: world.dfy ===
/**
 * The World's bookkeeping (world.go): the entity map, the registered systems
 * in registration order, and the paused flag. The Go heap of *Entity objects
 * is `store`; the world map keeps the ids it currently lists.
 */
module Worlds {
  import opened Basics
  import opened EntityStore
  import opened Systems
  import RenderSystem

  /**
   * A registered Systemer. Demo systems, whose own logic lives in their
   * modules, appear here by their `Type()` name and base system.
   */
  datatype Sys =
    | Collision(base: BaseSystem)
    | Render(rs: RenderSystem.RenderState)
    | Pause(base: BaseSystem)
    | Other(name: string, base: BaseSystem)
  {
    function Type(): string
    {
      match this
      case Collision(_) => "CollisionSystem"
      case Render(_) => "RenderSystem"
      case Pause(_) => "PauseSystem"
      case Other(name, _) => name
    }

    function Entities(): seq<Id>
    {
      match this
      case Render(rs) => rs.base.entities
      case Collision(b) => b.entities
      case Pause(b) => b.entities
      case Other(_, b) => b.entities
    }

    function SkipOnHeadless(): bool
    {
      match this
      case Render(rs) => rs.base.shouldSkipOnHeadless
      case Collision(b) => b.shouldSkipOnHeadless
      case Pause(b) => b.shouldSkipOnHeadless
      case Other(_, b) => b.shouldSkipOnHeadless
    }

    /** The system's AddEntity: an append (the render system also marks its tiers stale). */
    function AddEntity(id: Id): (r: Sys)
      ensures r.Type() == Type() && r.SkipOnHeadless() == SkipOnHeadless()
      ensures r.Entities() == Entities() + [id]
    {
      match this
      case Render(rs) => Render(RenderSystem.AddEntity(rs, id))
      case Collision(b) => Collision(Systems.AddEntity(b, id))
      case Pause(b) => Pause(Systems.AddEntity(b, id))
      case Other(name, b) => Other(name, Systems.AddEntity(b, id))
    }

    /**
     * The system's New: a fresh, empty base system (NewSystem, not part of
     * this model, is taken to build the same `&System{}`); the render system
     * also gets a fresh tier map and is skipped when headless.
     */
    function New(): (r: Sys)
      ensures r.Type() == Type() && r.Entities() == []
      ensures r.SkipOnHeadless() <==> r.Render?
    {
      match this
      case Render(rs) => Render(RenderSystem.New(rs))
      case Collision(_) => Collision(NewBase())
      case Pause(_) => Pause(NewBase())
      case Other(name, _) => Other(name, NewBase())
    }
  }

  datatype World = World(store: map<Id, Entity>, entities: set<Id>, systems: seq<Sys>, paused: bool)

  /**
   * The world's invariant: every id the world map or a system lists names a
   * stored entity, and each stored entity sits under its own id.
   */
  predicate Valid(w: World)
  {
    && (forall id :: id in w.entities ==> id in w.store)
    && (forall id :: id in w.store ==> w.store[id].id == id)
    && (forall i :: 0 <= i < |w.systems| ==> AllStored(w.store, w.systems[i].Entities()))
  }

  /** A world before any entity or system: the map made by World.New. */
  function Empty(): (w: World)
    ensures Valid(w)
  {
    World(map[], {}, [], false)
  }

  /** Whether `e` asks for system `s`. */
  predicate Wants(e: Entity, s: Sys)
  {
    DoesRequire(e, s.Type())
  }

  /**
   * World.AddEntity: the entity is put in the map under its id, and every
   * registered system whose Type() it requires gets it appended, in
   * registration order. Nothing is deduplicated.
   */
  function AddEntity(w: World, e: Entity): (r: World)
    ensures r.store == w.store[e.id := e]
    ensures r.entities == w.entities + {e.id}
    ensures r.paused == w.paused
    ensures |r.systems| == |w.systems|
    ensures forall i :: 0 <= i < |w.systems| ==>
              r.systems[i].Type() == w.systems[i].Type() &&
              r.systems[i].SkipOnHeadless() == w.systems[i].SkipOnHeadless() &&
              r.systems[i].Entities() == w.systems[i].Entities() + (if Wants(e, w.systems[i]) then [e.id] else [])
  {
    World(w.store[e.id := e], w.entities + {e.id}, Wire(w.systems, e), w.paused)
  }

  /** The loop of World.AddEntity over the systems. */
  function Wire(systems: seq<Sys>, e: Entity): (r: seq<Sys>)
    ensures |r| == |systems|
    ensures forall i :: 0 <= i < |systems| ==> r[i] == if Wants(e, systems[i]) then systems[i].AddEntity(e.id) else systems[i]
  {
    if systems == [] then []
    else [if Wants(e, systems[0]) then systems[0].AddEntity(e.id) else systems[0]] + Wire(systems[1..], e)
  }

  /** World.RemoveEntity: only the world map loses the id. */
  function RemoveEntity(w: World, e: Entity): (r: World)
    ensures r.entities == w.entities - {e.id}
    ensures r.store == w.store && r.systems == w.systems && r.paused == w.paused
  {
    w.(entities := w.entities - {e.id})
  }

  /** World.AddSystem: New() once, then appended after every system already registered. */
  function AddSystem(w: World, s: Sys): (r: World)
    ensures |r.systems| == |w.systems| + 1 && r.systems[|w.systems|] == s.New()
    ensures r.systems[..|w.systems|] == w.systems
    ensures r.store == w.store && r.entities == w.entities && r.paused == w.paused
  {
    w.(systems := w.systems + [s.New()])
  }

  /** The world's operations keep its invariant. */
  lemma AddEntityValid(w: World, e: Entity)
    requires Valid(w)
    requires e.id in w.store ==> w.store[e.id] == e
    ensures Valid(AddEntity(w, e))
  {
    var r := AddEntity(w, e);
    forall i | 0 <= i < |r.systems|
      ensures AllStored(r.store, r.systems[i].Entities())
    {
      assert AllStored(w.store, w.systems[i].Entities());
    }
  }

  lemma RemoveEntityValid(w: World, e: Entity)
    requires Valid(w)
    ensures Valid(RemoveEntity(w, e))
  {
  }

  lemma AddSystemValid(w: World, s: Sys)
    requires Valid(w)
    ensures Valid(AddSystem(w, s))
  {
    var r := AddSystem(w, s);
    forall i | 0 <= i < |r.systems|
      ensures AllStored(r.store, r.systems[i].Entities())
    {
      if i < |w.systems| {
        assert r.systems[i] == w.systems[i];
      }
    }
  }

  /** Adding the same entity twice appends it twice to each system that wants it. */
  lemma AddTwiceAppendsTwice(w: World, e: Entity, i: int)
    requires 0 <= i < |w.systems| && Wants(e, w.systems[i])
    ensures AddEntity(AddEntity(w, e), e).systems[i].Entities() == w.systems[i].Entities() + [e.id, e.id]
    ensures Count(AddEntity(AddEntity(w, e), e).systems[i].Entities(), e.id) == Count(w.systems[i].Entities(), e.id) + 2
  {
    var once := AddEntity(w, e);
    assert once.systems[i].Entities() == w.systems[i].Entities() + [e.id];
    assert w.systems[i].Entities() + [e.id] + [e.id] == w.systems[i].Entities() + [e.id, e.id];
  }

  /** No retroactive wiring: a system added after an entity does not list it. */
  lemma LateSystemMissesEntity(w: World, e: Entity, s: Sys)
    ensures var r := AddSystem(AddEntity(w, e), s);
            r.systems[|w.systems|].Entities() == [] && e.id !in r.systems[|w.systems|].Entities()
  {
  }

  /**
   * World.Entities: the slice is made with length n (n nil pointers) and the
   * n entities are then appended, so it has 2n slots. `order` is the order
   * Go's map iteration happens to produce.
   */
  method Entities(w: World, order: seq<Id>) returns (r: seq<Option<Id>>)
    requires |order| == |w.entities|
    requires forall id :: id in order <==> id in w.entities
    ensures |r| == 2 * |w.entities|
    ensures forall k :: 0 <= k < |w.entities| ==> r[k] == None
    ensures forall k :: |w.entities| <= k < |r| ==> r[k] == Some(order[k - |w.entities|]) && r[k].value in w.entities
    ensures forall id :: id in w.entities ==> Some(id) in r[|w.entities|..]
  {
    var n := |w.entities|;
    r := seq(n, _ => None);
    var k := 0;
    while k < |order|
      invariant 0 <= k <= |order|
      invariant |r| == n + k
      invariant forall j :: 0 <= j < n ==> r[j] == None
      invariant forall j :: n <= j < |r| ==> r[j] == Some(order[j - n])
    {
      r := r + [Some(order[k])];
      k := k + 1;
    }
    forall id | id in w.entities
      ensures Some(id) in r[n..]
    {
      var j :| 0 <= j < |order| && order[j] == id;
      assert r[n..][j] == Some(id);
    }
  }
}
